=== FILE: README.md ===
# A verified model of the mini-database core of `main.py`

`main.py` is a command-line, JSON-file database. Each database is a folder.
Each table is a `schema.json` (a list of column records: name, type,
NOT NULL, UNIQUE, AUTO_INCREMENT, default) plus a `data.json` (a list of
rows, each a JSON object). Users hold per-database rights lists in
`users.json`.

This project models the logic between the prompts and the files, as pure
Dafny functions over immutable values:

- `Values`: the runtime values that cells take. This covers
  - Python equality (`PyEq`: booleans, ints and floats compare numerically; lists and dicts compare structurally);
  - Python ordering (`Compare`, where `None` stands for the `TypeError` a mixed comparison raises);
  - ISO dates and their text form;
  - `serializable_value`.
- `Codec`: `convert_input_to_type`, the decoding of typed text. It covers the empty-input rule, the bool word lists, ISO dates, integers in Python's `int()` syntax over ASCII digits, and the list/dict checks.
- `Conditions`: the search syntax. `_parse_single_condition` is the anchored regular expression `col op value`, with its backtracking made explicit as a search for the first match in the regex engine's preference order. `_parse_where_clause` splits on case-insensitive `and` between runs of white space.
- `Evaluator`: `_match_condition` and the row-filter loops of `search` and of the update command. This includes the exact behaviour of `like`: the value is regex-escaped, `\%` is rewritten, and the search is case-insensitive.
- `Schema`, `Constraints`: the column list, the auto-increment scan, the NOT NULL rule, the insert-time and update-time UNIQUE checks, and one field edit of the update command.
- `Alter`: the four schema alterations (add, drop, retype, rename), each with its effect on every row.
- `SchemaText`: `parse_schema_input`, with a rendering that it inverts.
- `Rights`: `grant_rights`, `revoke_rights` and `check_permission` over an in-memory user map.
- `Text`, `Wrappers`: Python string built-ins that the core relies on (`strip`, ASCII `lower`, `split`, `int()` of ASCII-digit text, code-point string order), and `Option`/`Result`.

Foreign calls become fields of a `Host` record (`Values.Host`) that the model takes as a parameter, and nothing is assumed about them. These are `json.loads`, `float()`, `datetime.fromisoformat`, and `str()` of a float, a list or a dict. `str()` of a date or a datetime is written out: the ISO text, with a space between date and time for a datetime.

## Model

| member | source | states |
|---|---|---|
| Text.Strip | main.py:23 | the result has no leading or trailing white space (Python's `isspace` set); it is empty exactly when the input is all white space; text already trimmed is returned unchanged |
| Text.StripIsInfix | main.py:27 | the stripped text is a slice of the input, with only white space cut from either side |
| Text.Lower | main.py:46 | lower-casing keeps the length and maps each character by ASCII case folding |
| Text.LowerHasNoUpper | main.py:32 | lower-cased text has no upper-case letters, and lower-casing it again changes nothing |
| Text.LowerOfNoUpper | main.py:46 | text without upper-case letters is its own lower-case form |
| Text.NatToString | main.py:627 | the decimal text of a natural number is a non-empty digit string whose value is that number |
| Text.FixedDigitsValue | main.py:60-65 | a zero-padded field of width w holds the value of any number below 10^w |
| Text.FixedDigitsOfValue | main.py:60-65 | a digit string is the zero-padded rendering of its own value |
| Text.ParseUnsigned | main.py:50 | digits with single underscores between groups are accepted, exactly, and read as the decimal value of their digits, underscores skipped |
| Text.ParseInt | main.py:50 | `int()` of text succeeds exactly when the stripped text is an optional sign followed by underscore-separated ASCII digit groups, and gives the digits' value, negated after a `-` |
| Text.UnderscoreIgnored | main.py:50 | an underscore between digit groups leaves the value unchanged, as `int("1_000") == int("1000")` |
| Text.LeadingZeroIgnored | main.py:50 | a leading zero leaves the value unchanged, as `int("007") == int("7")` |
| Text.ParseIntExamples | main.py:50 | `int("-1_000")` is -1000 and `int("+007")` is 7 |
| Text.IntRoundTrip | main.py:627 | reading back the decimal text of any integer gives that integer |
| Text.IndexOf | main.py:31 | the split point of `split(":", 1)` is the first occurrence of the separator |
| Text.IndexOfFirst | main.py:31 | any position holding the first occurrence of the separator is the one found |
| Text.Split | main.py:25 | `split(",")` gives at least one part, no part contains the separator, and joining the parts with the separator gives back the text |
| Text.SplitJoin | main.py:25 | splitting text joined from separator-free parts gives back those parts |
| Text.CompareStrEq | main.py:1312 | code-point order ranks two strings equal exactly when they are the same string |
| Text.CompareStrFlip | main.py:1312 | swapping the operands of a string comparison flips the result |
| Text.StrLessTransitive | main.py:1312 | the string order used by `sorted` is transitive |
| Text.StrLessTotal | main.py:1312 | of two different strings, one sorts before the other |
| Values.ParseIsoDate | main.py:60-65 | only calendar-valid dates (years 1-9999, correct month lengths, leap years) are accepted |
| Values.IsoDateRoundTrip | main.py:86-91 | reading the ISO text of a valid date gives that date back |
| Values.IsoDateCanonical | main.py:60-65 | any accepted date text is the canonical `YYYY-MM-DD` text of what it denotes |
| Values.Serialize | main.py:86-91 | the result can be stored as JSON; a value that can be stored is left alone; a date or timestamp becomes non-empty text |
| Values.PyEqReflexive | main.py:174-175 | every value equals itself under Python `==` |
| Values.PyEqSymmetric | main.py:174-177 | Python `==` is symmetric over all values, including nested lists and dicts |
| Values.PyEqTransitiveOnScalars | main.py:641 | on hashable values, `==` is transitive, so the retype `seen` set behaves as a set |
| Values.CompareMixedKinds | main.py:178-187 | an ordering between None, dicts, a date and a datetime, or text and non-text raises, which the condition turns into false |
| Codec.Decode | main.py:40-83 | empty input gives `""` for `str` and None otherwise; unknown type names are errors; a decoded value has the requested type; `str` keeps the text itself; bool accepts exactly the listed true and false words (stripped, case-insensitive); `int` accepts exactly Python integer syntax and stores `int()` of the text; `float` and `datetime` succeed exactly when the host parser does and store what it returns; `date` accepts exactly valid ISO dates and stores that date; list and dict accept exactly JSON of that shape and store the parsed JSON value |
| Codec.DecodeIntExamples | main.py:49-50 | typing `007` into an `int` column stores 7, and `1_000` stores 1000 |
| Codec.LowerTags | main.py:46 | the type names `str`, `int`, `bool`, `date` are already lower-case |
| Codec.DecodedNonEmptyIsPresent | main.py:813-814 | decoding non-empty input never gives None, and its stored form is neither None nor empty text |
| Codec.DateRoundTrip | main.py:60-65 | the stored text of a valid date decodes back to that date |
| Codec.DateDecodeCanonical | main.py:60-65 | text decodes as a given date exactly when it is that date's canonical ISO text |
| Codec.ReadBackInt | main.py:152-158 | the text of a stored integer decodes under `int` to the same integer, as the comparison operands need |
| Codec.ReadBackBool | main.py:152-158 | `True`/`False` (the text of a stored bool) decode under `bool` to the same bool |
| Codec.ReadBackStr | main.py:152-158 | stored text decodes under `str` to itself |
| Codec.BoolWordsRead | main.py:53-58 | Python's bool texts are among the accepted bool words |
| Schema.TypeMap | main.py:963-968 | the column-to-type map covers exactly the column names, and gives each column its declared type |
| Schema.NamesOfInit | main.py:561 | the names of a schema with a column appended are the old names plus the new one |
| SchemaText.ParseEntry | main.py:26-35 | one comma-separated entry yields a column exactly when it is not blank |
| SchemaText.BareEntry | main.py:34-35 | an entry without a colon declares the stripped name with type `str` |
| SchemaText.ParseEntryClean | main.py:30-33 | a parsed entry has a trimmed name with no colon or comma, and a trimmed, lower-case type without commas |
| SchemaText.ColonHalvesClean | main.py:31-32 | the two halves of a `name:type` split are clean column parts |
| SchemaText.ParseEach | main.py:26 | each part is parsed on its own |
| SchemaText.Entries | main.py:26-35 | there are never more columns than comma-separated parts |
| SchemaText.EntriesClean | main.py:26-35 | every column parsed from comma-free parts is clean |
| SchemaText.ParseSchemaInput | main.py:22-37 | blank input gives no columns, and every column returned is clean |
| SchemaText.BlankGuardAgrees | main.py:23-24 | the early return on blank input agrees with what the loop would produce |
| SchemaText.BlankEntries | main.py:28-29 | blank parts are skipped |
| Text.StripIdempotent | main.py:27 | stripping twice is stripping once |
| Text.StripWithin | main.py:27 | stripping adds no characters |
| Text.StripLacks | main.py:27 | a character absent from the text is absent from the stripped text |
| SchemaText.Texts | main.py:22-37 | rendering gives one `name:type` text per column |
| SchemaText.EntryTextStripped | main.py:27 | the text of a clean column is already trimmed |
| SchemaText.EntryTextShape | main.py:31 | the first colon in a rendered entry separates the name from the type |
| SchemaText.ParseEntryText | main.py:30-32 | parsing the text of a clean column gives that column |
| SchemaText.EntriesOfTexts | main.py:26-35 | parsing the rendered entries of clean columns gives those columns |
| SchemaText.RenderRoundTrip | main.py:22-37 | `parse_schema_input` inverts the comma-joined rendering of any non-empty list of clean columns |
| SchemaText.ParseIsNormalForm | main.py:22-37 | re-parsing the rendering of a parse result gives the same columns |
| Conditions.IdentEnd | main.py:106 | the end of the leading `[A-Za-z0-9_.]` run |
| Conditions.TryValue | main.py:106 | the longest value token after the operator, if any |
| Conditions.TryOp | main.py:106 | for a fixed column length, gap and operator alternative: a match if one exists, with the regex engine's preferred value length |
| Conditions.TryOps | main.py:106 | the operator alternatives tried in the pattern's order, giving the preferred match among them |
| Conditions.TryGap | main.py:106 | backtracking over the white space before the operator gives the preferred match |
| Conditions.TryIdent | main.py:106 | backtracking over the column-name length gives the preferred match |
| Conditions.FindHit | main.py:106 | the search finds a match exactly when one exists, and no other match takes precedence over it in the regex engine's order |
| Conditions.OutranksTotal | main.py:106 | the engine's preference order ranks any two different matches |
| Conditions.Unquote | main.py:113-114 | a value wrapped in matching quotes loses exactly those quotes; a lone quote character becomes empty; any other value is kept as it is |
| Conditions.ParseCondition | main.py:102-116 | parsing fails exactly when the stripped text matches the pattern nowhere; a parsed column is a non-empty identifier |
| Conditions.ParseConditionIsFirstMatch | main.py:102-116 | the parse returns the column, lower-cased operator and unquoted value of the preferred match |
| Conditions.NextAnd | main.py:120 | the next `\s+and\s+` separator, with none before it |
| Conditions.Spans | main.py:120 | the cut positions of `re.split` satisfy the splitting relation |
| Conditions.CutsAtUnique | main.py:120 | there is only one way to cut a clause at its separators |
| Conditions.CutsAtOrdered | main.py:120 | the pieces come in text order |
| Conditions.SplitAnd | main.py:120 | each piece is the text between successive separators |
| Conditions.Collect | main.py:122-126 | the collected list exists exactly when every part parsed, and it holds their results in order |
| Conditions.ParseAll | main.py:121-127 | the clause is refused exactly when some part fails to parse; otherwise one condition per part, in order |
| Conditions.ParseWhere | main.py:119-127 | `_parse_where_clause`: the conditions are the parses of the split pieces, and it fails exactly when one piece does not parse |
| Conditions.ParseFilter | main.py:981-988 | a blank WHERE clause is no condition at all; any other clause is parsed |
| Evaluator.PrefixMatchWitness | main.py:137-141 | an anchored match of the `like` pattern gives the length of the text it covers |
| Evaluator.PrefixMatchComplete | main.py:137-141 | any covered prefix is found by the anchored match |
| Evaluator.SearchFromMeaning | main.py:141 | `re.search` from a position succeeds exactly when some later slice matches the pattern in full |
| Evaluator.LikeMatchMeaning | main.py:135-143 | `like` holds exactly when some slice of the text matches the escaped pattern, ignoring case |
| Evaluator.Lits | main.py:137 | a pattern without a backslash before `%` is a character-for-character literal |
| Evaluator.PlainLikePattern | main.py:137-138 | with no backslash before `%`, the escaped pattern is the value itself, literally |
| Evaluator.MatchesAllLits | main.py:141 | a literal pattern matches text of the same length that is equal ignoring case |
| Evaluator.PlainLikeIsSubstring | main.py:135-143 | for such values, `like` is case-insensitive substring search |
| Evaluator.PercentIsLiteral | main.py:137-138 | `%` is not a wildcard: `john` is not `like 'jo%'` |
| Evaluator.EscapedPercentMatchesDots | main.py:138 | a backslash before `%` stands for any number of dots |
| Evaluator.Fallback | main.py:157-170 | when the literal does not decode, it is read as an int next to an int or bool (the value `int(lit)` when that parses, the text otherwise), as a float next to a float (the value `float(lit)` when the host parser accepts it, the text otherwise), and as text in every other case; the bool branch can never be reached |
| Evaluator.BoolFallbackUnreachable | main.py:160-166 | because a bool is an int in Python, the bool word rule in the fallback is dead code |
| Evaluator.Apply | main.py:172-189 | an ordering whose comparison raises is false; `>` and `<` never hold between equal values; `>=` holds exactly for greater-or-equal and `<=` for less-or-equal, where equal means Python equality; `like` never reaches this point |
| Evaluator.EqualityOperators | main.py:174-177 | `==` is `=`, `!=` is the negation of `=`, and `=` is symmetric |
| Evaluator.CompareEqIsPyEq | main.py:174-185 | when two values are comparable, the ordering reports equal exactly when Python equality holds, through lists of any depth |
| Evaluator.CompareItemsEqIsPyEq | main.py:174-185 | after a prefix of pairwise-equal items, a comparison of the rest of two lists that does not raise reports equal exactly when the whole lists are Python-equal |
| Evaluator.IncomparableIsFalse | main.py:186-187 | an ordering between incomparable values is false |
| Evaluator.CompareFlip | main.py:178-185 | swapping operands flips every ordering, through lists of any depth |
| Evaluator.CompareItemsFlip | main.py:178-185 | swapping two lists flips their element-wise ordering from any position |
| Evaluator.CompareIntFlip | main.py:178-185 | swapping two numbers flips their ordering |
| Evaluator.CompareDateFlip | main.py:178-185 | swapping two dates flips their ordering |
| Evaluator.CompareTimestampFlip | main.py:178-185 | swapping two timestamps flips their ordering |
| Evaluator.GreaterIsFlippedLess | main.py:178-185 | `a > b` is `b < a` and `a >= b` is `b <= a` |
| Evaluator.MatchCondition | main.py:129-189 | `like` searches the text form of the stored value (`None` if missing); a missing or None value matches only `=`/`==` against `null` or `none`; otherwise the stored value and the literal are decoded under the column type and compared |
| Evaluator.LikeOnMissingSearchesNone | main.py:131-141 | `like` on a missing field searches the text `None` |
| Evaluator.IntComparisonExample | main.py:129-189 | `age > 30` holds and `age < 30` fails for a stored 42 in an `int` column |
| Evaluator.NullLiteralExamples | main.py:146-149 | `status = null` matches a missing field, and also the stored text `null` in a `str` column; `!= null` never matches a missing field |
| Evaluator.IntColumnComparison | main.py:151-189 | for any stored integer in an `int` column and any integer literal, every operator other than `like` gives the integer comparison it names |
| Evaluator.NullLiteralOnStrColumn | main.py:146-175 | on a `str` column, `= null` (or `none`, in any case) matches exactly a missing or None field or one whose text is the literal itself; `!=` with such a literal matches exactly a present field whose text differs |
| Evaluator.RowMatches | main.py:993-1000 | a row passes exactly when it satisfies every condition, and a condition on an unknown column is failed |
| Evaluator.Select | main.py:990-1002 | given which rows pass, the result keeps exactly those rows, in their original order, with strictly increasing indices, and all rows when all pass |
| Evaluator.Filter | main.py:990-1002 | the result keeps exactly the rows that pass, in their original order, with their indices (the update command repeats this loop at main.py:1078-1090) |
| Evaluator.NoConditionsKeepEveryRow | main.py:982-1002 | with no conditions every row passes |
| Evaluator.UnknownColumnRejectsAll | main.py:995-997 | a condition on a column outside the schema rejects every row |
| Evaluator.SatisfiesAppend | main.py:994-1000 | passing a conjunction of condition lists is passing each |
| Constraints.MaxStoredInt | main.py:754-767 | the scan result bounds every stored value that `int()` accepts, and is 0 or one of them |
| Constraints.NextAutoIncrement | main.py:754-768 | the next number is at least 1, above every stored integer, and one more than the largest (or 1) |
| Constraints.ConflictFrom | main.py:1102-1107 | some row other than the excluded one holds an equal value |
| Constraints.UniqueConflict | main.py:1099-1107 | None never conflicts; another value conflicts exactly when a different row stores an equal value |
| Constraints.ViolationFrom | main.py:700-705 | some row from a position on holds an equal value |
| Constraints.IsUniqueViolation | main.py:699-706 | a candidate violates uniqueness exactly when some row stores an equal value (None equals a missing or None field) |
| Constraints.UniqueChecksAgree | main.py:1099-1107 | for a non-None candidate, the insert check and the update check with no excluded row agree |
| Constraints.DefaultCandidate | main.py:797-806 | a declared int, float, bool, list or dict default is used as it is; a text default is replaced by its decoded, serialised value under the column type, or kept raw when it does not decode; a storable default gives a storable value |
| Constraints.InsertCandidate | main.py:797-818 | blank input gives the default when one is declared and None otherwise; non-empty input is accepted exactly when it decodes, and gives the serialised decoded value, which is present and storable |
| Constraints.FieldCandidate | main.py:1155-1163 | `null` in any case gives None; other input is accepted exactly when it decodes, fails with the decoder's error otherwise, and gives a storable value that is present when the input is not blank |
| Constraints.CheckInsertValue | main.py:821-844 | NOT NULL refuses exactly None and empty text in a NOT NULL column; UNIQUE refuses exactly a non-None value already stored in the column; otherwise the value goes through unchanged |
| Constraints.CheckInsertValueAsWritten | main.py:843-844 | as written, every non-None candidate for a UNIQUE column that passes NOT NULL reaches the lookup of the undefined name |
| Constraints.InsertIntoEmptyUniqueColumnRaises | main.py:843-844 | inserting 1 into an empty UNIQUE column fails as written and is accepted by the corrected check |
| Constraints.InsertKeepsUnique | main.py:843-858 | appending a record that passes the UNIQUE check keeps the column free of duplicates |
| Constraints.EditField | main.py:1140-1177 | an AUTO_INCREMENT field is locked; blank input changes nothing; other input is accepted exactly when its candidate decodes, passes NOT NULL and finds no equal value in another row of a UNIQUE column, and then exactly that field of that row is set to the candidate; a UNIQUE column stays free of duplicates |
| Constraints.EditKeepsUnique | main.py:1171-1175 | a value that passes the update-time UNIQUE check keeps the column free of duplicates |
| Alter.FirstIndex | main.py:606 | the first column with the given name |
| Alter.AddedDefault | main.py:543-550 | a blank default is none; otherwise it is kept exactly when it decodes under the new type, as the serialised decoded value; it is always storable |
| Alter.CountNeedingMonotone | main.py:580-583 | more empty rows come before a later row than before an earlier empty one |
| Alter.NumberRows | main.py:579-583 | the numbering loop fills the empty rows as the functional definition does |
| Alter.AutoNumberedAt | main.py:580-583 | an empty row gets the start value plus the number of empty rows before it; other rows keep their value |
| Alter.AutoNumbersIncrease | main.py:580-583 | the numbers given to empty rows increase in row order |
| Alter.EqualToIntYieldsIt | main.py:570-576 | a value equal to an integer is read by `int()` as that integer |
| Alter.NumberedPairDiffers | main.py:564-583 | a freshly numbered cell differs from every other cell |
| Alter.AutoNumberingKeepsUnique | main.py:564-583 | numbering from one above the stored maximum keeps a duplicate-free column duplicate-free |
| Alter.AddedRows | main.py:580-588 | every row gets the new column; only that field changes; a present value is never overwritten; without auto-increment a missing field gets the default |
| Alter.AddColumn | main.py:521-590 | refused exactly for an existing name or an invalid type, and accepted otherwise; the new column is appended with its flags, AUTO_INCREMENT only for `int` and only if none exists, and the decoded default; a well-formed schema stays well-formed; rows are numbered or filled |
| Alter.Without | main.py:598 | removing a column removes exactly that name and keeps every other column, in the original order: the result holds as many columns as the input has under other names, and each of them sits after exactly the kept columns that preceded it |
| Alter.RowsRestored | main.py:599-600 | rows that gained only one key and lost it again are the rows they started from, when none held that key before |
| Alter.WellFormedTail | main.py:598 | the tail of a well-formed schema is well-formed |
| Alter.WellFormedCons | main.py:598 | a column whose name is new, and whose AUTO_INCREMENT flag is allowed, extends a well-formed schema |
| Alter.WithoutHasNoNewAuto | main.py:598 | removing a column adds no AUTO_INCREMENT column |
| Alter.WithoutKeepsWellFormed | main.py:598 | dropping a column keeps a well-formed schema well-formed |
| Alter.DropColumn | main.py:593-601 | refused exactly for an unknown name; otherwise every column of that name leaves the schema, the other columns stay in their original order, and the key leaves every row while its other fields stay |
| Alter.AddThenDrop | main.py:521-601 | adding a fresh column of a valid type succeeds, and, when no row already held a field of that name, dropping it again restores the table |
| Alter.SameExceptLacking | main.py:599-600 | two rows that both lack a field and agree elsewhere are equal |
| Alter.WithoutOfSnoc | main.py:593-598 | removing the column just appended gives back the old schema |
| Alter.NamesOfTail | main.py:598 | the names of a schema are the head's name plus the tail's names |
| Alter.ConvertCell | main.py:622-631 | a converted cell is storable, and is None or has the new type |
| Alter.DeduplicatedIsUnique | main.py:634-648 | after de-duplication no two rows hold equal values in the column |
| Alter.DropDuplicates | main.py:634-648 | the de-duplication loop fails exactly when a value is unhashable, and otherwise keeps the first of each group of equal values and sets the rest to None |
| Alter.DedupSkipsNull | main.py:639-640 | the loop invariant survives a None cell |
| Alter.DedupClearsRepeat | main.py:641-644 | the loop invariant survives clearing a repeat |
| Alter.DedupKeepsFirst | main.py:645-646 | the loop invariant survives recording a first occurrence |
| Alter.PrefixExtends | main.py:637-646 | the output prefix grows by the row the definition gives |
| Alter.HashableExtends | main.py:641 | the checked prefix grows by one hashable value |
| Alter.OriginsWiden | main.py:641-646 | every value in the seen set still comes from an earlier row |
| Alter.OriginsAdd | main.py:646 | a newly seen value comes from the current row |
| Alter.SlotsExtend | main.py:641-646 | each processed non-None value has an equal value in the seen set |
| Alter.SlotsGrow | main.py:646 | adding to the seen set keeps the earlier matches |
| Alter.DeduplicatedAt | main.py:637-646 | de-duplication changes at most the one field, and only by setting it to None |
| Alter.ConvertedAt | main.py:622-631 | conversion changes at most the one field, leaves None alone, and stores the converted value or None |
| Alter.RetypedRows | main.py:622-648 | other fields and None values are untouched; a present value becomes its conversion under the new type, except that in a UNIQUE column a value equal to a converted value of an earlier row becomes None; a UNIQUE column ends up free of duplicates |
| Alter.RetypeKeepsWellFormed | main.py:651 | changing a type keeps the schema well-formed when an AUTO_INCREMENT column stays `int` |
| Alter.RetypeColumn | main.py:604-652 | refused exactly for an unknown column, an invalid type, a non-`int` type on an AUTO_INCREMENT column, or an unhashable value in a UNIQUE column, and for nothing else; otherwise only that column's type changes and every stored value is None or of the new type |
| Alter.RenameColumn | main.py:655-676 | refused exactly for an unknown old name or an existing new name, and accepted otherwise; the first matching column is renamed; in every row holding the old field, the value moves to the new key and nothing else changes |
| Alter.RenameNames | main.py:666-669 | renaming to a fresh name replaces exactly that name and keeps the schema well-formed |
| Alter.RenameRoundTrip | main.py:655-676 | renaming back restores the table |
| Alter.MoveKeyBack | main.py:672-674 | moving a field to a fresh key and back restores the row |
| Rights.Insert | main.py:1310-1312 | adding a right to a sorted, repeat-free list keeps it sorted and repeat-free, and adds exactly that right |
| Rights.SortedSet | main.py:1312 | `sorted(set(xs))` is strictly sorted and has exactly the elements of `xs` |
| Rights.StrictlySortedUnique | main.py:1312 | two strictly sorted lists with the same elements are equal |
| Rights.Without | main.py:1326-1328 | discarding keeps exactly the elements not named |
| Rights.GrantRights | main.py:1299-1316 | an unknown user is refused; otherwise only that user's list for that database changes, to the sorted union of held and granted rights |
| Rights.RevokeRights | main.py:1318-1333 | an unknown user is refused; otherwise only that user's list for that database changes, to the sorted difference |
| Rights.CheckPermission | main.py:1345-1357 | only known users are allowed anything; `admin` on the database allows every right; without `admin`, a right is allowed exactly when it is held on that database |
| Rights.GrantAllows | main.py:1299-1357 | after a grant, every granted right is allowed by `check_permission` |
| Rights.RevokeRefuses | main.py:1318-1357 | after a revoke, a revoked right passes only if `admin` is still held |
| Rights.RevokeWithAdminRefuses | main.py:1318-1357 | revoking `admin` together with a right refuses that right |
| Rights.GrantLeavesOtherDatabases | main.py:1299-1316 | a grant on one database changes no check on another |
| Rights.GrantIdempotent | main.py:1299-1316 | granting the same rights twice stores what granting once does |
| Rights.RevokeUndoesGrant | main.py:1299-1333 | revoking freshly granted rights restores the user map |

## Where the model follows the code rather than the documented behaviour

- `like`: Python's `re.escape` leaves `%` alone, so `%` is a literal character and `name like 'jo%'` does not match `john` (`Evaluator.PercentIsLiteral`). Only a backslash typed immediately before `%` is rewritten. The escaped form `\\%` contains `\%`, which becomes `.*`, giving the regex `\.*`: zero or more literal dots (`Evaluator.EscapedPercentMatchesDots`).
- `col = null` on a `str` column matches a missing or None field. It also matches the stored text `null`, because the literal decodes to the text `null` under `str` (`Evaluator.NullLiteralOnStrColumn`).
- The bool word rule inside the comparison fallback (main.py:165-166) is unreachable: Python's `bool` is a subclass of `int`, so the `int` branch runs first (`Evaluator.BoolFallbackUnreachable`).
- `parse_schema_input` is not called anywhere in main.py; it is modelled as written.

## Left out

- Prompts, menus, retry loops, printing, and the reading and writing of `schema.json`, `data.json` and `users.json`: the model works on values in memory.
- Password hashing, login and user registration: a user record carries its password hash untouched.
- `float()`, `datetime.fromisoformat`, `json.loads` and `str()` of floats, lists and dicts: these are opaque `Host` functions, so nothing about floats, the datetime grammar or the JSON grammar is proved. `str()` of a date or datetime is not among them; it is the ISO text the model writes out. NaN and other float corner cases are out of reach for the same reason.
- Text.ParseInt: accepts the ASCII digits `0`-`9` only. Python's `int()` also accepts other Unicode decimal digits (Arabic-Indic, full-width and so on); the model reads such text as not an integer.
- Values.Timestamp: timestamps are naive. For text with a `+HH:MM` or `Z` suffix, `datetime.fromisoformat` returns an aware datetime. Aware values compare by their UTC instant, and ordering a naive value against an aware one raises `TypeError`, which main.py:186-187 turns into false. The model compares every timestamp field by field as a naive value.
- Case folding is ASCII only. `str.lower()` and `re.IGNORECASE` on non-ASCII letters are not modelled.
- `date.fromisoformat` is modelled as the strict `YYYY-MM-DD` form that the code's message names. The wider forms that Python 3.11 accepts are not modelled.
- Schema entries stored as bare strings (the legacy form that `insert_data` and `search` tolerate) are not modelled. Every column is a full record.
- Rights.CheckPermission, Rights.GrantRights, Rights.RevokeRights: `if not u` (main.py:1306, main.py:1322, main.py:1351) also treats a stored empty user object as unknown. A user record here always exists with a password hash, so that case cannot be written down, and the contract covers only the known/unknown split.
- Alter.DropDuplicates: `v in seen` raises `TypeError` for a list or dict value. It is modelled as an error result for the whole alteration (nothing is saved), which is what the uncaught exception amounts to.
- `get_user_rights` only reads the map and has no rule of its own. It is not modelled.
- The insert path's DEFAULT fallback after a NOT NULL refusal (main.py:823-838) is an interactive retry and is not modelled. The default rule for blank input (main.py:798-806) is `Constraints.DefaultCandidate`, which `Constraints.InsertCandidate` applies.

## Findings

| source | as written | input that shows it | evidently intended | confidence | as-written member | corrected member |
|---|---|---|---|---|---|---|
| main.py:843-844 | `is_unique_violation` iterates a global `data` that main.py never defines. The rows live in a local of `insert_data`, so any UNIQUE check raises `NameError` and aborts the insert. | insert `1` into a UNIQUE `int` column of an empty table | check the candidate against the rows of the table being inserted into | not executed | Constraints.CheckInsertValueAsWritten, Constraints.InsertIntoEmptyUniqueColumnRaises | Constraints.CheckInsertValue, Constraints.IsUniqueViolation |

=== FILE: alter.dfy ===
/** The four branches of `alter_table` (main.py:521-676) as pure functions
    from a table to a new table or an error. The answers to the prompts are
    parameters, already `.strip()`-ed as the prompts do; nothing is saved
    when an alteration fails. */
module Alter {
  import opened Wrappers
  import opened Text
  import opened Values
  import opened Codec
  import opened Schema
  import opened Constraints

  datatype AlterError =
    | ColumnExists(name: string)
    | InvalidType(tag: string)
    | ColumnMissing(name: string)
    | AutoIncrementMustStayInt(name: string)
    | Unhashable(name: string)

  /** `a` and `b` agree on every key other than `name`. */
  ghost predicate SameExcept(a: Row, b: Row, name: string) {
    forall k :: k != name ==> (k in a <==> k in b) && (k in a ==> a[k] == b[k])
  }

  /** Position of the first column called `name`: what
      `next(c for c in schema if c["name"] == name)` and the rename loop
      with its `break` pick. */
  function FirstIndex(cols: seq<Column>, name: string): (k: nat)
    requires name in Names(cols)
    ensures k < |cols| && cols[k].name == name
    ensures forall j | 0 <= j < k :: cols[j].name != name
    decreases |cols|
  {
    if cols[0].name == name then 0
    else
      assert name in Names(cols[1..]) by {
        var i :| 0 <= i < |cols| && cols[i].name == name;
        assert cols[1..][i - 1].name == name;
      }
      1 + FirstIndex(cols[1..], name)
  }

  // ---------------------------------------------------------------------
  // Add a column (main.py:521-590)
  // ---------------------------------------------------------------------

  /** The answers to the add-column prompts. `autoIncrement` is only asked
      for an `int` column; `defaultText` is empty when no default is given. */
  datatype AddRequest = AddRequest(
    name: string,
    typ: string,
    notNull: bool,
    unique: bool,
    autoIncrement: bool,
    defaultText: string)

  /** The declared default: the decoded, serialised text, or none at all
      when the text is empty or does not decode. */
  function AddedDefault(host: Host, typ: string, text: string): (d: Value)
    ensures text == "" ==> d == Null
    ensures text != "" ==> (d != Null <==> Decode(host, text, typ).Ok?)
    ensures text != "" && Decode(host, text, typ).Ok? ==> d == Serialize(Decode(host, text, typ).value)
    ensures Persistable(d)
  {
    if text == "" then Null
    else match Decode(host, text, typ)
      case Ok(v) =>
        DecodedNonEmptyIsPresent(host, text, typ);
        Serialize(v)
      case Err(_) => Null
  }

  /** Rows before position `i` whose value for `name` is missing or null:
      the rows that draw an auto-increment number before row `i` does. */
  function CountNeeding(rows: seq<Row>, name: string, i: nat): nat
    requires i <= |rows|
    decreases i
  {
    if i == 0 then 0
    else CountNeeding(rows, name, i - 1) + (if Get(rows[i - 1], name) == Null then 1 else 0)
  }

  lemma {:induction false} CountNeedingMonotone(rows: seq<Row>, name: string, i: nat, j: nat)
    requires i < j <= |rows| && Get(rows[i], name) == Null
    ensures CountNeeding(rows, name, i) < CountNeeding(rows, name, j)
    decreases j - i
  {
    if j == i + 1 {
    } else {
      CountNeedingMonotone(rows, name, i, j - 1);
    }
  }

  /** The numbering of main.py:577-581: the rows lacking a value draw
      `start`, `start + 1`, … in row order; every other row is kept. */
  function AutoNumbered(rows: seq<Row>, name: string, start: int): seq<Row> {
    seq(|rows|, i requires 0 <= i < |rows| =>
      if Get(rows[i], name) == Null then rows[i][name := Int(start + CountNeeding(rows, name, i))]
      else rows[i])
  }

  /** The loop of main.py:577-581, with its running counter. */
  method NumberRows(rows: seq<Row>, name: string, start: int) returns (out: seq<Row>)
    ensures out == AutoNumbered(rows, name, start)
  {
    out := [];
    var next := start;
    var i := 0;
    while i < |rows|
      invariant 0 <= i <= |rows|
      invariant |out| == i
      invariant next == start + CountNeeding(rows, name, i)
      invariant forall j | 0 <= j < i :: out[j] == AutoNumbered(rows, name, start)[j]
    {
      if Get(rows[i], name) == Null {
        out := out + [rows[i][name := Int(next)]];
        next := next + 1;
      } else {
        out := out + [rows[i]];
      }
      i := i + 1;
    }
  }

  /** The numbers drawn increase strictly in row order. */
  lemma AutoNumbersIncrease(rows: seq<Row>, name: string, start: int, i: int, j: int)
    requires 0 <= i < j < |rows|
    requires Get(rows[i], name) == Null && Get(rows[j], name) == Null
    ensures Get(AutoNumbered(rows, name, start)[i], name).Int?
    ensures Get(AutoNumbered(rows, name, start)[j], name).Int?
    ensures Get(AutoNumbered(rows, name, start)[i], name).i < Get(AutoNumbered(rows, name, start)[j], name).i
  {
    CountNeedingMonotone(rows, name, i, j);
  }

  /** A value Python finds equal to the integer `n` yields `n` under `int()`. */
  lemma EqualToIntYieldsIt(v: Value, n: int)
    requires PyEq(v, Int(n))
    ensures v != Null && IntOf(v) == Some(n)
  {
    if v.Float? {
      assert v.x == n as real;
      assert TruncToInt(v.x) == n;
    }
  }

  lemma AutoNumberedAt(rows: seq<Row>, name: string, start: int, i: int)
    requires 0 <= i < |rows|
    ensures Get(AutoNumbered(rows, name, start)[i], name) ==
              if Get(rows[i], name) == Null then Int(start + CountNeeding(rows, name, i)) else Get(rows[i], name)
  {
  }

  /** Two rows after numbering from above every stored int hold different
      values, when they held different values before. */
  lemma NumberedPairDiffers(rows: seq<Row>, name: string, start: int, i: int, j: int)
    requires 0 <= i < |rows| && 0 <= j < |rows| && i != j
    requires Get(rows[i], name) != Null ==> !PyEq(Get(rows[i], name), Get(rows[j], name))
    requires StoredInt(rows[i], name).Some? ==> StoredInt(rows[i], name).value < start
    requires StoredInt(rows[j], name).Some? ==> StoredInt(rows[j], name).value < start
    requires Get(AutoNumbered(rows, name, start)[i], name) != Null
    ensures !PyEq(Get(AutoNumbered(rows, name, start)[i], name), Get(AutoNumbered(rows, name, start)[j], name))
  {
    AutoNumberedAt(rows, name, start, i);
    AutoNumberedAt(rows, name, start, j);
    var a, b := Get(rows[i], name), Get(rows[j], name);
    if a == Null && b == Null {
      if i < j { AutoNumbersIncrease(rows, name, start, i, j); }
      else { AutoNumbersIncrease(rows, name, start, j, i); }
    } else if a == Null {
      var n := start + CountNeeding(rows, name, i);
      if PyEq(Int(n), b) {
        PyEqSymmetric(Int(n), b);
        EqualToIntYieldsIt(b, n);
      }
    } else if b == Null {
      var n := start + CountNeeding(rows, name, j);
      if PyEq(a, Int(n)) {
        EqualToIntYieldsIt(a, n);
      }
    }
  }

  /** Numbering from `NextAutoIncrement` keeps a unique column unique: each
      drawn number is new, and above every number already stored. */
  lemma AutoNumberingKeepsUnique(rows: seq<Row>, name: string)
    requires UniqueOn(rows, name)
    ensures UniqueOn(AutoNumbered(rows, name, NextAutoIncrement(rows, name)), name)
  {
    var start := NextAutoIncrement(rows, name);
    var out := AutoNumbered(rows, name, start);
    forall i, j | 0 <= i < |out| && 0 <= j < |out| && i != j && Get(out[i], name) != Null
      ensures !PyEq(Get(out[i], name), Get(out[j], name))
    {
      NumberedPairDiffers(rows, name, start, i, j);
    }
  }

  /** The non-auto-increment fill of main.py:584-586: only rows lacking the
      key receive the default (or null). */
  function FillMissing(rows: seq<Row>, name: string, d: Value): seq<Row> {
    seq(|rows|, i requires 0 <= i < |rows| => if name in rows[i] then rows[i] else rows[i][name := d])
  }

  /** The rows once the column is added: numbered when it is the
      auto-increment column, filled with the default otherwise. */
  function AddedRows(rows: seq<Row>, name: string, auto: bool, d: Value): (out: seq<Row>)
    ensures |out| == |rows|
    ensures forall i | 0 <= i < |rows| ::
              && name in out[i]
              && SameExcept(out[i], rows[i], name)
              && (Get(rows[i], name) != Null ==> out[i] == rows[i])
    ensures !auto ==> forall i | 0 <= i < |rows| ::
              out[i][name] == (if name in rows[i] then rows[i][name] else d)
  {
    if auto then AutoNumbered(rows, name, NextAutoIncrement(rows, name))
    else FillMissing(rows, name, d)
  }

  /** The add-column branch: a duplicate name or an unknown type aborts;
      auto-increment is kept only for an `int` column when the table has
      none yet; existing rows are numbered or filled. */
  function AddColumn(host: Host, t: Table, req: AddRequest): (r: Result<Table, AlterError>)
    ensures r == Err(ColumnExists(req.name)) <==> req.name in Names(t.columns)
    ensures r == Err(InvalidType(Lower(req.typ))) <==>
              req.name !in Names(t.columns) && Lower(req.typ) !in ValidTypes
    ensures req.name !in Names(t.columns) && Lower(req.typ) in ValidTypes ==> r.Ok?
    ensures r.Ok? ==>
              && |r.value.columns| == |t.columns| + 1
              && r.value.columns[..|t.columns|] == t.columns
              && var col := r.value.columns[|t.columns|];
              && col.name == req.name && col.typ == Lower(req.typ)
              && col.notNull == req.notNull && col.unique == req.unique
              && (col.autoIncrement <==> Lower(req.typ) == "int" && req.autoIncrement && !HasAutoIncrement(t.columns))
              && col.default == AddedDefault(host, Lower(req.typ), req.defaultText)
    ensures r.Ok? && WellFormed(t.columns) ==> WellFormed(r.value.columns)
    ensures r.Ok? ==> |r.value.rows| == |t.rows|
    ensures r.Ok? ==> forall i | 0 <= i < |t.rows| ::
              && req.name in r.value.rows[i]
              && SameExcept(r.value.rows[i], t.rows[i], req.name)
              && (Get(t.rows[i], req.name) != Null ==> r.value.rows[i] == t.rows[i])
    ensures r.Ok? && r.value.columns[|t.columns|].autoIncrement ==>
              r.value.rows == AutoNumbered(t.rows, req.name, NextAutoIncrement(t.rows, req.name))
    ensures r.Ok? && !r.value.columns[|t.columns|].autoIncrement ==> forall i | 0 <= i < |t.rows| ::
              r.value.rows[i][req.name] == (if req.name in t.rows[i] then t.rows[i][req.name] else r.value.columns[|t.columns|].default)
  {
    if req.name in Names(t.columns) then Err(ColumnExists(req.name))
    else
      var typ := Lower(req.typ);
      if typ !in ValidTypes then Err(InvalidType(typ))
      else
        var auto := typ == "int" && req.autoIncrement && !HasAutoIncrement(t.columns);
        var d := AddedDefault(host, typ, req.defaultText);
        var col := Column(req.name, typ, req.notNull, req.unique, auto, d);
        var rows := AddedRows(t.rows, req.name, auto, d);
        assert (t.columns + [col])[..|t.columns|] == t.columns;
        Ok(Table(t.columns + [col], rows))
  }

  // ---------------------------------------------------------------------
  // Drop a column (main.py:593-601)
  // ---------------------------------------------------------------------

  /** How many of the first `i` columns are not called `name`: the position
      the `i`-th column takes once the others are dropped. */
  function KeptBefore(cols: seq<Column>, name: string, i: nat): nat
    requires i <= |cols|
    decreases i
  {
    if i == 0 then 0
    else KeptBefore(cols[1..], name, i - 1) + (if cols[0].name != name then 1 else 0)
  }

  /** The list comprehension of main.py:598: the columns not called `name`,
      in their original order. */
  function Kept(cols: seq<Column>, name: string): seq<Column>
    decreases |cols|
  {
    if |cols| == 0 then []
    else if cols[0].name == name then Kept(cols[1..], name)
    else [cols[0]] + Kept(cols[1..], name)
  }

  /** The schema without any column called `name`: that name is gone, every
      other column stays, and the kept columns keep their relative order
      (the column at position `i` moves to `KeptBefore(cols, name, i)`). */
  function Without(cols: seq<Column>, name: string): (r: seq<Column>)
    ensures Names(r) == Names(cols) - {name}
    ensures forall c | c in r :: c in cols && c.name != name
    ensures forall c | c in cols && c.name != name :: c in r
    ensures name !in Names(cols) ==> r == cols
    ensures |r| == KeptBefore(cols, name, |cols|)
    ensures forall i | 0 <= i < |cols| && cols[i].name != name ::
              KeptBefore(cols, name, i) < |r| && r[KeptBefore(cols, name, i)] == cols[i]
  {
    KeptMembers(cols, name);
    KeptLength(cols, name);
    forall i | 0 <= i < |cols| && cols[i].name != name
      ensures KeptBefore(cols, name, i) < |Kept(cols, name)| && Kept(cols, name)[KeptBefore(cols, name, i)] == cols[i]
    {
      KeptAt(cols, name, i);
    }
    Kept(cols, name)
  }

  lemma {:induction false} KeptMembers(cols: seq<Column>, name: string)
    ensures Names(Kept(cols, name)) == Names(cols) - {name}
    ensures forall c | c in Kept(cols, name) :: c in cols && c.name != name
    ensures forall c | c in cols && c.name != name :: c in Kept(cols, name)
    ensures name !in Names(cols) ==> Kept(cols, name) == cols
    decreases |cols|
  {
    if |cols| > 0 {
      var rest := Kept(cols[1..], name);
      KeptMembers(cols[1..], name);
      NamesOfTail(cols);
      if cols[0].name == name {
        assert Kept(cols, name) == rest;
        assert forall c | c in cols && c.name != name :: c in cols[1..] by {
          assert cols == [cols[0]] + cols[1..];
        }
      } else {
        var r := [cols[0]] + rest;
        assert Kept(cols, name) == r;
        NamesOfTail(r);
        assert r[1..] == rest;
        assert forall c | c in cols && c.name != name :: c in r by {
          assert cols == [cols[0]] + cols[1..];
        }
        assert name !in Names(cols) ==> r == cols by {
          assert cols == [cols[0]] + cols[1..];
        }
      }
    }
  }

  lemma {:induction false} KeptLength(cols: seq<Column>, name: string)
    ensures |Kept(cols, name)| == KeptBefore(cols, name, |cols|)
    decreases |cols|
  {
    if |cols| > 0 {
      KeptLength(cols[1..], name);
    }
  }

  lemma {:induction false} KeptAt(cols: seq<Column>, name: string, i: nat)
    requires i < |cols| && cols[i].name != name
    ensures KeptBefore(cols, name, i) < |Kept(cols, name)|
    ensures Kept(cols, name)[KeptBefore(cols, name, i)] == cols[i]
    decreases i
  {
    if i > 0 {
      assert cols[1..][i - 1] == cols[i];
      KeptAt(cols[1..], name, i - 1);
    }
  }

  lemma NamesOfTail(cols: seq<Column>)
    requires |cols| > 0
    ensures Names(cols) == {cols[0].name} + Names(cols[1..])
  {
    forall n | n in Names(cols) ensures n in {cols[0].name} + Names(cols[1..]) {
      var i :| 0 <= i < |cols| && cols[i].name == n;
      if i > 0 { assert cols[1..][i - 1].name == n; }
    }
    forall n | n in Names(cols[1..]) ensures n in Names(cols) {
      var i :| 0 <= i < |cols[1..]| && cols[1..][i].name == n;
      assert cols[i + 1].name == n;
    }
  }

  /** Taking the first column off a well-formed schema. */
  lemma WellFormedTail(cols: seq<Column>)
    requires |cols| > 0 && WellFormed(cols)
    ensures WellFormed(cols[1..])
    ensures cols[0].name !in Names(cols[1..])
    ensures cols[0].autoIncrement ==> cols[0].typ == "int" && !HasAutoIncrement(cols[1..])
  {
    var rest := cols[1..];
    forall i, j | 0 <= i < j < |rest| ensures rest[i].name != rest[j].name {
      assert cols[i + 1] == rest[i] && cols[j + 1] == rest[j];
    }
    forall i, j | 0 <= i < j < |rest| ensures !(rest[i].autoIncrement && rest[j].autoIncrement) {
      assert cols[i + 1] == rest[i] && cols[j + 1] == rest[j];
    }
    forall i | 0 <= i < |rest| ensures rest[i].name != cols[0].name && !(cols[0].autoIncrement && rest[i].autoIncrement) {
      assert cols[i + 1] == rest[i];
    }
  }

  /** Putting a column in front of a well-formed schema. */
  lemma WellFormedCons(c: Column, w: seq<Column>)
    requires WellFormed(w) && c.name !in Names(w)
    requires c.autoIncrement ==> c.typ == "int" && !HasAutoIncrement(w)
    ensures WellFormed([c] + w)
  {
    var r := [c] + w;
    forall j | 0 <= j < |w| ensures c.name != w[j].name && !(c.autoIncrement && w[j].autoIncrement) {
      assert w[j].name in Names(w);
    }
    forall i, j | 0 <= i < j < |r| ensures r[i].name != r[j].name && !(r[i].autoIncrement && r[j].autoIncrement) {
      if i > 0 { assert r[i] == w[i - 1] && r[j] == w[j - 1]; }
      else { assert r[j] == w[j - 1]; }
    }
    forall i | 0 <= i < |r| ensures r[i].autoIncrement ==> r[i].typ == "int" {
      if i > 0 { assert r[i] == w[i - 1]; }
    }
  }

  /** Dropping columns never adds an auto-increment column. */
  lemma WithoutHasNoNewAuto(cols: seq<Column>, name: string)
    requires !HasAutoIncrement(cols)
    ensures !HasAutoIncrement(Without(cols, name))
  {
    var w := Without(cols, name);
    forall i | 0 <= i < |w| ensures !w[i].autoIncrement {
      assert w[i] in cols;
    }
  }

  lemma {:induction false} WithoutKeepsWellFormed(cols: seq<Column>, name: string)
    requires WellFormed(cols)
    ensures WellFormed(Without(cols, name))
    decreases |cols|
  {
    if |cols| > 0 {
      var rest := cols[1..];
      WellFormedTail(cols);
      WithoutKeepsWellFormed(rest, name);
      if cols[0].name != name {
        assert Without(cols, name) == [cols[0]] + Without(rest, name);
        if cols[0].autoIncrement { WithoutHasNoNewAuto(rest, name); }
        WellFormedCons(cols[0], Without(rest, name));
      }
    }
  }

  /** The drop branch: an unknown column aborts; otherwise every column of
      that name leaves the schema and the key leaves every row. */
  function DropColumn(t: Table, name: string): (r: Result<Table, AlterError>)
    ensures r.Err? <==> name !in Names(t.columns)
    ensures r.Err? ==> r.error == ColumnMissing(name)
    ensures r.Ok? ==> Names(r.value.columns) == Names(t.columns) - {name}
    ensures r.Ok? ==> forall c | c in t.columns && c.name != name :: c in r.value.columns
    ensures r.Ok? ==> |r.value.columns| == KeptBefore(t.columns, name, |t.columns|)
    ensures r.Ok? ==> forall i | 0 <= i < |t.columns| && t.columns[i].name != name ::
              KeptBefore(t.columns, name, i) < |r.value.columns| && r.value.columns[KeptBefore(t.columns, name, i)] == t.columns[i]
    ensures r.Ok? && WellFormed(t.columns) ==> WellFormed(r.value.columns)
    ensures r.Ok? ==> |r.value.rows| == |t.rows|
    ensures r.Ok? ==> forall i | 0 <= i < |t.rows| ::
              name !in r.value.rows[i] && SameExcept(r.value.rows[i], t.rows[i], name)
  {
    if name !in Names(t.columns) then Err(ColumnMissing(name))
    else
      var cols := Without(t.columns, name);
      assert WellFormed(t.columns) ==> WellFormed(cols) by {
        if WellFormed(t.columns) { WithoutKeepsWellFormed(t.columns, name); }
      }
      Ok(Table(cols, seq(|t.rows|, i requires 0 <= i < |t.rows| => t.rows[i] - {name})))
  }

  /** Dropping a column just added, when no row held its key before,
      gives back the table as it was. */
  lemma AddThenDrop(host: Host, t: Table, req: AddRequest)
    requires req.name !in Names(t.columns) && Lower(req.typ) in ValidTypes
    requires forall i | 0 <= i < |t.rows| :: req.name !in t.rows[i]
    ensures AddColumn(host, t, req).Ok?
    ensures DropColumn(AddColumn(host, t, req).value, req.name) == Ok(t)
  {
    var t' := AddColumn(host, t, req).value;
    var col := t'.columns[|t.columns|];
    assert t'.columns == t.columns + [col];
    assert forall i | 0 <= i < |t.columns| :: t.columns[i].name in Names(t.columns);
    WithoutOfSnoc(t.columns, col);
    assert req.name in Names(t'.columns);
    var dropped := DropColumn(t', req.name).value;
    assert dropped.columns == Without(t'.columns, req.name);
    RowsRestored(dropped.rows, t'.rows, t.rows, req.name);
  }

  /** Rows that gained only `name` and then lost it again are the rows
      they started from, when none of them held `name` before. */
  lemma RowsRestored(a: seq<Row>, b: seq<Row>, c: seq<Row>, name: string)
    requires |a| == |b| == |c|
    requires forall i | 0 <= i < |a| :: name !in a[i] && SameExcept(a[i], b[i], name)
    requires forall i | 0 <= i < |c| :: name !in c[i] && SameExcept(b[i], c[i], name)
    ensures a == c
  {
    forall i | 0 <= i < |a| ensures a[i] == c[i] {
      SameExceptLacking(a[i], b[i], c[i], name);
    }
  }

  /** Two rows that agree with a third off `name`, and both lack `name`,
      are the same row. */
  lemma SameExceptLacking(a: Row, b: Row, c: Row, name: string)
    requires SameExcept(a, b, name) && SameExcept(b, c, name)
    requires name !in a && name !in c
    ensures a == c
  {
    assert a.Keys == c.Keys;
  }

  lemma {:induction false} WithoutOfSnoc(cols: seq<Column>, col: Column)
    requires forall i | 0 <= i < |cols| :: cols[i].name != col.name
    ensures Kept(cols + [col], col.name) == cols
    decreases |cols|
  {
    var s := cols + [col];
    if |cols| == 0 {
      assert s[1..] == [];
    } else {
      assert s[0] == cols[0] && s[1..] == cols[1..] + [col];
      assert forall i | 0 <= i < |cols[1..]| :: cols[1..][i] == cols[i + 1];
      WithoutOfSnoc(cols[1..], col);
      assert Kept(s, col.name) == [cols[0]] + Kept(s[1..], col.name);
      assert cols == [cols[0]] + cols[1..];
    }
  }

  // ---------------------------------------------------------------------
  // Change a column's type (main.py:604-652)
  // ---------------------------------------------------------------------

  /** A persisted value of type `t`: dates and datetimes persist as their
      ISO strings. */
  predicate StoredAs(v: Value, t: string) {
    HasType(v, t) || (v.Str? && (t == "date" || t == "datetime"))
  }

  /** One stored value re-read under the new type: decoded from its text
      and serialised again, or null when it does not decode. */
  function ConvertCell(host: Host, v: Value, typ: string): (r: Value)
    ensures Persistable(r)
    ensures Lower(typ) == typ ==> r == Null || StoredAs(r, typ)
  {
    match Decode(host, PyStr(host, v), typ)
    case Ok(x) => Serialize(x)
    case Err(_) => Null
  }

  /** The conversion loop of main.py:617-627: null or missing values are
      skipped, every other value is converted in place. */
  function Converted(host: Host, rows: seq<Row>, name: string, typ: string): seq<Row> {
    seq(|rows|, i requires 0 <= i < |rows| =>
      if Get(rows[i], name) == Null then rows[i] else rows[i][name := ConvertCell(host, Get(rows[i], name), typ)])
  }

  /** Row `i` holds a non-null value equal to one in an earlier row. */
  predicate LaterDuplicate(rows: seq<Row>, name: string, i: int)
    requires 0 <= i < |rows|
  {
    Get(rows[i], name) != Null && exists j | 0 <= j < i :: PyEq(Get(rows[j], name), Get(rows[i], name))
  }

  /** The deduplication of main.py:630-647 as a definition: a later
      duplicate is set to null, the earliest occurrence is kept. */
  function Deduplicated(rows: seq<Row>, name: string): seq<Row> {
    seq(|rows|, i requires 0 <= i < |rows| => DedupRow(rows, name, i))
  }

  function DedupRow(rows: seq<Row>, name: string, i: int): Row
    requires 0 <= i < |rows|
  {
    if LaterDuplicate(rows, name, i) then rows[i][name := Null] else rows[i]
  }

  predicate AllHashable(rows: seq<Row>, name: string) {
    forall i | 0 <= i < |rows| :: Hashable(Get(rows[i], name))
  }

  /** After deduplication no two rows hold equal non-null values. */
  lemma DeduplicatedIsUnique(rows: seq<Row>, name: string)
    ensures UniqueOn(Deduplicated(rows, name), name)
  {
    var out := Deduplicated(rows, name);
    forall i, j | 0 <= i < |out| && 0 <= j < |out| && i != j && Get(out[i], name) != Null
      ensures !PyEq(Get(out[i], name), Get(out[j], name))
    {
      assert !LaterDuplicate(rows, name, i);
      assert Get(out[i], name) == Get(rows[i], name);
      if !LaterDuplicate(rows, name, j) {
        assert Get(out[j], name) == Get(rows[j], name);
        if i > j && PyEq(Get(rows[i], name), Get(rows[j], name)) {
          PyEqSymmetric(Get(rows[i], name), Get(rows[j], name));
        }
      }
    }
  }

  /** `v in seen` for a set of hashable values. */
  predicate Seen(seen: seq<Value>, v: Value) {
    exists k | 0 <= k < |seen| :: PyEq(seen[k], v)
  }

  /** What the deduplication loop knows after `i` rows: `out` is the
      deduplicated prefix and every value so far is hashable; `seen[k]` is
      the value of row `origin[k]`, and every non-null value so far equals
      `seen[slot[j]]`. `origin` and `slot` are proof bookkeeping only. */
  ghost predicate DedupState(rows: seq<Row>, name: string, seen: seq<Value>, origin: seq<int>, slot: seq<int>, out: seq<Row>, i: int) {
    && 0 <= i <= |rows| && |out| == i && |slot| == i && |origin| == |seen|
    && DedupPrefix(rows, name, out, i)
    && HashableUpTo(rows, name, i)
    && OriginsHold(rows, name, seen, origin, i)
    && SlotsHold(rows, name, seen, slot, i)
  }

  ghost predicate DedupPrefix(rows: seq<Row>, name: string, out: seq<Row>, i: int)
    requires 0 <= i <= |rows| && |out| == i
  {
    forall j | 0 <= j < i :: out[j] == DedupRow(rows, name, j)
  }

  ghost predicate HashableUpTo(rows: seq<Row>, name: string, i: int)
    requires 0 <= i <= |rows|
  {
    forall j | 0 <= j < i :: Hashable(Get(rows[j], name))
  }

  ghost predicate OriginsHold(rows: seq<Row>, name: string, seen: seq<Value>, origin: seq<int>, i: int)
    requires 0 <= i <= |rows| && |origin| == |seen|
  {
    forall k {:trigger origin[k]} | 0 <= k < |seen| ::
      0 <= origin[k] < i && seen[k] == Get(rows[origin[k]], name)
  }

  ghost predicate SlotsHold(rows: seq<Row>, name: string, seen: seq<Value>, slot: seq<int>, i: int)
    requires 0 <= i <= |rows| && |slot| == i
  {
    forall j {:trigger slot[j]} | 0 <= j < i && Get(rows[j], name) != Null ::
      0 <= slot[j] < |seen| && PyEq(seen[slot[j]], Get(rows[j], name))
  }

  /** The loop of main.py:632-645 with its `seen` set: a list or dict value
      makes `v in seen` raise `TypeError`, which aborts the alteration. */
  method DropDuplicates(rows: seq<Row>, name: string) returns (r: Result<seq<Row>, AlterError>)
    ensures r.Err? <==> !AllHashable(rows, name)
    ensures r.Err? ==> r.error == Unhashable(name)
    ensures r.Ok? ==> r.value == Deduplicated(rows, name)
  {
    var seen: seq<Value> := [];
    ghost var origin: seq<int> := [];
    ghost var slot: seq<int> := [];
    var out: seq<Row> := [];
    var i := 0;
    while i < |rows|
      invariant DedupState(rows, name, seen, origin, slot, out, i)
    {
      var v := Get(rows[i], name);
      if v == Null {
        DedupSkipsNull(rows, name, seen, origin, slot, out, i);
        out, slot := out + [rows[i]], slot + [0];
      } else if !Hashable(v) {
        return Err(Unhashable(name));
      } else if Seen(seen, v) {
        ghost var k :| 0 <= k < |seen| && PyEq(seen[k], v);
        DedupClearsRepeat(rows, name, seen, origin, slot, out, i, k);
        out, slot := out + [rows[i][name := Null]], slot + [k];
      } else {
        DedupKeepsFirst(rows, name, seen, origin, slot, out, i);
        out, slot, origin := out + [rows[i]], slot + [|seen|], origin + [i];
        seen := seen + [v];
      }
      i := i + 1;
    }
    assert out == Deduplicated(rows, name);
    r := Ok(out);
  }

  /** One more row of the deduplicated prefix. */
  lemma PrefixExtends(rows: seq<Row>, name: string, out: seq<Row>, i: int, row: Row)
    requires 0 <= i < |rows| && |out| == i && DedupPrefix(rows, name, out, i)
    requires row == DedupRow(rows, name, i)
    ensures DedupPrefix(rows, name, out + [row], i + 1)
  {
    forall j | 0 <= j < i + 1 ensures (out + [row])[j] == DedupRow(rows, name, j) {
      if j < i { assert (out + [row])[j] == out[j]; }
    }
  }

  lemma HashableExtends(rows: seq<Row>, name: string, i: int)
    requires 0 <= i < |rows| && HashableUpTo(rows, name, i) && Hashable(Get(rows[i], name))
    ensures HashableUpTo(rows, name, i + 1)
  {
  }

  lemma OriginsWiden(rows: seq<Row>, name: string, seen: seq<Value>, origin: seq<int>, i: int)
    requires 0 <= i < |rows| && |origin| == |seen| && OriginsHold(rows, name, seen, origin, i)
    ensures OriginsHold(rows, name, seen, origin, i + 1)
  {
  }

  lemma OriginsAdd(rows: seq<Row>, name: string, seen: seq<Value>, origin: seq<int>, i: int)
    requires 0 <= i < |rows| && |origin| == |seen| && OriginsHold(rows, name, seen, origin, i)
    ensures OriginsHold(rows, name, seen + [Get(rows[i], name)], origin + [i], i + 1)
  {
    var seen', origin' := seen + [Get(rows[i], name)], origin + [i];
    forall k | 0 <= k < |seen'| ensures 0 <= origin'[k] < i + 1 && seen'[k] == Get(rows[origin'[k]], name) {
      if k < |seen| { assert origin'[k] == origin[k] && seen'[k] == seen[k]; }
    }
  }

  /** One more row whose value, if any, is `seen[s]`. */
  lemma SlotsExtend(rows: seq<Row>, name: string, seen: seq<Value>, slot: seq<int>, i: int, s: int)
    requires 0 <= i < |rows| && |slot| == i && SlotsHold(rows, name, seen, slot, i)
    requires Get(rows[i], name) != Null ==> 0 <= s < |seen| && PyEq(seen[s], Get(rows[i], name))
    ensures SlotsHold(rows, name, seen, slot + [s], i + 1)
  {
    var slot' := slot + [s];
    forall j | 0 <= j < i + 1 && Get(rows[j], name) != Null
      ensures 0 <= slot'[j] < |seen| && PyEq(seen[slot'[j]], Get(rows[j], name))
    {
      if j < i { assert slot'[j] == slot[j]; }
    }
  }

  lemma SlotsGrow(rows: seq<Row>, name: string, seen: seq<Value>, slot: seq<int>, i: int, v: Value)
    requires 0 <= i <= |rows| && |slot| == i && SlotsHold(rows, name, seen, slot, i)
    ensures SlotsHold(rows, name, seen + [v], slot, i)
  {
    forall j | 0 <= j < i && Get(rows[j], name) != Null
      ensures 0 <= slot[j] < |seen + [v]| && PyEq((seen + [v])[slot[j]], Get(rows[j], name))
    {
      assert (seen + [v])[slot[j]] == seen[slot[j]];
    }
  }

  lemma DedupSkipsNull(rows: seq<Row>, name: string, seen: seq<Value>, origin: seq<int>, slot: seq<int>, out: seq<Row>, i: int)
    requires DedupState(rows, name, seen, origin, slot, out, i) && i < |rows| && Get(rows[i], name) == Null
    ensures DedupState(rows, name, seen, origin, slot + [0], out + [rows[i]], i + 1)
  {
    assert !LaterDuplicate(rows, name, i);
    PrefixExtends(rows, name, out, i, rows[i]);
    HashableExtends(rows, name, i);
    OriginsWiden(rows, name, seen, origin, i);
    SlotsExtend(rows, name, seen, slot, i, 0);
  }

  lemma DedupClearsRepeat(rows: seq<Row>, name: string, seen: seq<Value>, origin: seq<int>, slot: seq<int>, out: seq<Row>, i: int, k: int)
    requires DedupState(rows, name, seen, origin, slot, out, i) && i < |rows|
    requires Get(rows[i], name) != Null && Hashable(Get(rows[i], name))
    requires 0 <= k < |seen| && PyEq(seen[k], Get(rows[i], name))
    ensures DedupState(rows, name, seen, origin, slot + [k], out + [rows[i][name := Null]], i + 1)
  {
    var o := origin[k];
    assert 0 <= o < i && seen[k] == Get(rows[o], name);
    assert LaterDuplicate(rows, name, i);
    PrefixExtends(rows, name, out, i, rows[i][name := Null]);
    HashableExtends(rows, name, i);
    OriginsWiden(rows, name, seen, origin, i);
    SlotsExtend(rows, name, seen, slot, i, k);
  }

  lemma DedupKeepsFirst(rows: seq<Row>, name: string, seen: seq<Value>, origin: seq<int>, slot: seq<int>, out: seq<Row>, i: int)
    requires DedupState(rows, name, seen, origin, slot, out, i) && i < |rows|
    requires Get(rows[i], name) != Null && Hashable(Get(rows[i], name)) && !Seen(seen, Get(rows[i], name))
    ensures DedupState(rows, name, seen + [Get(rows[i], name)], origin + [i], slot + [|seen|], out + [rows[i]], i + 1)
  {
    var v := Get(rows[i], name);
    forall j | 0 <= j < i ensures !PyEq(Get(rows[j], name), v) {
      if Get(rows[j], name) != Null && PyEq(Get(rows[j], name), v) {
        var s := slot[j];
        assert seen[s] == Get(rows[origin[s]], name);
        PyEqTransitiveOnScalars(seen[s], Get(rows[j], name), v);
      }
    }
    assert !LaterDuplicate(rows, name, i);
    PrefixExtends(rows, name, out, i, rows[i]);
    HashableExtends(rows, name, i);
    OriginsAdd(rows, name, seen, origin, i);
    SlotsGrow(rows, name, seen, slot, i, v);
    PyEqReflexive(v);
    assert (seen + [v])[|seen|] == v;
    SlotsExtend(rows, name, seen + [v], slot, i, |seen|);
  }

  /** The rows after the conversion loop and, for a unique column, the
      deduplication loop. */
  function RetypedRows(host: Host, rows: seq<Row>, name: string, typ: string, unique: bool): (r: seq<Row>)
    ensures |r| == |rows|
    ensures forall i | 0 <= i < |rows| :: RetypedRowFacts(host, rows, name, typ, r[i], i)
    ensures forall i | 0 <= i < |rows| && Get(rows[i], name) != Null ::
              Get(r[i], name) == if unique && LaterDuplicate(Converted(host, rows, name, typ), name, i) then Null
                                 else ConvertCell(host, Get(rows[i], name), typ)
    ensures unique ==> UniqueOn(r, name)
  {
    var converted := Converted(host, rows, name, typ);
    var r := if unique then Deduplicated(converted, name) else converted;
    forall i | 0 <= i < |rows| ensures RetypedRowFacts(host, rows, name, typ, r[i], i) {
      ConvertedAt(host, rows, name, typ, i);
      if unique { DeduplicatedAt(converted, name, i); }
    }
    forall i | 0 <= i < |rows| && Get(rows[i], name) != Null
      ensures Get(r[i], name) == if unique && LaterDuplicate(converted, name, i) then Null
                                 else ConvertCell(host, Get(rows[i], name), typ)
    {
      assert Get(converted[i], name) == ConvertCell(host, Get(rows[i], name), typ);
      if unique {
        assert r[i] == DedupRow(converted, name, i);
      }
    }
    if unique then
      DeduplicatedIsUnique(converted, name);
      r
    else r
  }

  /** Row `i` after the retype: other keys untouched, a null value left as
      it was, and a non-null value either converted or cleared. */
  ghost predicate RetypedRowFacts(host: Host, rows: seq<Row>, name: string, typ: string, out: Row, i: int)
    requires 0 <= i < |rows|
  {
    && SameExcept(out, rows[i], name)
    && (Get(rows[i], name) == Null ==> out == rows[i])
    && (Get(out, name) == Null || Get(out, name) == ConvertCell(host, Get(rows[i], name), typ))
  }

  lemma DeduplicatedAt(rows: seq<Row>, name: string, i: int)
    requires 0 <= i < |rows|
    ensures SameExcept(Deduplicated(rows, name)[i], rows[i], name)
    ensures Get(rows[i], name) == Null ==> Deduplicated(rows, name)[i] == rows[i]
    ensures Get(Deduplicated(rows, name)[i], name) == Null || Deduplicated(rows, name)[i] == rows[i]
  {
  }

  ghost predicate ConvertedRowFacts(host: Host, rows: seq<Row>, name: string, typ: string, i: int)
    requires 0 <= i < |rows|
  {
    RetypedRowFacts(host, rows, name, typ, Converted(host, rows, name, typ)[i], i)
  }

  lemma ConvertedAt(host: Host, rows: seq<Row>, name: string, typ: string, i: int)
    requires 0 <= i < |rows|
    ensures ConvertedRowFacts(host, rows, name, typ, i)
  {
  }

  /** Changing one column's type keeps the schema well formed, as long as
      an auto-increment column stays `int`. */
  lemma RetypeKeepsWellFormed(cols: seq<Column>, k: int, typ: string)
    requires 0 <= k < |cols| && WellFormed(cols)
    requires cols[k].autoIncrement ==> typ == "int"
    ensures WellFormed(cols[k := cols[k].(typ := typ)])
  {
  }

  /** The retype branch: the first column of that name takes the new type;
      an auto-increment column must stay `int`; stored values are
      converted, and a unique column drops its later duplicates. */
  function RetypeColumn(host: Host, t: Table, name: string, newType: string): (r: Result<Table, AlterError>)
    ensures r == Err(ColumnMissing(name)) <==> name !in Names(t.columns)
    ensures r == Err(InvalidType(Lower(newType))) <==> name in Names(t.columns) && Lower(newType) !in ValidTypes
    ensures r == Err(AutoIncrementMustStayInt(name)) <==>
              name in Names(t.columns) && Lower(newType) in ValidTypes
              && t.columns[FirstIndex(t.columns, name)].autoIncrement && Lower(newType) != "int"
    ensures r == Err(Unhashable(name)) <==>
              name in Names(t.columns) && Lower(newType) in ValidTypes
              && !(t.columns[FirstIndex(t.columns, name)].autoIncrement && Lower(newType) != "int")
              && t.columns[FirstIndex(t.columns, name)].unique
              && !AllHashable(Converted(host, t.rows, name, Lower(newType)), name)
    ensures r.Err? ==>
              r.error in {ColumnMissing(name), InvalidType(Lower(newType)), AutoIncrementMustStayInt(name), Unhashable(name)}
    ensures r.Ok? ==>
              var k := FirstIndex(t.columns, name);
              r.value.columns == t.columns[k := t.columns[k].(typ := Lower(newType))]
    ensures r.Ok? && WellFormed(t.columns) ==> WellFormed(r.value.columns)
    ensures r.Ok? ==> r.value.rows == RetypedRows(host, t.rows, name, Lower(newType), t.columns[FirstIndex(t.columns, name)].unique)
    ensures r.Ok? ==> forall i | 0 <= i < |t.rows| ::
              Get(r.value.rows[i], name) == Null || StoredAs(Get(r.value.rows[i], name), Lower(newType))
  {
    if name !in Names(t.columns) then Err(ColumnMissing(name))
    else
      var typ := Lower(newType);
      if typ !in ValidTypes then Err(InvalidType(typ))
      else
        var k := FirstIndex(t.columns, name);
        var col := t.columns[k];
        if col.autoIncrement && typ != "int" then Err(AutoIncrementMustStayInt(name))
        else if col.unique && !AllHashable(Converted(host, t.rows, name, typ), name) then Err(Unhashable(name))
        else
          var rows := RetypedRows(host, t.rows, name, typ, col.unique);
          LowerHasNoUpper(newType);
          LowerOfNoUpper(typ);
          assert WellFormed(t.columns) ==> WellFormed(t.columns[k := col.(typ := typ)]) by {
            if WellFormed(t.columns) { RetypeKeepsWellFormed(t.columns, k, typ); }
          }
          Ok(Table(t.columns[k := col.(typ := typ)], rows))
  }

  // ---------------------------------------------------------------------
  // Rename a column (main.py:655-676)
  // ---------------------------------------------------------------------

  /** `row[new_name] = row.pop(old_name)` for a row that has `oldName`. */
  function MoveKey(row: Row, oldName: string, newName: string): Row {
    if oldName in row then (row - {oldName})[newName := row[oldName]] else row
  }

  /** The rename branch: `oldName` must exist and `newName` must not; the first
      column called `oldName` is renamed and each row holding `oldName` moves its
      value to `newName`. */
  function RenameColumn(t: Table, oldName: string, newName: string): (r: Result<Table, AlterError>)
    ensures r == Err(ColumnMissing(oldName)) <==> oldName !in Names(t.columns)
    ensures r == Err(ColumnExists(newName)) <==> oldName in Names(t.columns) && newName in Names(t.columns)
    ensures oldName in Names(t.columns) && newName !in Names(t.columns) ==> r.Ok?
    ensures r.Ok? ==>
              var k := FirstIndex(t.columns, oldName);
              r.value.columns == t.columns[k := t.columns[k].(name := newName)]
    ensures r.Ok? && DistinctNames(t.columns) ==> Names(r.value.columns) == Names(t.columns) - {oldName} + {newName}
    ensures r.Ok? && WellFormed(t.columns) ==> WellFormed(r.value.columns)
    ensures r.Ok? ==> |r.value.rows| == |t.rows|
    ensures r.Ok? ==> forall i | 0 <= i < |t.rows| ::
              if oldName in t.rows[i] then
                oldName !in r.value.rows[i] && newName in r.value.rows[i] && r.value.rows[i][newName] == t.rows[i][oldName]
                && forall k | k != oldName && k != newName ::
                     (k in r.value.rows[i] <==> k in t.rows[i]) && (k in t.rows[i] ==> r.value.rows[i][k] == t.rows[i][k])
              else r.value.rows[i] == t.rows[i]
  {
    if oldName !in Names(t.columns) then Err(ColumnMissing(oldName))
    else if newName in Names(t.columns) then Err(ColumnExists(newName))
    else
      var k := FirstIndex(t.columns, oldName);
      var cols := t.columns[k := t.columns[k].(name := newName)];
      RenameNames(t.columns, k, newName);
      Ok(Table(cols, seq(|t.rows|, i requires 0 <= i < |t.rows| => MoveKey(t.rows[i], oldName, newName))))
  }

  lemma RenameNames(cols: seq<Column>, k: nat, newName: string)
    requires k < |cols| && newName !in Names(cols)
    ensures DistinctNames(cols) ==> Names(cols[k := cols[k].(name := newName)]) == Names(cols) - {cols[k].name} + {newName}
    ensures WellFormed(cols) ==> WellFormed(cols[k := cols[k].(name := newName)])
  {
    var r := cols[k := cols[k].(name := newName)];
    if DistinctNames(cols) {
      forall n | n in Names(r) ensures n in Names(cols) - {cols[k].name} + {newName} {
        var i :| 0 <= i < |r| && r[i].name == n;
        if i != k {
          assert cols[i].name == n;
          assert n != cols[k].name by {
            if i < k { assert cols[i].name != cols[k].name; } else { assert cols[k].name != cols[i].name; }
          }
        }
      }
      forall n | n in Names(cols) - {cols[k].name} + {newName} ensures n in Names(r) {
        if n != newName {
          var i :| 0 <= i < |cols| && cols[i].name == n;
          assert r[i].name == n;
        } else {
          assert r[k].name == n;
        }
      }
    }
    if WellFormed(cols) {
      forall i, j | 0 <= i < j < |r| ensures r[i].name != r[j].name {
        if i == k { assert cols[j].name in Names(cols); }
        else if j == k { assert cols[i].name in Names(cols); }
      }
    }
  }

  /** Renaming back undoes a rename, as long as no row already held the
      newName key and the schema names were distinct. */
  lemma RenameRoundTrip(t: Table, oldName: string, newName: string)
    requires DistinctNames(t.columns)
    requires RenameColumn(t, oldName, newName).Ok?
    requires forall i | 0 <= i < |t.rows| :: newName !in t.rows[i]
    ensures RenameColumn(RenameColumn(t, oldName, newName).value, newName, oldName) == Ok(t)
  {
    var t1 := RenameColumn(t, oldName, newName).value;
    var k := FirstIndex(t.columns, oldName);
    assert newName != oldName;
    assert t1.columns[k].name == newName;
    assert newName in Names(t1.columns);
    assert oldName !in Names(t1.columns);
    assert FirstIndex(t1.columns, newName) == k by {
      forall j | 0 <= j < k ensures t1.columns[j].name != newName {
        assert t1.columns[j] == t.columns[j];
        assert t.columns[j].name in Names(t.columns);
      }
    }
    var t2 := RenameColumn(t1, newName, oldName).value;
    assert t1.columns[k].(name := oldName) == t.columns[k];
    assert t2.columns == t.columns;
    forall i | 0 <= i < |t.rows| ensures t2.rows[i] == t.rows[i] {
      MoveKeyBack(t.rows[i], oldName, newName);
    }
    assert t2.rows == t.rows;
  }

  lemma MoveKeyBack(row: Row, oldName: string, newName: string)
    requires oldName != newName && newName !in row
    ensures MoveKey(MoveKey(row, oldName, newName), newName, oldName) == row
  {
    if oldName in row {
      var back := MoveKey(MoveKey(row, oldName, newName), newName, oldName);
      assert back.Keys == row.Keys;
    }
  }
}

=== FILE: codec.dfy ===
/** The value codec: `convert_input_to_type` turns raw text and a type tag
    into a typed value or an error (main.py:40-83). */
module Codec {
  import opened Wrappers
  import opened Text
  import opened Values

  /** The eight type tags a column may carry. */
  const ValidTypes: set<string> := {"str", "int", "float", "bool", "date", "datetime", "list", "dict"}

  const TrueWords: set<string> := {"true", "1", "yes", "y", "oui", "o"}
  const FalseWords: set<string> := {"false", "0", "no", "n", "non"}

  datatype DecodeError =
    | NotAnInt(raw: string)
    | NotAFloat(raw: string)
    | NotABool(raw: string)
    | NotADate(raw: string)
    | NotADateTime(raw: string)
    | InvalidJson(raw: string)
    | NotAList(raw: string)
    | NotADict(raw: string)
    | UnsupportedType(tag: string)

  /** `v` is a value of the (lower-case) type tag `t`. */
  predicate HasType(v: Value, t: string) {
    || (t == "str" && v.Str?)
    || (t == "int" && v.Int?)
    || (t == "float" && v.Float?)
    || (t == "bool" && v.Bool?)
    || (t == "date" && v.Date?)
    || (t == "datetime" && v.DateTime?)
    || (t == "list" && v.List?)
    || (t == "dict" && v.Dict?)
  }

  function DecodeBool(raw: string): Result<Value, DecodeError> {
    var low := Lower(Strip(raw));
    if low in TrueWords then Ok(Bool(true))
    else if low in FalseWords then Ok(Bool(false))
    else Err(NotABool(raw))
  }

  function DecodeJson(host: Host, raw: string, t: string): Result<Value, DecodeError>
    requires t == "list" || t == "dict"
  {
    match host.jsonLoads(raw)
    case None => Err(InvalidJson(raw))
    case Some(v) =>
      if t == "list" && !v.List? then Err(NotAList(raw))
      else if t == "dict" && !v.Dict? then Err(NotADict(raw))
      else Ok(v)
  }

  /** The conversion of non-empty input under the lower-cased tag `t`;
      an unknown tag is reported as it was given. */
  function DecodeText(host: Host, raw: string, t: string, tag: string): Result<Value, DecodeError> {
    if t == "str" then Ok(Str(raw))
    else if t == "int" then
      match ParseInt(raw)
      case Some(i) => Ok(Int(i))
      case None => Err(NotAnInt(raw))
    else if t == "float" then
      match host.parseFloat(raw)
      case Some(x) => Ok(Float(x))
      case None => Err(NotAFloat(raw))
    else if t == "bool" then DecodeBool(raw)
    else if t == "date" then
      match ParseIsoDate(raw)
      case Some(d) => Ok(Date(d))
      case None => Err(NotADate(raw))
    else if t == "datetime" then
      match host.parseDateTime(raw)
      case Some(ts) => Ok(DateTime(ts))
      case None => Err(NotADateTime(raw))
    else if t == "list" || t == "dict" then DecodeJson(host, raw, t)
    else Err(UnsupportedType(tag))
  }

  /** `convert_input_to_type(raw, tag)`. The empty-input test compares the
      tag as given, before it is lower-cased. */
  function Decode(host: Host, raw: string, tag: string): (r: Result<Value, DecodeError>)
    ensures raw == "" ==> r == Ok(if tag == "str" then Str("") else Null)
    ensures raw != "" && Lower(tag) !in ValidTypes ==> r == Err(UnsupportedType(tag))
    ensures raw != "" && r.Ok? ==> HasType(r.value, Lower(tag))
    ensures raw != "" && Lower(tag) == "bool" ==>
              && (r == Ok(Bool(true)) <==> Lower(Strip(raw)) in TrueWords)
              && (r == Ok(Bool(false)) <==> Lower(Strip(raw)) in FalseWords)
              && (r.Err? <==> Lower(Strip(raw)) !in TrueWords + FalseWords)
    ensures raw != "" && Lower(tag) == "list" ==>
              (r.Ok? <==> host.jsonLoads(raw).Some? && host.jsonLoads(raw).value.List?)
    ensures raw != "" && Lower(tag) == "dict" ==>
              (r.Ok? <==> host.jsonLoads(raw).Some? && host.jsonLoads(raw).value.Dict?)
    ensures raw != "" && Lower(tag) == "int" ==> (r.Ok? <==> ParseInt(raw).Some?)
    ensures raw != "" && Lower(tag) == "date" ==> (r.Ok? <==> ParseIsoDate(raw).Some?)
    ensures raw != "" && Lower(tag) == "str" ==> r == Ok(Str(raw))
    ensures raw != "" && Lower(tag) == "int" && r.Ok? ==> r.value == Int(ParseInt(raw).value)
    ensures raw != "" && Lower(tag) == "date" && r.Ok? ==> r.value == Date(ParseIsoDate(raw).value)
    ensures raw != "" && (Lower(tag) == "list" || Lower(tag) == "dict") && r.Ok? ==> r.value == host.jsonLoads(raw).value
    ensures raw != "" && Lower(tag) == "float" ==>
              (r.Ok? <==> host.parseFloat(raw).Some?) && (r.Ok? ==> r.value == Float(host.parseFloat(raw).value))
    ensures raw != "" && Lower(tag) == "datetime" ==>
              (r.Ok? <==> host.parseDateTime(raw).Some?) && (r.Ok? ==> r.value == DateTime(host.parseDateTime(raw).value))
  {
    if raw == "" then
      if tag == "str" then Ok(Str("")) else Ok(Null)
    else DecodeText(host, raw, Lower(tag), tag)
  }

  /** Typing `007` into an `int` column stores 7, and `1_000` stores 1000. */
  lemma DecodeIntExamples(host: Host)
    ensures Decode(host, "007", "int") == Ok(Int(7))
    ensures Decode(host, "1_000", "int") == Ok(Int(1000))
  {
    LowerTags();
    SevenValue();
    ThousandValue();
    assert Strip("007") == "007" by { assert !IsSpace('0') && !IsSpace('7'); }
    assert Strip("1_000") == "1_000" by { assert !IsSpace('1') && !IsSpace('0'); }
  }

  /** The tags in lower case are their own lower case. */
  lemma LowerTags()
    ensures Lower("str") == "str" && Lower("int") == "int" && Lower("bool") == "bool" && Lower("date") == "date"
  {
  }

  /** What a successful decode of non-empty input yields is never one of the
      two values the not-null rule rejects, before or after serialisation. */
  lemma DecodedNonEmptyIsPresent(host: Host, raw: string, tag: string)
    requires raw != ""
    ensures Decode(host, raw, tag).Ok? ==>
              && Decode(host, raw, tag).value != Null
              && Serialize(Decode(host, raw, tag).value) != Null
              && Serialize(Decode(host, raw, tag).value) != Str("")
  {
  }

  /** A valid date survives serialisation and decoding:
      `convert_input_to_type(serializable_value(d), "date") == d`. */
  lemma DateRoundTrip(host: Host, d: CalendarDate)
    requires ValidDate(d)
    ensures Serialize(Date(d)).Str?
    ensures Decode(host, Serialize(Date(d)).s, "date") == Ok(Date(d))
  {
    var raw := IsoDate(d);
    assert Serialize(Date(d)) == Str(raw);
    IsoDateRoundTrip(d);
    LowerTags();
    assert Decode(host, raw, "date") == DecodeText(host, raw, "date", "date");
  }

  /** Decoding as a date accepts exactly the ISO texts of valid dates. */
  lemma DateDecodeCanonical(host: Host, raw: string, d: CalendarDate)
    requires raw != ""
    ensures Decode(host, raw, "date") == Ok(Date(d)) <==> ValidDate(d) && raw == IsoDate(d)
  {
    LowerTags();
    assert Decode(host, raw, "date") == DecodeText(host, raw, "date", "date");
    if Decode(host, raw, "date") == Ok(Date(d)) {
      assert ParseIsoDate(raw) == Some(d);
      IsoDateCanonical(raw);
    }
    if ValidDate(d) && raw == IsoDate(d) {
      IsoDateRoundTrip(d);
    }
  }

  /** Re-reading the text of a stored int under its own type gives it back:
      `convert_input_to_type(str(i), "int") == i`. */
  lemma ReadBackInt(host: Host, i: int)
    ensures Decode(host, PyStr(host, Int(i)), "int") == Ok(Int(i))
  {
    var raw := IntToString(i);
    IntRoundTrip(i);
    LowerTags();
    assert |raw| > 0;
    assert Decode(host, raw, "int") == DecodeText(host, raw, "int", "int");
  }

  /** The same for a stored bool: `str(True)` is `"True"`, which the bool
      tokens accept. */
  lemma ReadBackBool(host: Host, b: bool)
    ensures Decode(host, PyStr(host, Bool(b)), "bool") == Ok(Bool(b))
  {
    var raw := if b then "True" else "False";
    assert PyStr(host, Bool(b)) == raw;
    LowerTags();
    BoolWordsRead();
    assert Decode(host, raw, "bool") == DecodeBool(raw);
  }

  /** And for a stored string, including the empty one. */
  lemma ReadBackStr(host: Host, s: string)
    ensures Decode(host, PyStr(host, Str(s)), "str") == Ok(Str(s))
  {
    LowerTags();
  }

  lemma BoolWordsRead()
    ensures DecodeBool("True") == Ok(Bool(true)) && DecodeBool("False") == Ok(Bool(false))
  {
    assert Strip("True") == "True" && Strip("False") == "False";
    assert Lower("True") == "true" && Lower("False") == "false";
  }
}

=== FILE: conditions.dfy ===
/** The WHERE-clause parser: `_parse_single_condition` (main.py:102-116)
    and `_parse_where_clause` (main.py:119-127). The regular expressions are
    written out as searches in the order Python's backtracking matcher tries
    the alternatives, and each search is proved to return the first match in
    that order. */
module Conditions {
  import opened Wrappers
  import opened Text

  datatype Op = EqEq | Eq | Ne | Ge | Le | Gt | Lt | Like

  /** A parsed condition: column, operator (already lower-case, as an
      `Op`), and the literal with one pair of matching quotes removed. */
  datatype Condition = Condition(col: string, op: Op, value: string)

  /** The operators in the order the alternation lists them. */
  function OpIndex(op: Op): nat {
    match op
    case EqEq => 0
    case Eq => 1
    case Ne => 2
    case Ge => 3
    case Le => 4
    case Gt => 5
    case Lt => 6
    case Like => 7
  }

  function OpOfIndex(k: nat): (op: Op)
    requires k < 8
    ensures OpIndex(op) == k
  {
    [EqEq, Eq, Ne, Ge, Le, Gt, Lt, Like][k]
  }

  function OpText(op: Op): string {
    match op
    case EqEq => "=="
    case Eq => "="
    case Ne => "!="
    case Ge => ">="
    case Le => "<="
    case Gt => ">"
    case Lt => "<"
    case Like => "like"
  }

  /** `[A-Za-z0-9_.]` */
  predicate IsIdentChar(c: char) {
    ('A' <= c <= 'Z') || ('a' <= c <= 'z') || ('0' <= c <= '9') || c == '_' || c == '.'
  }

  predicate AllIdent(s: string) {
    forall i | 0 <= i < |s| :: IsIdentChar(s[i])
  }

  /** End of the identifier run that starts at `i`. */
  function IdentEnd(s: string, i: nat): (j: nat)
    requires i <= |s|
    ensures i <= j <= |s|
    ensures forall k | i <= k < j :: IsIdentChar(s[k])
    ensures j < |s| ==> !IsIdentChar(s[j])
    decreases |s| - i
  {
    if i == |s| || !IsIdentChar(s[i]) then i else IdentEnd(s, i + 1)
  }

  /** The operator `op` is written at position `p`; `like` in any case. */
  predicate OpAt(s: string, p: nat, op: Op) {
    && p + |OpText(op)| <= |s|
    && (if op == Like then Lower(s[p..p + 4]) == "like" else s[p..p + |OpText(op)|] == OpText(op))
  }

  /** The value group followed by `$`: a single-quoted literal without
      inner single quotes, the same with double quotes, or a non-empty run
      without spaces (tabs and other whitespace are allowed in it). */
  predicate ValueToken(v: string) {
    || (|v| >= 2 && v[0] == '\'' && v[|v| - 1] == '\'' && forall i | 0 < i < |v| - 1 :: v[i] != '\'')
    || (|v| >= 2 && v[0] == '"' && v[|v| - 1] == '"' && forall i | 0 < i < |v| - 1 :: v[i] != '"')
    || (|v| >= 1 && forall i | 0 <= i < |v| :: v[i] != ' ')
  }

  /** One way the condition regex can match `s`: identifier `s[..n]`,
      whitespace up to `p`, the operator at `p`, whitespace up to `q`, and
      the value `s[q..]`. */
  datatype Hit = Hit(n: nat, p: nat, op: Op, q: nat)

  /** The identifier `s[..n]`, whitespace up to `p`, and the operator `op`
      at `p`. */
  predicate Lead(s: string, n: nat, p: nat, op: Op) {
    && 1 <= n <= p <= |s|
    && AllIdent(s[..n])
    && AllSpace(s[n..p])
    && OpAt(s, p, op)
  }

  /** Whitespace from `lo` up to `q`, and the value `s[q..]` to the end. */
  predicate Trail(s: string, lo: nat, q: nat) {
    && lo <= q <= |s|
    && AllSpace(s[lo..q])
    && ValueToken(s[q..])
  }

  predicate IsHit(s: string, h: Hit) {
    Lead(s, h.n, h.p, h.op) && Trail(s, h.p + |OpText(h.op)|, h.q)
  }

  /** The order in which the backtracking matcher tries the ways to match:
      a longer identifier first (greedy `+`), then more whitespace (greedy
      `*`), then the earlier operator alternative, then more whitespace
      before the value. */
  predicate Outranks(a: Hit, b: Hit) {
    || a.n > b.n
    || (a.n == b.n && a.p > b.p)
    || (a.n == b.n && a.p == b.p && OpIndex(a.op) < OpIndex(b.op))
    || (a.n == b.n && a.p == b.p && a.op == b.op && a.q > b.q)
  }

  lemma SpaceRunBound(s: string, lo: nat, q: nat)
    requires lo <= q <= |s| && AllSpace(s[lo..q])
    ensures q <= SpaceEnd(s, lo)
  {
  }

  lemma IdentRunBound(s: string, n: nat)
    requires n <= |s| && AllIdent(s[..n])
    ensures n <= IdentEnd(s, 0)
  {
  }

  lemma AllSpaceShrink(s: string, lo: nat, q: nat)
    requires lo <= q < |s| && AllSpace(s[lo..q + 1])
    ensures AllSpace(s[lo..q])
  {
    assert forall i | 0 <= i < q - lo :: s[lo..q][i] == s[lo..q + 1][i];
  }

  lemma AllIdentShrink(s: string, n: nat)
    requires 1 <= n <= |s| && AllIdent(s[..n])
    ensures AllIdent(s[..n - 1])
  {
    assert forall i | 0 <= i < n - 1 :: s[..n - 1][i] == s[..n][i];
  }

  /** The value search after an operator ending at `lo`: `q` from the end
      of the whitespace down to `lo`, the first `q` whose value matches. */
  function TryValue(s: string, lo: nat, q: nat): (r: Option<nat>)
    requires lo <= q <= |s| && AllSpace(s[lo..q])
    ensures r.Some? ==> Trail(s, lo, r.value) && r.value <= q
    ensures r.Some? ==> forall q': nat | r.value < q' <= q :: !Trail(s, lo, q')
    ensures r.None? ==> forall q': nat | q' <= q :: !Trail(s, lo, q')
    decreases q
  {
    if ValueToken(s[q..]) then Some(q)
    else if q == lo then None
    else
      AllSpaceShrink(s, lo, q - 1);
      TryValue(s, lo, q - 1)
  }

  lemma OpIndexInjective(a: Op, b: Op)
    ensures OpIndex(a) == OpIndex(b) ==> a == b
  {
  }

  /** A way to match with operator `op` at `p` has its value inside the
      whitespace run after the operator. */
  lemma HitWithOp(s: string, n: nat, p: nat, op: Op, h: Hit)
    requires IsHit(s, h) && h.n == n && h.p == p && OpIndex(h.op) == OpIndex(op)
    ensures h.op == op && OpAt(s, p, op)
    ensures Trail(s, p + |OpText(op)|, h.q) && h.q <= SpaceEnd(s, p + |OpText(op)|)
  {
    OpIndexInjective(h.op, op);
    SpaceRunBound(s, h.p + |OpText(h.op)|, h.q);
  }

  /** The value search found `q`: no way to match with the same operator
      at `p` has its value further right. */
  lemma ValueFound(s: string, n: nat, p: nat, op: Op, lo: nat, q: nat)
    requires OpAt(s, p, op) && lo == p + |OpText(op)|
    requires forall q': nat | q < q' <= SpaceEnd(s, lo) :: !Trail(s, lo, q')
    ensures forall h | IsHit(s, h) && h.n == n && h.p == p && OpIndex(h.op) == OpIndex(op) :: h.q <= q
  {
    forall h | IsHit(s, h) && h.n == n && h.p == p && OpIndex(h.op) == OpIndex(op) ensures h.q <= q {
      HitWithOp(s, n, p, op, h);
    }
  }

  /** The value search found nothing, or the operator is not there: no
      way to match uses the operator at `p`. */
  lemma ValueMissing(s: string, n: nat, p: nat, op: Op, lo: nat)
    requires lo == p + |OpText(op)|
    requires OpAt(s, p, op) ==> forall q': nat | q' <= SpaceEnd(s, lo) :: !Trail(s, lo, q')
    ensures forall h | IsHit(s, h) && h.n == n && h.p == p :: OpIndex(h.op) != OpIndex(op)
  {
    forall h | IsHit(s, h) && h.n == n && h.p == p ensures OpIndex(h.op) != OpIndex(op) {
      if OpIndex(h.op) == OpIndex(op) {
        HitWithOp(s, n, p, op, h);
      }
    }
  }

  /** The operator `op` at `p`, then the value search after it. */
  function TryOp(s: string, n: nat, p: nat, op: Op): (r: Option<Hit>)
    requires 1 <= n <= p <= |s| && AllIdent(s[..n]) && AllSpace(s[n..p])
    ensures r.Some? ==> IsHit(s, r.value) && r.value.n == n && r.value.p == p && r.value.op == op
    ensures r.Some? ==> forall h | IsHit(s, h) && h.n == n && h.p == p && OpIndex(h.op) == OpIndex(op) :: h.q <= r.value.q
    ensures r.None? ==> forall h | IsHit(s, h) && h.n == n && h.p == p :: OpIndex(h.op) != OpIndex(op)
  {
    var lo := p + |OpText(op)|;
    if !OpAt(s, p, op) then
      ValueMissing(s, n, p, op, lo);
      None
    else
      match TryValue(s, lo, SpaceEnd(s, lo))
      case None =>
        ValueMissing(s, n, p, op, lo);
        None
      case Some(q) =>
        ValueFound(s, n, p, op, lo, q);
        Some(Hit(n, p, op, q))
  }

  /** The operator alternatives from the `k`-th on, at position `p`. */
  function TryOps(s: string, n: nat, p: nat, k: nat): (r: Option<Hit>)
    requires 1 <= n <= p <= |s| && AllIdent(s[..n]) && AllSpace(s[n..p]) && k <= 8
    ensures r.Some? ==> IsHit(s, r.value) && r.value.n == n && r.value.p == p && k <= OpIndex(r.value.op)
    ensures r.Some? ==> forall h | IsHit(s, h) && h.n == n && h.p == p && k <= OpIndex(h.op) :: !Outranks(h, r.value)
    ensures r.None? ==> forall h | IsHit(s, h) && h.n == n && h.p == p :: OpIndex(h.op) < k
    decreases 8 - k
  {
    if k == 8 then None
    else
      var here := TryOp(s, n, p, OpOfIndex(k));
      if here.Some? then here
      else TryOps(s, n, p, k + 1)
  }

  /** The whitespace before the operator, from the longest run down. */
  function TryGap(s: string, n: nat, p: nat): (r: Option<Hit>)
    requires 1 <= n <= p <= |s| && AllIdent(s[..n]) && AllSpace(s[n..p])
    ensures r.Some? ==> IsHit(s, r.value) && r.value.n == n && r.value.p <= p
    ensures r.Some? ==> forall h | IsHit(s, h) && h.n == n && h.p <= p :: !Outranks(h, r.value)
    ensures r.None? ==> forall h | IsHit(s, h) && h.n == n :: h.p > p
    decreases p
  {
    var here := TryOps(s, n, p, 0);
    if here.Some? then here
    else if p == n then None
    else
      AllSpaceShrink(s, n, p - 1);
      TryGap(s, n, p - 1)
  }

  /** Every way to match with identifier `s[..n]` has its gap inside the
      whitespace run after it. */
  lemma GapBound(s: string, n: nat)
    requires n <= |s|
    ensures forall h | IsHit(s, h) && h.n == n :: h.p <= SpaceEnd(s, n)
  {
    forall h | IsHit(s, h) && h.n == n ensures h.p <= SpaceEnd(s, n) {
      SpaceRunBound(s, n, h.p);
    }
  }

  /** The identifier, from the longest run down. */
  function TryIdent(s: string, n: nat): (r: Option<Hit>)
    requires n <= |s| && AllIdent(s[..n])
    ensures r.Some? ==> IsHit(s, r.value) && r.value.n <= n
    ensures r.Some? ==> forall h | IsHit(s, h) && h.n <= n :: !Outranks(h, r.value)
    ensures r.None? ==> forall h | IsHit(s, h) :: h.n > n
    decreases n
  {
    if n == 0 then None
    else
      var here := TryGap(s, n, SpaceEnd(s, n));
      GapBound(s, n);
      if here.Some? then here
      else
        AllIdentShrink(s, n);
        TryIdent(s, n - 1)
  }

  /** Every way to match has its identifier inside the leading run of
      identifier characters. */
  lemma IdentBound(s: string)
    ensures AllIdent(s[..IdentEnd(s, 0)])
    ensures forall h | IsHit(s, h) :: h.n <= IdentEnd(s, 0)
  {
    var e := IdentEnd(s, 0);
    assert forall i | 0 <= i < e :: s[..e][i] == s[i];
    forall h | IsHit(s, h) ensures h.n <= e { IdentRunBound(s, h.n); }
  }

  /** The match `re.match` returns: the first way to match in backtracking
      order, which is the way that outranks every other. */
  function FindHit(s: string): (r: Option<Hit>)
    ensures r.Some? ==> IsHit(s, r.value)
    ensures r.Some? ==> forall h | IsHit(s, h) :: !Outranks(h, r.value)
    ensures r.None? <==> forall h :: !IsHit(s, h)
  {
    IdentBound(s);
    TryIdent(s, IdentEnd(s, 0))
  }

  /** No two different ways to match outrank each other, so the chosen
      one is the only one that no other way outranks. */
  lemma OutranksTotal(a: Hit, b: Hit)
    requires a != b
    ensures Outranks(a, b) || Outranks(b, a)
  {
    if a.n == b.n && a.p == b.p && OpIndex(a.op) == OpIndex(b.op) {
      assert a.op == b.op;
    }
  }

  /** `val[1:-1]` when the value starts and ends with the same quote
      character; a lone quote becomes empty. */
  function Unquote(v: string): (r: string)
    ensures |v| >= 2 && ((v[0] == '\'' && v[|v| - 1] == '\'') || (v[0] == '"' && v[|v| - 1] == '"')) ==>
              v == [v[0]] + r + [v[|v| - 1]]
    ensures |v| == 1 && (v[0] == '\'' || v[0] == '"') ==> r == ""
    ensures !(|v| >= 1 && ((v[0] == '\'' && v[|v| - 1] == '\'') || (v[0] == '"' && v[|v| - 1] == '"'))) ==> r == v
  {
    if |v| >= 1 && ((v[0] == '\'' && v[|v| - 1] == '\'') || (v[0] == '"' && v[|v| - 1] == '"')) then
      if |v| == 1 then "" else v[1..|v| - 1]
    else v
  }

  /** `_parse_single_condition`: strip, match the regex, and return the
      identifier, the lower-cased operator and the unquoted value. */
  function ParseCondition(text: string): (r: Option<Condition>)
    ensures r.None? <==> forall h :: !IsHit(Strip(text), h)
    ensures r.Some? ==> |r.value.col| > 0 && AllIdent(r.value.col)
  {
    var s := Strip(text);
    match FindHit(s)
    case None => None
    case Some(h) => Some(Condition(s[..h.n], h.op, Unquote(s[h.q..])))
  }

  /** The condition read from a text is the one given by the way to match
      that no other way outranks. */
  lemma ParseConditionIsFirstMatch(text: string, h: Hit)
    requires IsHit(Strip(text), h)
    requires forall h' | IsHit(Strip(text), h') :: !Outranks(h', h)
    ensures ParseCondition(text) == Some(Condition(Strip(text)[..h.n], h.op, Unquote(Strip(text)[h.q..])))
  {
    var s := Strip(text);
    var f := FindHit(s).value;
    if f != h {
      OutranksTotal(f, h);
    }
  }

  // ---------------------------------------------------------------------
  // Splitting on `and`
  // ---------------------------------------------------------------------

  /** `\s+(?i:and)\s+` matches at `m`. Greedy `\s+` must stop where `and`
      starts, and `and` cannot start with whitespace, so the first run of
      whitespace is taken whole; one whitespace character after `and` is
      enough for the match to exist. */
  predicate AndAt(w: string, m: nat) {
    && m < |w| && IsSpace(w[m])
    && var e := SpaceEnd(w, m);
       e + 3 < |w| && Lower(w[e..e + 3]) == "and" && IsSpace(w[e + 3])
  }

  /** Where the separator matched at `m` ends: the greedy trailing `\s+`. */
  function AndEnd(w: string, m: nat): (j: nat)
    requires AndAt(w, m)
    ensures m < j <= |w|
  {
    SpaceEnd(w, SpaceEnd(w, m) + 3)
  }

  /** The leftmost separator at or after `i`, if any. */
  function NextAnd(w: string, i: nat): (r: Option<nat>)
    requires i <= |w|
    ensures r.Some? ==> i <= r.value < |w| && AndAt(w, r.value)
    ensures r.Some? ==> forall m | i <= m < r.value :: !AndAt(w, m)
    ensures r.None? ==> forall m | i <= m <= |w| :: !AndAt(w, m)
    decreases |w| - i
  {
    if i == |w| then None
    else if AndAt(w, i) then Some(i)
    else NextAnd(w, i + 1)
  }

  /** A piece of the text, `w[lo..hi]`. */
  datatype Span = Span(lo: nat, hi: nat)

  /** `sp` is how `re.split` cuts `w[i..]`: the pieces cover the text from
      `i` to the end, consecutive pieces are separated by exactly one
      separator match, and no separator starts inside a piece, so each
      separator is the leftmost one after the previous piece. */
  predicate CutsAt(w: string, i: nat, sp: seq<Span>) {
    && |sp| >= 1 && sp[0].lo == i && sp[|sp| - 1].hi == |w|
    && (forall k | 0 <= k < |sp| :: i <= sp[k].lo <= sp[k].hi <= |w|)
    && (forall k | 0 <= k < |sp| - 1 :: AndAt(w, sp[k].hi) && AndEnd(w, sp[k].hi) == sp[k + 1].lo)
    && (forall k, m | 0 <= k < |sp| && sp[k].lo <= m < sp[k].hi :: !AndAt(w, m))
  }

  lemma CutsAtCons(w: string, i: nat, m: nat, rest: seq<Span>)
    requires i <= m && AndAt(w, m) && (forall m' | i <= m' < m :: !AndAt(w, m'))
    requires CutsAt(w, AndEnd(w, m), rest)
    ensures CutsAt(w, i, [Span(i, m)] + rest)
  {
    var sp := [Span(i, m)] + rest;
    assert forall k | 1 <= k < |sp| :: sp[k] == rest[k - 1];
    forall k | 0 <= k < |sp| - 1
      ensures AndAt(w, sp[k].hi) && AndEnd(w, sp[k].hi) == sp[k + 1].lo
    {
      if k > 0 {
        assert sp[k] == rest[k - 1] && sp[k + 1] == rest[k];
      }
    }
  }

  function Spans(w: string, i: nat): (sp: seq<Span>)
    requires i <= |w|
    ensures CutsAt(w, i, sp)
    decreases |w| - i
  {
    match NextAnd(w, i)
    case None => [Span(i, |w|)]
    case Some(m) =>
      var rest := Spans(w, AndEnd(w, m));
      CutsAtCons(w, i, m, rest);
      [Span(i, m)] + rest
  }

  /** The first piece ends at the leftmost separator, or at the end of
      the text when there is none. */
  lemma CutsAtFirst(w: string, i: nat, sp: seq<Span>)
    requires i <= |w| && CutsAt(w, i, sp)
    ensures |sp| == 1 <==> NextAnd(w, i).None?
    ensures sp[0].hi == if NextAnd(w, i).Some? then NextAnd(w, i).value else |w|
  {
    assert i <= sp[0].hi;
  }

  lemma CutsAtTail(w: string, i: nat, sp: seq<Span>)
    requires CutsAt(w, i, sp) && |sp| > 1
    ensures CutsAt(w, AndEnd(w, sp[0].hi), sp[1..])
  {
    var j := AndEnd(w, sp[0].hi);
    var t := sp[1..];
    assert forall k | 0 <= k < |t| :: t[k] == sp[k + 1];
    assert forall k | 0 <= k < |t| :: j <= t[k].lo by {
      forall k | 0 <= k < |t| ensures j <= t[k].lo {
        assert sp[1].lo <= sp[1].hi;
        if k > 0 {
          assert sp[k].lo <= sp[k].hi && AndAt(w, sp[k].hi) && AndEnd(w, sp[k].hi) == sp[k + 1].lo;
          CutsAtOrdered(w, i, sp, 1, k);
        }
      }
    }
  }

  lemma {:induction false} CutsAtOrdered(w: string, i: nat, sp: seq<Span>, a: nat, b: nat)
    requires CutsAt(w, i, sp) && a <= b < |sp|
    ensures sp[a].lo <= sp[b].lo
    decreases b - a
  {
    if a < b {
      CutsAtOrdered(w, i, sp, a + 1, b);
      assert AndAt(w, sp[a].hi) && AndEnd(w, sp[a].hi) == sp[a + 1].lo;
    }
  }

  /** The cuts are unique: any two ways to cut the text that both meet the
      description are the same, so `CutsAt` describes `re.split` fully. */
  lemma {:induction false} CutsAtUnique(w: string, i: nat, a: seq<Span>, b: seq<Span>)
    requires i <= |w| && CutsAt(w, i, a) && CutsAt(w, i, b)
    ensures a == b
    decreases |w| - i
  {
    CutsAtFirst(w, i, a);
    CutsAtFirst(w, i, b);
    assert a[0] == b[0];
    if |a| > 1 {
      var j := AndEnd(w, a[0].hi);
      CutsAtTail(w, i, a);
      CutsAtTail(w, i, b);
      CutsAtUnique(w, j, a[1..], b[1..]);
      assert a == [a[0]] + a[1..] && b == [b[0]] + b[1..];
    }
  }

  /** `re.split(r'\s+(?i:and)\s+', w)`: the text of each piece. */
  function SplitAnd(w: string): (parts: seq<string>)
    ensures |parts| == |Spans(w, 0)| && CutsAt(w, 0, Spans(w, 0))
    ensures forall k | 0 <= k < |parts| :: parts[k] == w[Spans(w, 0)[k].lo..Spans(w, 0)[k].hi]
  {
    var sp := Spans(w, 0);
    seq(|sp|, k requires 0 <= k < |sp| => w[sp[k].lo..sp[k].hi])
  }

  /** All of `rs` are present, collected in order; `None` as soon as one
      is missing. */
  function Collect<T>(rs: seq<Option<T>>): (r: Option<seq<T>>)
    ensures r.None? <==> exists k | 0 <= k < |rs| :: rs[k].None?
    ensures r.Some? ==> |r.value| == |rs| && forall k | 0 <= k < |rs| :: r.value[k] == rs[k].value
  {
    if |rs| == 0 then Some([])
    else if rs[0].None? then None
    else
      var rest := Collect(rs[1..]);
      assert forall k | 1 <= k < |rs| :: rs[k] == rs[1..][k - 1];
      if rest.None? then None
      else
        var r := [rs[0].value] + rest.value;
        assert forall k | 1 <= k < |rs| :: r[k] == rest.value[k - 1];
        Some(r)
  }

  /** Each piece parsed on its own. */
  function ParseEach(parts: seq<string>): (rs: seq<Option<Condition>>)
    ensures |rs| == |parts| && forall k | 0 <= k < |parts| :: rs[k] == ParseCondition(parts[k])
  {
    if |parts| == 0 then []
    else
      assert forall k | 1 <= k < |parts| :: parts[k] == parts[1..][k - 1];
      [ParseCondition(parts[0])] + ParseEach(parts[1..])
  }

  /** `_parse_where_clause` on a list of pieces: every piece must parse, or
      the whole clause is rejected. */
  function ParseAll(parts: seq<string>): (r: Option<seq<Condition>>)
    ensures r.None? <==> exists k | 0 <= k < |parts| :: ParseCondition(parts[k]).None?
    ensures r.Some? ==> |r.value| == |parts|
    ensures r.Some? ==> forall k | 0 <= k < |parts| :: r.value[k] == ParseCondition(parts[k]).value
  {
    Collect(ParseEach(parts))
  }

  /** `_parse_where_clause`: one condition per piece, in order, or `None`
      when any piece fails. */
  function ParseWhere(w: string): (r: Option<seq<Condition>>)
    ensures r.Some? <==> forall k | 0 <= k < |SplitAnd(w)| :: ParseCondition(SplitAnd(w)[k]).Some?
    ensures r.Some? ==> |r.value| == |SplitAnd(w)|
    ensures r.Some? ==> forall k | 0 <= k < |r.value| :: r.value[k] == ParseCondition(SplitAnd(w)[k]).value
  {
    ParseAll(SplitAnd(w))
  }

  /** How `search_table` and `alter_on_tables` read their WHERE text: a
      blank clause means no condition at all. */
  function ParseFilter(w: string): (r: Option<seq<Condition>>)
    ensures AllSpace(w) ==> r == Some([])
    ensures !AllSpace(w) ==> r == ParseWhere(w)
  {
    if Strip(w) == "" then Some([]) else ParseWhere(w)
  }
}

=== FILE: constraints.dfy ===
/** The constraint enforcer: auto-increment numbering, the not-null rule and
    the two uniqueness checks, with the insert and bulk-update write steps
    that use them. */
module Constraints {
  import opened Wrappers
  import opened Text
  import opened Values
  import opened Codec
  import opened Schema

  // ---------------------------------------------------------------------
  // Auto-increment
  // ---------------------------------------------------------------------

  /** `int(x)` toward zero for a float. */
  function TruncToInt(x: real): int {
    if x >= 0.0 then x.Floor else -((-x).Floor)
  }

  /** Python's `int(v)` on a stored value; `None` where it raises. */
  function IntOf(v: Value): Option<int> {
    match v
    case Int(i) => Some(i)
    case Bool(b) => Some(if b then 1 else 0)
    case Float(x) => Some(TruncToInt(x))
    case Str(s) => ParseInt(s)
    case _ => None
  }

  /** The integer a row's stored value for `name` yields, if any. */
  function StoredInt(row: Row, name: string): Option<int> {
    if Get(row, name) == Null then None else IntOf(Get(row, name))
  }

  /** The scan of main.py:756-768 and 564-575: the largest int-parseable
      stored value of the column, or 0 when there is none (or all are
      negative). */
  function MaxStoredInt(rows: seq<Row>, name: string): (m: nat)
    ensures forall i | 0 <= i < |rows| && StoredInt(rows[i], name).Some? ::
              StoredInt(rows[i], name).value <= m
    ensures m == 0 || exists i | 0 <= i < |rows| :: StoredInt(rows[i], name) == Some(m)
    decreases |rows|
  {
    if |rows| == 0 then 0
    else
      var init := rows[..|rows| - 1];
      var m := MaxStoredInt(init, name);
      var v := StoredInt(rows[|rows| - 1], name);
      assert forall i | 0 <= i < |init| :: init[i] == rows[i];
      if v.Some? && v.value > m then v.value else m
  }

  /** `auto_inc_next[col]` of `insert_data`: one past the largest stored
      value, so it is positive and above every stored int of the column. */
  function NextAutoIncrement(rows: seq<Row>, name: string): (n: int)
    ensures n >= 1
    ensures forall i | 0 <= i < |rows| && StoredInt(rows[i], name).Some? ::
              StoredInt(rows[i], name).value < n
    ensures n == 1 || exists i | 0 <= i < |rows| :: StoredInt(rows[i], name) == Some(n - 1)
  {
    MaxStoredInt(rows, name) + 1
  }

  // ---------------------------------------------------------------------
  // Not-null
  // ---------------------------------------------------------------------

  /** The NOT NULL test of main.py:821 and main.py:1166. */
  predicate ViolatesNotNull(col: Column, candidate: Value) {
    col.notNull && (candidate == Null || candidate == Str(""))
  }

  // ---------------------------------------------------------------------
  // Uniqueness
  // ---------------------------------------------------------------------

  /** Some row other than `exclude` stores a value equal to `v` in `name`. */
  predicate StoredElsewhere(rows: seq<Row>, name: string, v: Value, exclude: int) {
    exists i | 0 <= i < |rows| && i != exclude :: PyEq(Get(rows[i], name), v)
  }

  function ConflictFrom(rows: seq<Row>, name: string, candidate: Value, exclude: int, i: nat): (r: bool)
    requires i <= |rows|
    ensures r <==> exists j | i <= j < |rows| && j != exclude :: PyEq(Get(rows[j], name), candidate)
    decreases |rows| - i
  {
    if i == |rows| then false
    else if i != exclude && PyEq(Get(rows[i], name), candidate) then true
    else ConflictFrom(rows, name, candidate, exclude, i + 1)
  }

  /** `unique_conflict` of `alter_on_tables`: a null candidate never
      conflicts; otherwise some row other than the one being edited stores
      an equal value. */
  function UniqueConflict(rows: seq<Row>, name: string, candidate: Value, exclude: int): (r: bool)
    ensures candidate == Null ==> !r
    ensures candidate != Null ==> (r <==> StoredElsewhere(rows, name, candidate, exclude))
  {
    candidate != Null && ConflictFrom(rows, name, candidate, exclude, 0)
  }

  function ViolationFrom(rows: seq<Row>, name: string, candidate: Value, i: nat): (r: bool)
    requires i <= |rows|
    ensures r <==> exists j | i <= j < |rows| :: PyEq(Get(rows[j], name), candidate)
    decreases |rows| - i
  {
    if i == |rows| then false
    else
      var existing := Get(rows[i], name);
      if existing == Null && candidate == Null then true
      else if PyEq(existing, candidate) then true
      else ViolationFrom(rows, name, candidate, i + 1)
  }

  /** `is_unique_violation`, over the rows it is evidently meant to read:
      some row stores a value equal to the candidate. The separate
      null-against-null test adds nothing, since `None == None`. */
  function IsUniqueViolation(rows: seq<Row>, name: string, candidate: Value): (r: bool)
    ensures r <==> StoredElsewhere(rows, name, candidate, -1)
  {
    ViolationFrom(rows, name, candidate, 0)
  }

  /** With no row excluded, the insert-path and the update-path checks agree
      on every non-null candidate. */
  lemma UniqueChecksAgree(rows: seq<Row>, name: string, candidate: Value)
    requires candidate != Null
    ensures IsUniqueViolation(rows, name, candidate) == UniqueConflict(rows, name, candidate, -1)
  {
  }

  // ---------------------------------------------------------------------
  // Insert path (insert_data, one column)
  // ---------------------------------------------------------------------

  /** The column default `insert_data` falls back on (main.py:798-806): a
      stored int, float, bool, list or dict is used as is; anything else is
      re-decoded from its text under the column type, keeping the raw
      default when that fails. */
  function DefaultCandidate(host: Host, col: Column): (r: Value)
    ensures var d := col.default; d.Int? || d.Float? || d.Bool? || d.List? || d.Dict? ==> r == d
    ensures col.default.Str? && Decode(host, col.default.s, col.typ).Err? ==> r == col.default
    ensures col.default.Str? && Decode(host, col.default.s, col.typ).Ok? ==> r == Serialize(Decode(host, col.default.s, col.typ).value)
    ensures Persistable(col.default) ==> Persistable(r)
  {
    var d := col.default;
    if d.Int? || d.Float? || d.Bool? || d.List? || d.Dict? then Serialize(d)
    else match Decode(host, PyStr(host, d), col.typ)
      case Ok(v) => Serialize(v)
      case Err(_) => d
  }

  /** The candidate `insert_data` forms from the (stripped) input line:
      the default for an empty line when one is declared, null for an empty
      line otherwise, else the decoded and serialised input. */
  function InsertCandidate(host: Host, col: Column, raw: string): (r: Result<Value, DecodeError>)
    ensures raw == "" && col.default == Null ==> r == Ok(Null)
    ensures raw == "" && col.default != Null ==> r == Ok(DefaultCandidate(host, col))
    ensures raw != "" ==> (r.Ok? <==> Decode(host, raw, col.typ).Ok?)
    ensures raw != "" && r.Ok? ==> r.value == Serialize(Decode(host, raw, col.typ).value)
    ensures raw != "" && r.Ok? ==> r.value != Null && r.value != Str("") && Persistable(r.value)
  {
    if raw == "" && col.default != Null then Ok(DefaultCandidate(host, col))
    else if raw == "" then Ok(Null)
    else
      match Decode(host, raw, col.typ)
      case Ok(v) =>
        DecodedNonEmptyIsPresent(host, raw, col.typ);
        Ok(Serialize(v))
      case Err(e) => Err(e)
  }

  datatype Refusal = NotNullViolation | UniqueViolation

  /** The checks `insert_data` applies to a candidate before storing it
      (main.py:820-850, without the retry prompts). */
  function CheckInsertValue(rows: seq<Row>, col: Column, candidate: Value): (r: Result<Value, Refusal>)
    ensures r.Ok? ==> r.value == candidate
    ensures r == Err(NotNullViolation) <==> ViolatesNotNull(col, candidate)
    ensures r == Err(UniqueViolation) <==>
              !ViolatesNotNull(col, candidate) && col.unique && candidate != Null
              && StoredElsewhere(rows, col.name, candidate, -1)
  {
    if ViolatesNotNull(col, candidate) then Err(NotNullViolation)
    else if col.unique && candidate != Null && IsUniqueViolation(rows, col.name, candidate) then Err(UniqueViolation)
    else Ok(candidate)
  }

  /** What main.py:843-844 does as written: `is_unique_violation` reads a
      global `data` that does not exist, so every non-null candidate for a
      unique column raises `NameError` and the insert aborts. */
  datatype InsertStep = Stored(v: Value) | Refused(why: Refusal) | NameErrorRaised

  function CheckInsertValueAsWritten(col: Column, candidate: Value): (r: InsertStep)
    ensures r == NameErrorRaised <==> !ViolatesNotNull(col, candidate) && col.unique && candidate != Null
  {
    if ViolatesNotNull(col, candidate) then Refused(NotNullViolation)
    else if col.unique && candidate != Null then NameErrorRaised
    else Stored(candidate)
  }

  /** The discrepancy: inserting 1 into an empty table's unique column
      fails as written, though nothing conflicts with it. */
  lemma InsertIntoEmptyUniqueColumnRaises()
    ensures var col := Column("id", "int", false, true, false, Null);
            && CheckInsertValueAsWritten(col, Int(1)) == NameErrorRaised
            && CheckInsertValue([], col, Int(1)) == Ok(Int(1))
  {
  }

  /** A record admitted by the uniqueness check keeps the column unique. */
  lemma InsertKeepsUnique(rows: seq<Row>, name: string, record: Row)
    requires UniqueOn(rows, name)
    requires Get(record, name) == Null || !IsUniqueViolation(rows, name, Get(record, name))
    ensures UniqueOn(rows + [record], name)
  {
    var rows' := rows + [record];
    var v := Get(record, name);
    forall i, j | 0 <= i < |rows'| && 0 <= j < |rows'| && i != j && Get(rows'[i], name) != Null
      ensures !PyEq(Get(rows'[i], name), Get(rows'[j], name))
    {
      if i == |rows| {
        assert rows'[j] == rows[j];
        if PyEq(v, Get(rows'[j], name)) {
          PyEqSymmetric(v, Get(rows'[j], name));
        }
      } else if j == |rows| {
        assert rows'[i] == rows[i];
      } else {
        assert rows'[i] == rows[i] && rows'[j] == rows[j];
      }
    }
  }

  // ---------------------------------------------------------------------
  // Bulk update path (alter_on_tables, one field of one row)
  // ---------------------------------------------------------------------

  datatype EditRefusal =
    | AutoIncrementLocked
    | BadValue(error: DecodeError)
    | EditNotNull
    | EditNotUnique

  /** The candidate of main.py:1153-1163: `null` in any case means None,
      anything else is decoded and serialised. */
  function FieldCandidate(host: Host, col: Column, raw: string): (r: Result<Value, DecodeError>)
    ensures Lower(raw) == "null" ==> r == Ok(Null)
    ensures Lower(raw) != "null" ==> (r.Ok? <==> Decode(host, raw, col.typ).Ok?)
    ensures Lower(raw) != "null" && r.Err? ==> r == Err(Decode(host, raw, col.typ).error)
    ensures r.Ok? ==> Persistable(r.value)
    ensures raw != "" && Lower(raw) != "null" && r.Ok? ==> r.value != Null && r.value != Str("")
  {
    if Lower(raw) == "null" then Ok(Null)
    else
      match Decode(host, raw, col.typ)
      case Ok(v) =>
        assert raw != "" ==> Serialize(v) != Null && Serialize(v) != Str("") by {
          if raw != "" { DecodedNonEmptyIsPresent(host, raw, col.typ); }
        }
        Ok(Serialize(v))
      case Err(e) => Err(e)
  }

  /** One field edit of `alter_on_tables` (main.py:1137-1175): an
      auto-increment column is never edited, an empty answer changes
      nothing, and a candidate that breaks NOT NULL or UNIQUE leaves the
      field as it was. */
  function EditField(host: Host, rows: seq<Row>, idx: nat, col: Column, raw: string): (r: Result<seq<Row>, EditRefusal>)
    requires idx < |rows|
    ensures col.autoIncrement ==> r == Err(AutoIncrementLocked)
    ensures !col.autoIncrement && raw == "" ==> r == Ok(rows)
    ensures !col.autoIncrement && raw != "" ==>
              (r.Ok? <==> && FieldCandidate(host, col, raw).Ok?
                          && !ViolatesNotNull(col, FieldCandidate(host, col, raw).value)
                          && !(col.unique && UniqueConflict(rows, col.name, FieldCandidate(host, col, raw).value, idx)))
    ensures r.Ok? && raw != "" ==> r.value == rows[idx := rows[idx][col.name := FieldCandidate(host, col, raw).value]]
    ensures r.Ok? ==> |r.value| == |rows|
    ensures r.Ok? ==> forall i | 0 <= i < |rows| && i != idx :: r.value[i] == rows[i]
    ensures r.Ok? ==> r.value[idx] == rows[idx] || r.value[idx] == rows[idx][col.name := Get(r.value[idx], col.name)]
    ensures r.Ok? && col.notNull && raw != "" ==> Get(r.value[idx], col.name) !in {Null, Str("")}
    ensures r.Ok? && col.unique && UniqueOn(rows, col.name) ==> UniqueOn(r.value, col.name)
  {
    if col.autoIncrement then Err(AutoIncrementLocked)
    else if raw == "" then Ok(rows)
    else
      match FieldCandidate(host, col, raw)
      case Err(e) => Err(BadValue(e))
      case Ok(candidate) =>
        if ViolatesNotNull(col, candidate) then Err(EditNotNull)
        else if col.unique && UniqueConflict(rows, col.name, candidate, idx) then Err(EditNotUnique)
        else
          var rows' := rows[idx := rows[idx][col.name := candidate]];
          EditKeepsUnique(rows, idx, col, candidate);
          Ok(rows')
  }

  lemma EditKeepsUnique(rows: seq<Row>, idx: nat, col: Column, candidate: Value)
    requires idx < |rows|
    requires col.unique ==> !UniqueConflict(rows, col.name, candidate, idx)
    ensures col.unique && UniqueOn(rows, col.name) ==>
              UniqueOn(rows[idx := rows[idx][col.name := candidate]], col.name)
  {
    if !(col.unique && UniqueOn(rows, col.name)) { return; }
    var name := col.name;
    var rows' := rows[idx := rows[idx][name := candidate]];
    forall i, j | 0 <= i < |rows'| && 0 <= j < |rows'| && i != j && Get(rows'[i], name) != Null
      ensures !PyEq(Get(rows'[i], name), Get(rows'[j], name))
    {
      if i == idx {
        if PyEq(candidate, Get(rows[j], name)) {
          PyEqSymmetric(candidate, Get(rows[j], name));
        }
      } else if j == idx {
        assert Get(rows'[i], name) == Get(rows[i], name);
      }
    }
  }
}

=== FILE: evaluator.dfy ===
/** The condition evaluator `_match_condition` (main.py:129-189) and the
    conjunction loops of `search_table` (main.py:991-1002) and
    `alter_on_tables` (main.py:1079-1090). */
module Evaluator {
  import opened Wrappers
  import opened Text
  import opened Values
  import opened Codec
  import opened Schema
  import opened Conditions

  // ---------------------------------------------------------------------
  // `like`
  // ---------------------------------------------------------------------

  /** One element of the regex built from a `like` literal: a character
      matched without regard to case, or `\.*` (zero or more dots). */
  datatype PatElem = Lit(c: char) | Dots

  /** The regex `re.escape(v).replace(r'\%', '.*')` stands for. `re.escape`
      leaves `%` alone, so the only `\%` in the escaped text is the second
      half of an escaped backslash followed by `%`; the replacement turns
      that pair into `\.*`. Every other character stays a literal. */
  function LikePattern(v: string): (pat: seq<PatElem>)
    decreases |v|
  {
    if |v| == 0 then []
    else if |v| >= 2 && v[0] == '\\' && v[1] == '%' then [Dots] + LikePattern(v[2..])
    else [Lit(v[0])] + LikePattern(v[1..])
  }

  predicate SameLetter(a: char, b: char) {
    LowerChar(a) == LowerChar(b)
  }

  /** `t` as a whole is in the language of `pat` (with `re.IGNORECASE`). */
  predicate MatchesAll(pat: seq<PatElem>, t: string)
    decreases |pat|, |t|
  {
    if |pat| == 0 then |t| == 0
    else match pat[0]
      case Lit(c) => |t| > 0 && SameLetter(t[0], c) && MatchesAll(pat[1..], t[1..])
      case Dots => MatchesAll(pat[1..], t) || (|t| > 0 && t[0] == '.' && MatchesAll(pat, t[1..]))
  }

  /** The backtracking matcher at one start position: some prefix of `t`
      matches. */
  function PrefixMatch(pat: seq<PatElem>, t: string): bool
    decreases |pat|, |t|
  {
    if |pat| == 0 then true
    else match pat[0]
      case Lit(c) => |t| > 0 && SameLetter(t[0], c) && PrefixMatch(pat[1..], t[1..])
      case Dots => PrefixMatch(pat[1..], t) || (|t| > 0 && t[0] == '.' && PrefixMatch(pat, t[1..]))
  }

  /** A prefix match ends somewhere: the matcher finds a whole match of a
      prefix. */
  lemma {:induction false} PrefixMatchWitness(pat: seq<PatElem>, t: string) returns (j: nat)
    requires PrefixMatch(pat, t)
    ensures j <= |t| && MatchesAll(pat, t[..j])
    decreases |pat|, |t|
  {
    if |pat| == 0 {
      j := 0;
    } else {
      match pat[0]
      case Lit(c) =>
        var j' := PrefixMatchWitness(pat[1..], t[1..]);
        j := j' + 1;
        assert t[..j][1..] == t[1..][..j'];
      case Dots =>
        if PrefixMatch(pat[1..], t) {
          j := PrefixMatchWitness(pat[1..], t);
        } else {
          var j' := PrefixMatchWitness(pat, t[1..]);
          j := j' + 1;
          assert t[..j][1..] == t[1..][..j'];
        }
    }
  }

  /** And any whole match of a prefix is found by the matcher. */
  lemma {:induction false} PrefixMatchComplete(pat: seq<PatElem>, t: string, j: nat)
    requires j <= |t| && MatchesAll(pat, t[..j])
    ensures PrefixMatch(pat, t)
    decreases |pat|, |t|
  {
    if |pat| > 0 {
      match pat[0]
      case Lit(c) =>
        assert t[..j][1..] == t[1..][..j - 1];
        PrefixMatchComplete(pat[1..], t[1..], j - 1);
      case Dots =>
        if MatchesAll(pat[1..], t[..j]) {
          PrefixMatchComplete(pat[1..], t, j);
        } else {
          assert t[..j][1..] == t[1..][..j - 1];
          PrefixMatchComplete(pat, t[1..], j - 1);
        }
    }
  }

  /** `re.search`: try every start position, the end of the text included. */
  function SearchFrom(pat: seq<PatElem>, text: string, i: nat): bool
    requires i <= |text|
    decreases |text| - i
  {
    PrefixMatch(pat, text[i..]) || (i < |text| && SearchFrom(pat, text, i + 1))
  }

  /** `re.search(pattern, text, flags=re.IGNORECASE) is not None`. */
  function LikeMatch(v: string, text: string): bool {
    SearchFrom(LikePattern(v), text, 0)
  }

  /** The search succeeds exactly when some stretch of the text is in the
      language of the pattern. */
  lemma {:induction false} SearchFromMeaning(pat: seq<PatElem>, text: string, i: nat)
    requires i <= |text|
    ensures SearchFrom(pat, text, i) <==>
              exists a, b | i <= a <= b <= |text| :: MatchesAll(pat, text[a..b])
    decreases |text| - i
  {
    if i < |text| {
      SearchFromMeaning(pat, text, i + 1);
    }
    if PrefixMatch(pat, text[i..]) {
      var j := PrefixMatchWitness(pat, text[i..]);
      assert text[i..][..j] == text[i..i + j];
    }
    if exists a, b | i <= a <= b <= |text| :: MatchesAll(pat, text[a..b]) {
      var a, b :| i <= a <= b <= |text| && MatchesAll(pat, text[a..b]);
      if a == i {
        assert text[i..][..b - i] == text[a..b];
        PrefixMatchComplete(pat, text[i..], b - i);
      }
    }
  }

  lemma LikeMatchMeaning(v: string, text: string)
    ensures LikeMatch(v, text) <==>
              exists a, b | 0 <= a <= b <= |text| :: MatchesAll(LikePattern(v), text[a..b])
  {
    SearchFromMeaning(LikePattern(v), text, 0);
  }

  /** `v` holds no backslash directly followed by `%`, so `%` and every
      other character of it are matched literally. */
  predicate PlainLike(v: string) {
    forall k | 0 <= k < |v| - 1 :: !(v[k] == '\\' && v[k + 1] == '%')
  }

  function Lits(v: string): (pat: seq<PatElem>)
    ensures |pat| == |v| && forall k | 0 <= k < |v| :: pat[k] == Lit(v[k])
  {
    seq(|v|, k requires 0 <= k < |v| => Lit(v[k]))
  }

  lemma {:induction false} PlainLikePattern(v: string)
    requires PlainLike(v)
    ensures LikePattern(v) == Lits(v)
    decreases |v|
  {
    if |v| > 0 {
      assert PlainLike(v[1..]) by {
        forall k | 0 <= k < |v[1..]| - 1 ensures !(v[1..][k] == '\\' && v[1..][k + 1] == '%') {
          assert v[1..][k] == v[k + 1] && v[1..][k + 1] == v[k + 2];
        }
      }
      PlainLikePattern(v[1..]);
      assert Lits(v) == [Lit(v[0])] + Lits(v[1..]);
    }
  }

  /** A literal pattern matches a text exactly when the two agree letter by
      letter, ignoring case. */
  lemma {:induction false} MatchesAllLits(v: string, t: string)
    ensures MatchesAll(Lits(v), t) <==> |t| == |v| && Lower(t) == Lower(v)
    decreases |v|
  {
    if |v| > 0 && |t| > 0 {
      MatchesAllLits(v[1..], t[1..]);
      assert Lits(v)[1..] == Lits(v[1..]);
      assert Lower(t) == [LowerChar(t[0])] + Lower(t[1..]);
      assert Lower(v) == [LowerChar(v[0])] + Lower(v[1..]);
    }
  }

  /** `v` occurs in `text` at `a`, ignoring case. */
  predicate OccursAt(v: string, text: string, a: nat) {
    a + |v| <= |text| && Lower(text[a..a + |v|]) == Lower(v)
  }

  /** Without a backslash before a `%`, `like` is a case-insensitive
      substring test, and `%` is an ordinary character: `name like 'jo%'`
      asks for the three characters `jo%` somewhere in the name. */
  lemma PlainLikeIsSubstring(v: string, text: string)
    requires PlainLike(v)
    ensures LikeMatch(v, text) <==> exists a: nat :: OccursAt(v, text, a)
  {
    PlainLikePattern(v);
    LikeMatchMeaning(v, text);
    if LikeMatch(v, text) {
      var a, b :| 0 <= a <= b <= |text| && MatchesAll(Lits(v), text[a..b]);
      MatchesAllLits(v, text[a..b]);
      assert OccursAt(v, text, a);
    }
    if exists a: nat :: OccursAt(v, text, a) {
      var a: nat :| OccursAt(v, text, a);
      MatchesAllLits(v, text[a..a + |v|]);
    }
  }

  /** `name like 'jo%'` does not select `"john"`. */
  lemma PercentIsLiteral()
    ensures !LikeMatch("jo%", "john")
  {
    PlainLikeIsSubstring("jo%", "john");
    forall a: nat ensures !OccursAt("jo%", "john", a) {
      if a + 3 <= 4 {
        assert Lower("john"[a..a + 3])[2] != '%';
      }
    }
  }

  /** A backslash before `%` is the one way to write a repetition: `\%`
      matches any run of dots, including none. */
  lemma EscapedPercentMatchesDots()
    ensures LikeMatch("a\\%b", "xab")
    ensures LikeMatch("a\\%b", "a..b")
    ensures !LikeMatch("a\\%b", "axb")
  {
    assert LikePattern("a\\%b") == [Lit('a'), Dots, Lit('b')];
    assert PrefixMatch([Lit('a'), Dots, Lit('b')], "xab"[1..]);
    assert PrefixMatch([Lit('a'), Dots, Lit('b')], "a..b");
    LikeMatchMeaning("a\\%b", "axb");
    forall a, b | 0 <= a <= b <= 3 ensures !MatchesAll([Lit('a'), Dots, Lit('b')], "axb"[a..b]) {
      if a == 0 && b >= 2 {
        assert "axb"[a..b][1..] == "axb"[1..b];
      }
    }
  }

  // ---------------------------------------------------------------------
  // Operands and comparison
  // ---------------------------------------------------------------------

  /** The right operand when the literal does not decode under the column
      type: `int(lit)` when the left operand is an `int` (a `bool` is one
      too), `float(lit)` when it is a `float`, else the text itself; a
      failed conversion also leaves the text. */
  function Fallback(host: Host, left: Value, lit: string): (r: Value)
    ensures r.Int? || r.Float? || r == Str(lit)
    ensures (left.Int? || left.Bool?) ==> (r.Int? <==> ParseInt(lit).Some?) && !r.Float?
    ensures !(left.Int? || left.Bool? || left.Float?) ==> r == Str(lit)
    ensures (left.Int? || left.Bool?) && ParseInt(lit).Some? ==> r == Int(ParseInt(lit).value)
    ensures left.Float? ==> r == (if host.parseFloat(lit).Some? then Float(host.parseFloat(lit).value) else Str(lit))
  {
    if left.Int? || left.Bool? then
      match ParseInt(lit)
      case Some(i) => Int(i)
      case None => Str(lit)
    else if left.Float? then
      match host.parseFloat(lit)
      case Some(x) => Float(x)
      case None => Str(lit)
    else Str(lit)
  }

  /** The `bool` branch of the fallback cannot be reached: no fallback
      operand is ever a `bool`. */
  lemma BoolFallbackUnreachable(host: Host, left: Value, lit: string)
    ensures !Fallback(host, left, lit).Bool?
  {
  }

  /** The comparison step; `None` from `Compare` is the `TypeError` the
      evaluator turns into `False`. */
  function Apply(op: Op, left: Value, right: Value): (r: bool)
    ensures IsOrdering(op) && Compare(left, right).None? ==> !r
    ensures (op == Gt || op == Lt) && r ==> !PyEq(left, right)
    ensures op == Ge && Compare(left, right).Some? ==> (r <==> Compare(left, right) == Some(GT) || PyEq(left, right))
    ensures op == Le && Compare(left, right).Some? ==> (r <==> Compare(left, right) == Some(LT) || PyEq(left, right))
    ensures op == Like ==> !r
  {
    CompareEqIsPyEq(left, right);
    match op
    case Eq => PyEq(left, right)
    case EqEq => PyEq(left, right)
    case Ne => !PyEq(left, right)
    case Gt => Compare(left, right) == Some(GT)
    case Lt => Compare(left, right) == Some(LT)
    case Ge => Compare(left, right) == Some(GT) || Compare(left, right) == Some(EQ)
    case Le => Compare(left, right) == Some(LT) || Compare(left, right) == Some(EQ)
    case Like => false
  }

  predicate IsOrdering(op: Op) {
    op == Gt || op == Lt || op == Ge || op == Le
  }

  /** The three equality operators agree with each other, and `=` is
      symmetric. */
  lemma EqualityOperators(left: Value, right: Value)
    ensures Apply(EqEq, left, right) == Apply(Eq, left, right)
    ensures Apply(Ne, left, right) == !Apply(Eq, left, right)
    ensures Apply(Eq, left, right) == Apply(Eq, right, left)
  {
    if PyEq(left, right) { PyEqSymmetric(left, right); }
    if PyEq(right, left) { PyEqSymmetric(right, left); }
  }

  /** Where Python can order two values, they are ordered equal exactly when
      `==` holds: so `>=` is `>` or `==`, as Python defines it. */
  lemma {:induction false} CompareEqIsPyEq(a: Value, b: Value)
    ensures Compare(a, b).Some? ==> (Compare(a, b) == Some(EQ) <==> PyEq(a, b))
    decreases a, 1, 0
  {
    if !(IsNumber(a) && IsNumber(b)) {
      match (a, b)
      case (Str(x), Str(y)) => CompareStrEq(x, y);
      case (List(_), List(_)) => CompareItemsEqIsPyEq(a, b, 0);
      case _ =>
    }
  }

  lemma {:induction false} CompareItemsEqIsPyEq(a: Value, b: Value, i: nat)
    requires a.List? && b.List? && i <= |a.items| && i <= |b.items|
    requires forall j | 0 <= j < i :: PyEq(a.items[j], b.items[j])
    ensures CompareItems(a, b, i).Some? ==> (CompareItems(a, b, i) == Some(EQ) <==> PyEq(a, b))
    decreases a, 0, |a.items| - i
  {
    if i == |a.items| || i == |b.items| {
    } else if PyEq(a.items[i], b.items[i]) {
      CompareItemsEqIsPyEq(a, b, i + 1);
    } else {
      CompareEqIsPyEq(a.items[i], b.items[i]);
    }
  }

  /** An ordering between kinds Python cannot order is false, whichever
      way round it is written. */
  lemma IncomparableIsFalse(op: Op, left: Value, right: Value)
    requires op == Gt || op == Lt || op == Ge || op == Le
    requires Compare(left, right).None?
    ensures !Apply(op, left, right)
  {
  }

  function FlipOrd(o: Option<Ord>): Option<Ord> {
    match o
    case None => None
    case Some(x) => Some(Flip(x))
  }

  lemma CompareIntFlip(x: int, y: int)
    ensures CompareInt(y, x) == Flip(CompareInt(x, y))
  {
  }

  lemma CompareDateFlip(x: CalendarDate, y: CalendarDate)
    ensures CompareDate(y, x) == Flip(CompareDate(x, y))
  {
  }

  lemma CompareTimestampFlip(x: Timestamp, y: Timestamp)
    ensures CompareTimestamp(y, x) == Flip(CompareTimestamp(x, y))
  {
    CompareDateFlip(x.date, y.date);
  }

  /** Swapping the operands flips the outcome, so `a > b` and `b < a`
      agree, and one raises exactly when the other does. */
  lemma {:induction false} CompareFlip(a: Value, b: Value)
    ensures Compare(b, a) == FlipOrd(Compare(a, b))
    decreases a, 1, 0
  {
    if IsNumber(a) && IsNumber(b) {
    } else {
      match (a, b)
      case (Str(x), Str(y)) => CompareStrFlip(x, y);
      case (Date(x), Date(y)) => CompareDateFlip(x, y);
      case (DateTime(x), DateTime(y)) => CompareTimestampFlip(x, y);
      case (List(xs), List(ys)) => CompareItemsFlip(a, b, 0);
      case _ =>
    }
  }

  lemma {:induction false} CompareItemsFlip(a: Value, b: Value, i: nat)
    requires a.List? && b.List? && i <= |a.items| && i <= |b.items|
    ensures CompareItems(b, a, i) == FlipOrd(CompareItems(a, b, i))
    decreases a, 0, |a.items| - i
  {
    if i == |a.items| || i == |b.items| {
      CompareIntFlip(|a.items|, |b.items|);
    } else {
      if PyEq(a.items[i], b.items[i]) {
        PyEqSymmetric(a.items[i], b.items[i]);
        CompareItemsFlip(a, b, i + 1);
      } else {
        if PyEq(b.items[i], a.items[i]) {
          PyEqSymmetric(b.items[i], a.items[i]);
        }
        CompareFlip(a.items[i], b.items[i]);
      }
    }
  }

  lemma GreaterIsFlippedLess(a: Value, b: Value)
    ensures Apply(Gt, a, b) == Apply(Lt, b, a)
    ensures Apply(Ge, a, b) == Apply(Le, b, a)
  {
    CompareFlip(a, b);
  }

  // ---------------------------------------------------------------------
  // One condition
  // ---------------------------------------------------------------------

  /** `schema_map.get(col, "str")`. */
  function ColumnType(types: map<string, string>, col: string): string {
    if col in types then types[col] else "str"
  }

  /** The left operand: the stored value re-read from its text under the
      column type, or the stored value itself when that fails. */
  function LeftOperand(host: Host, stored: Value, typ: string): Value {
    match Decode(host, PyStr(host, stored), typ)
    case Ok(v) => v
    case Err(_) => stored
  }

  /** The right operand: the literal decoded under the column type, or the
      fallback when that fails. */
  function RightOperand(host: Host, left: Value, lit: string, typ: string): Value {
    match Decode(host, lit, typ)
    case Ok(v) => v
    case Err(_) => Fallback(host, left, lit)
  }

  const NullWords: set<string> := {"null", "none"}

  /** `_match_condition(row, schema_map, col, op, val)`. */
  function MatchCondition(host: Host, row: Row, types: map<string, string>, c: Condition): (r: bool)
    ensures c.op == Like ==> (r <==> LikeMatch(c.value, PyStr(host, Get(row, c.col))))
    ensures c.op != Like && Get(row, c.col) == Null ==>
              (r <==> (c.op == Eq || c.op == EqEq) && Lower(c.value) in NullWords)
    ensures c.op != Like && Get(row, c.col) != Null ==>
              var left := LeftOperand(host, Get(row, c.col), ColumnType(types, c.col));
              r == Apply(c.op, left, RightOperand(host, left, c.value, ColumnType(types, c.col)))
  {
    var stored := Get(row, c.col);
    var typ := ColumnType(types, c.col);
    if c.op == Like then LikeMatch(c.value, PyStr(host, stored))
    else if stored == Null then (c.op == Eq || c.op == EqEq) && Lower(c.value) in NullWords
    else
      var left := LeftOperand(host, stored, typ);
      Apply(c.op, left, RightOperand(host, left, c.value, typ))
  }

  /** A `like` on a missing column searches the text `"None"`. */
  lemma LikeOnMissingSearchesNone(host: Host, row: Row, types: map<string, string>, col: string, v: string)
    requires col !in row
    ensures MatchCondition(host, row, types, Condition(col, Like, v)) == LikeMatch(v, "None")
  {
  }

  lemma ThirtyText()
    ensures IntToString(30) == "30"
  {
    assert NatToString(3) == "3";
  }

  /** On an int column, an int literal compares numerically with the stored
      int: `age > 30` holds for 42. */
  lemma IntComparisonExample(host: Host)
    ensures MatchCondition(host, map["age" := Int(42)], map["age" := "int"], Condition("age", Gt, "30"))
    ensures !MatchCondition(host, map["age" := Int(42)], map["age" := "int"], Condition("age", Lt, "30"))
  {
    ThirtyText();
    IntColumnComparison(host, map["age" := Int(42)], map["age" := "int"], "age", 42, 30, Gt);
    IntColumnComparison(host, map["age" := Int(42)], map["age" := "int"], "age", 42, 30, Lt);
  }

  /** Python's comparison operators on two ints, written out. */
  function IntOp(op: Op, i: int, j: int): bool {
    match op
    case Eq => i == j
    case EqEq => i == j
    case Ne => i != j
    case Gt => i > j
    case Lt => i < j
    case Ge => i >= j
    case Le => i <= j
    case Like => false
  }

  /** On an `int` column holding an int, an integer literal compares
      numerically with it, whatever the operator. */
  lemma IntColumnComparison(host: Host, row: Row, types: map<string, string>, col: string, i: int, j: int, op: Op)
    requires Get(row, col) == Int(i) && ColumnType(types, col) == "int" && op != Like
    ensures MatchCondition(host, row, types, Condition(col, op, IntToString(j))) == IntOp(op, i, j)
  {
    ReadBackInt(host, i);
    ReadBackInt(host, j);
    assert LeftOperand(host, Int(i), "int") == Int(i);
    assert RightOperand(host, Int(i), IntToString(j), "int") == Int(j);
    assert Compare(Int(i), Int(j)) == Some(CompareReal(i as real, j as real));
  }

  /** On a `str` column both operands are texts, so `col = null` (or
      `none`, in any case) holds for a missing or None field and for any
      stored value whose text is the literal itself; `!=` holds exactly for
      the other present values. */
  lemma NullLiteralOnStrColumn(host: Host, row: Row, types: map<string, string>, col: string, v: string)
    requires ColumnType(types, col) == "str" && Lower(v) in NullWords
    ensures MatchCondition(host, row, types, Condition(col, Eq, v)) <==>
              Get(row, col) == Null || PyStr(host, Get(row, col)) == v
    ensures MatchCondition(host, row, types, Condition(col, Ne, v)) <==>
              Get(row, col) != Null && PyStr(host, Get(row, col)) != v
  {
    LowerTags();
    assert |v| == |Lower(v)| == 4;
    var stored := Get(row, col);
    if stored != Null {
      var text := PyStr(host, stored);
      assert Decode(host, text, "str") == Ok(Str(text)) by {
        if text != "" { assert Decode(host, text, "str") == DecodeText(host, text, "str", "str"); }
      }
      assert LeftOperand(host, stored, "str") == Str(text);
      assert Decode(host, v, "str") == DecodeText(host, v, "str", "str");
      assert RightOperand(host, Str(text), v, "str") == Str(v);
    }
  }

  /** `status = null` holds for a missing status, and on a `str` column
      also for the stored text `"null"`. */
  lemma NullLiteralExamples(host: Host)
    ensures MatchCondition(host, map[], map["status" := "str"], Condition("status", Eq, "null"))
    ensures MatchCondition(host, map["status" := Str("null")], map["status" := "str"], Condition("status", Eq, "null"))
    ensures !MatchCondition(host, map[], map["status" := "str"], Condition("status", Ne, "null"))
  {
    assert Lower("null") == "null";
    assert Lower("str") == "str";
  }

  // ---------------------------------------------------------------------
  // The conjunction loops
  // ---------------------------------------------------------------------

  /** One condition as the loops apply it: its column must be in the schema
      map, and it must hold. */
  predicate Holds(host: Host, types: map<string, string>, row: Row, c: Condition) {
    c.col in types && MatchCondition(host, row, types, c)
  }

  /** A row is kept when every condition holds. */
  predicate Satisfies(host: Host, types: map<string, string>, row: Row, conds: seq<Condition>) {
    forall k | 0 <= k < |conds| :: Holds(host, types, row, conds[k])
  }

  /** The inner loop: stop at the first condition that fails. */
  method RowMatches(host: Host, types: map<string, string>, row: Row, conds: seq<Condition>) returns (ok: bool)
    ensures ok <==> Satisfies(host, types, row, conds)
  {
    ok := true;
    var k := 0;
    while k < |conds|
      invariant 0 <= k <= |conds|
      invariant ok <==> forall j | 0 <= j < k :: Holds(host, types, row, conds[j])
      invariant !ok ==> !Satisfies(host, types, row, conds)
    {
      if conds[k].col !in types || !MatchCondition(host, row, types, conds[k]) {
        ok := false;
        break;
      }
      k := k + 1;
    }
  }

  predicate Increasing(xs: seq<nat>) {
    forall a, b | 0 <= a < b < |xs| :: xs[a] < xs[b]
  }

  /** The bookkeeping of the outer loop, given which rows pass: the passing
      rows in their order, with their indices. */
  method Select(rows: seq<Row>, passes: seq<bool>) returns (matched: seq<Row>, indices: seq<nat>)
    requires |passes| == |rows|
    ensures |matched| == |indices| && Increasing(indices)
    ensures forall k | 0 <= k < |indices| :: indices[k] < |rows| && matched[k] == rows[indices[k]]
    ensures forall i | 0 <= i < |rows| :: i in indices <==> passes[i]
    ensures (forall i | 0 <= i < |rows| :: passes[i]) ==> matched == rows
  {
    matched := [];
    indices := [];
    var i := 0;
    while i < |rows|
      invariant 0 <= i <= |rows|
      invariant |matched| == |indices| && Increasing(indices)
      invariant forall k | 0 <= k < |indices| :: indices[k] < i && matched[k] == rows[indices[k]]
      invariant forall j | 0 <= j < i :: j in indices <==> passes[j]
      invariant (forall j | 0 <= j < i :: passes[j]) ==> matched == rows[..i]
    {
      if passes[i] {
        matched := matched + [rows[i]];
        indices := indices + [i];
      }
      i := i + 1;
    }
    assert rows[..|rows|] == rows;
  }

  /** The outer loop: the matching rows in their order, with their indices
      (`search_table` keeps the rows, `alter_on_tables` the indices). Each
      row is tested in turn, and the passing ones are kept in order. */
  method Filter(host: Host, types: map<string, string>, rows: seq<Row>, conds: seq<Condition>)
    returns (matched: seq<Row>, indices: seq<nat>)
    ensures |matched| == |indices| && Increasing(indices)
    ensures forall k | 0 <= k < |indices| :: indices[k] < |rows| && matched[k] == rows[indices[k]]
    ensures forall i | 0 <= i < |rows| :: i in indices <==> Satisfies(host, types, rows[i], conds)
    ensures (forall i | 0 <= i < |rows| :: Satisfies(host, types, rows[i], conds)) ==> matched == rows
  {
    var passes: seq<bool> := [];
    var i := 0;
    while i < |rows|
      invariant 0 <= i <= |rows| && |passes| == i
      invariant forall j | 0 <= j < i :: passes[j] == Satisfies(host, types, rows[j], conds)
    {
      var ok := RowMatches(host, types, rows[i], conds);
      passes := passes + [ok];
      i := i + 1;
    }
    matched, indices := Select(rows, passes);
  }

  /** Without conditions every row is kept. */
  lemma NoConditionsKeepEveryRow(host: Host, types: map<string, string>, row: Row)
    ensures Satisfies(host, types, row, [])
  {
  }

  /** A condition on a column the schema does not have rejects every row. */
  lemma UnknownColumnRejectsAll(host: Host, cols: seq<Column>, row: Row, conds: seq<Condition>, k: nat)
    requires k < |conds| && conds[k].col !in Names(cols)
    ensures !Satisfies(host, TypeMap(cols), row, conds)
  {
    assert !Holds(host, TypeMap(cols), row, conds[k]);
  }

  /** Conditions joined by `and` are a conjunction. */
  lemma SatisfiesAppend(host: Host, types: map<string, string>, row: Row, a: seq<Condition>, b: seq<Condition>)
    ensures Satisfies(host, types, row, a + b) <==> Satisfies(host, types, row, a) && Satisfies(host, types, row, b)
  {
    if Satisfies(host, types, row, a) && Satisfies(host, types, row, b) {
      forall k | 0 <= k < |a + b| ensures Holds(host, types, row, (a + b)[k]) {
        if k >= |a| { assert (a + b)[k] == b[k - |a|]; }
      }
    }
    if Satisfies(host, types, row, a + b) {
      forall k | 0 <= k < |b| ensures Holds(host, types, row, b[k]) {
        assert (a + b)[|a| + k] == b[k];
      }
      forall k | 0 <= k < |a| ensures Holds(host, types, row, a[k]) {
        assert (a + b)[k] == a[k];
      }
    }
  }
}

=== FILE: rights.dfy ===
/** Per-database rights of a user, as `grant_rights`, `revoke_rights` and
    `check_permission` (main.py:1299-1357) compute them, with the user
    store held in memory instead of `users.json`. */
module Rights {
  import opened Wrappers
  import opened Text

  /** A user record: the password hash is carried along untouched, the
      rights map a database name to the list of rights held on it. */
  datatype User = User(passwordHash: string, rights: map<string, seq<string>>)

  type Users = map<string, User>

  datatype RightsError = UnknownUser(name: string)

  /** The right that grants every other. */
  const Admin: string := "admin"

  /** Sorted by code point, without repeats: the shape `sorted(set)` gives. */
  predicate StrictlySorted(xs: seq<string>) {
    forall i, j | 0 <= i < j < |xs| :: StrLess(xs[i], xs[j])
  }

  lemma StrLessIrreflexive(a: string)
    ensures !StrLess(a, a)
  {
    CompareStrEq(a, a);
  }

  /** `x` added to a sorted list, keeping it sorted and free of repeats. */
  function Insert(x: string, xs: seq<string>): (r: seq<string>)
    requires StrictlySorted(xs)
    ensures StrictlySorted(r)
    ensures forall y :: y in r <==> y in xs || y == x
    decreases |xs|
  {
    if |xs| == 0 then [x]
    else if x == xs[0] then xs
    else if StrLess(x, xs[0]) then
      assert StrictlySorted([x] + xs) by {
        forall j | 0 <= j < |xs| ensures StrLess(x, xs[j]) {
          if j > 0 { StrLessTransitive(x, xs[0], xs[j]); }
        }
        assert forall j | 1 <= j <= |xs| :: ([x] + xs)[j] == xs[j - 1];
      }
      [x] + xs
    else
      StrLessTotal(x, xs[0]);
      var rest := Insert(x, xs[1..]);
      assert forall y | y in xs[1..] :: StrLess(xs[0], y) by {
        forall y | y in xs[1..] ensures StrLess(xs[0], y) {
          var j :| 0 <= j < |xs[1..]| && xs[1..][j] == y;
          assert xs[j + 1] == y;
        }
      }
      var r := [xs[0]] + rest;
      assert StrictlySorted(r) by {
        forall i, j | 0 <= i < j < |r| ensures StrLess(r[i], r[j]) {
          assert r[j] == rest[j - 1] && r[j] in rest;
          if i > 0 { assert r[i] == rest[i - 1]; }
        }
      }
      assert forall y | y in xs :: y == xs[0] || y in xs[1..];
      r
  }

  /** `sorted(set(xs))`. */
  function SortedSet(xs: seq<string>): (r: seq<string>)
    ensures StrictlySorted(r)
    ensures forall y :: y in r <==> y in xs
    decreases |xs|
  {
    if |xs| == 0 then []
    else
      var r := Insert(xs[|xs| - 1], SortedSet(xs[..|xs| - 1]));
      assert forall y | y in xs :: y == xs[|xs| - 1] || y in xs[..|xs| - 1] by {
        forall y | y in xs ensures y == xs[|xs| - 1] || y in xs[..|xs| - 1] {
          var j :| 0 <= j < |xs| && xs[j] == y;
          if j < |xs| - 1 { assert xs[..|xs| - 1][j] == y; }
        }
      }
      r
  }

  /** A sorted list without repeats is fixed by its elements, so
      `sorted(set(...))` is the one such list for a set of rights. */
  lemma {:induction false} StrictlySortedUnique(a: seq<string>, b: seq<string>)
    requires StrictlySorted(a) && StrictlySorted(b)
    requires forall y :: y in a <==> y in b
    ensures a == b
    decreases |a|
  {
    if |a| > 0 && |b| > 0 {
      assert a[0] == b[0] by {
        SmallestFirst(a, b[0]);
        SmallestFirst(b, a[0]);
        if a[0] != b[0] {
          StrLessTransitive(a[0], b[0], a[0]);
          StrLessIrreflexive(a[0]);
        }
      }
      forall y ensures y in a[1..] <==> y in b[1..] {
        InTail(a, y);
        InTail(b, y);
      }
      StrictlySortedUnique(a[1..], b[1..]);
      assert a == [a[0]] + a[1..] && b == [b[0]] + b[1..];
    } else {
      EmptyIfNoElements(a);
      EmptyIfNoElements(b);
    }
  }

  lemma EmptyIfNoElements(xs: seq<string>)
    ensures (forall y :: y !in xs) ==> xs == []
  {
    if |xs| > 0 {
      assert xs[0] in xs;
    }
  }

  /** In a strictly sorted list, the head is below every other element. */
  lemma SmallestFirst(xs: seq<string>, y: string)
    requires StrictlySorted(xs) && |xs| > 0 && y in xs
    ensures y == xs[0] || StrLess(xs[0], y)
  {
  }

  /** An element of a strictly sorted list other than its head is in its
      tail, and the head is not. */
  lemma InTail(xs: seq<string>, y: string)
    requires StrictlySorted(xs) && |xs| > 0
    ensures y in xs[1..] <==> y in xs && y != xs[0]
  {
    if y in xs[1..] {
      var j :| 0 <= j < |xs[1..]| && xs[1..][j] == y;
      assert xs[j + 1] == y;
      assert StrLess(xs[0], xs[j + 1]);
      StrLessIrreflexive(y);
    }
    if y in xs && y != xs[0] {
      var j :| 0 <= j < |xs| && xs[j] == y;
      assert xs[1..][j - 1] == y;
    }
  }

  /** `rights.get(db_name, [])`. */
  function Held(u: User, db: string): seq<string> {
    if db in u.rights then u.rights[db] else []
  }

  /** The entries of `xs` not listed in `drop`: what the `discard` loop
      leaves of the set. */
  function Without(xs: seq<string>, drop: seq<string>): (r: seq<string>)
    ensures forall y :: y in r <==> y in xs && y !in drop
    decreases |xs|
  {
    if |xs| == 0 then []
    else
      var rest := Without(xs[1..], drop);
      assert forall y | y in xs :: y == xs[0] || y in xs[1..];
      if xs[0] in drop then rest else [xs[0]] + rest
  }

  /** `grant_rights(username, db, rights)`: the stored list becomes the
      sorted union of what was held and what is granted. */
  function GrantRights(users: Users, name: string, db: string, rights: seq<string>): (r: Result<Users, RightsError>)
    ensures r.Err? <==> name !in users
    ensures r.Err? ==> r.error == UnknownUser(name)
    ensures r.Ok? ==> r.value.Keys == users.Keys
    ensures r.Ok? ==> forall n | n in users && n != name :: r.value[n] == users[n]
    ensures r.Ok? ==> && r.value[name].passwordHash == users[name].passwordHash
                      && r.value[name].rights.Keys == users[name].rights.Keys + {db}
                      && (forall d | d in users[name].rights && d != db :: r.value[name].rights[d] == users[name].rights[d])
    ensures r.Ok? ==> StrictlySorted(Held(r.value[name], db))
    ensures r.Ok? ==> forall y :: y in Held(r.value[name], db) <==> y in Held(users[name], db) || y in rights
  {
    if name !in users then Err(UnknownUser(name))
    else
      var u := users[name];
      var list := SortedSet(Held(u, db) + rights);
      assert forall y :: y in Held(u, db) + rights <==> y in Held(u, db) || y in rights;
      Ok(users[name := u.(rights := u.rights[db := list])])
  }

  /** `revoke_rights(username, db, rights)`: the stored list becomes the
      sorted difference; rights that were not held are ignored. */
  function RevokeRights(users: Users, name: string, db: string, rights: seq<string>): (r: Result<Users, RightsError>)
    ensures r.Err? <==> name !in users
    ensures r.Err? ==> r.error == UnknownUser(name)
    ensures r.Ok? ==> r.value.Keys == users.Keys
    ensures r.Ok? ==> forall n | n in users && n != name :: r.value[n] == users[n]
    ensures r.Ok? ==> && r.value[name].passwordHash == users[name].passwordHash
                      && r.value[name].rights.Keys == users[name].rights.Keys + {db}
                      && (forall d | d in users[name].rights && d != db :: r.value[name].rights[d] == users[name].rights[d])
    ensures r.Ok? ==> StrictlySorted(Held(r.value[name], db))
    ensures r.Ok? ==> forall y :: y in Held(r.value[name], db) <==> y in Held(users[name], db) && y !in rights
  {
    if name !in users then Err(UnknownUser(name))
    else
      var u := users[name];
      var list := SortedSet(Without(Held(u, db), rights));
      Ok(users[name := u.(rights := u.rights[db := list])])
  }

  /** `check_permission(username, db, right)`: an unknown user has no
      rights; `admin` on the database allows everything. */
  function CheckPermission(users: Users, name: string, db: string, right: string): (r: bool)
    ensures r ==> name in users
    ensures name in users && Admin in Held(users[name], db) ==> r
    ensures name in users && Admin !in Held(users[name], db) ==> (r <==> right in Held(users[name], db))
  {
    name in users && (Admin in Held(users[name], db) || right in Held(users[name], db))
  }

  /** After a grant, every granted right is held on that database. */
  lemma GrantAllows(users: Users, name: string, db: string, rights: seq<string>, right: string)
    requires name in users && right in rights
    ensures CheckPermission(GrantRights(users, name, db, rights).value, name, db, right)
  {
  }

  /** After a revoke, a revoked right is refused, unless `admin` is still
      held on the database. */
  lemma RevokeRefuses(users: Users, name: string, db: string, rights: seq<string>, right: string)
    requires name in users && right in rights
    ensures var after := RevokeRights(users, name, db, rights).value;
            CheckPermission(after, name, db, right) <==> Admin in Held(after[name], db)
  {
  }

  /** Revoking `admin` together with a right refuses that right. */
  lemma RevokeWithAdminRefuses(users: Users, name: string, db: string, right: string)
    requires name in users
    ensures !CheckPermission(RevokeRights(users, name, db, [Admin, right]).value, name, db, right)
  {
  }

  /** Rights on one database do not move those on another. */
  lemma GrantLeavesOtherDatabases(users: Users, name: string, db: string, rights: seq<string>, other: string, right: string)
    requires name in users && other != db
    ensures CheckPermission(GrantRights(users, name, db, rights).value, name, other, right)
            == CheckPermission(users, name, other, right)
  {
  }

  /** Granting the same rights twice stores what granting them once does. */
  lemma GrantIdempotent(users: Users, name: string, db: string, rights: seq<string>)
    requires name in users
    ensures var once := GrantRights(users, name, db, rights).value;
            GrantRights(once, name, db, rights).value == once
  {
    var once := GrantRights(users, name, db, rights).value;
    var twice := GrantRights(once, name, db, rights).value;
    StrictlySortedUnique(Held(twice[name], db), Held(once[name], db));
    assert twice[name].rights == once[name].rights;
  }

  /** A revoke undoes a grant of rights that were not held before. */
  lemma RevokeUndoesGrant(users: Users, name: string, db: string, rights: seq<string>)
    requires name in users && db in users[name].rights
    requires StrictlySorted(Held(users[name], db))
    requires forall y | y in rights :: y !in Held(users[name], db)
    ensures var granted := GrantRights(users, name, db, rights).value;
            RevokeRights(granted, name, db, rights).value == users
  {
    var u := users[name];
    var granted := GrantRights(users, name, db, rights).value;
    var g := granted[name];
    var back := RevokeRights(granted, name, db, rights).value;
    var b := back[name];
    assert forall y :: y in Held(g, db) <==> y in Held(u, db) || y in rights;
    assert forall y :: y in Held(b, db) <==> y in Held(g, db) && y !in rights;
    assert forall y :: y in Held(b, db) <==> y in Held(u, db);
    StrictlySortedUnique(Held(b, db), Held(u, db));
    assert b.rights[db] == u.rights[db];
    assert b.rights.Keys == u.rights.Keys;
    assert forall d | d in u.rights && d != db :: b.rights[d] == g.rights[d] == u.rights[d];
    assert b.rights == u.rights;
    assert b == u;
  }
}

=== FILE: schema.dfy ===
/** Tables as the store keeps them: an ordered list of column definitions and
    a list of rows, each row a map from column name to a persisted value. */
module Schema {
  import opened Values

  /** One entry of `<table>_schema.json`. A `default` of `Null` means the
      column has no default (`"default": null`). */
  datatype Column = Column(
    name: string,
    typ: string,
    notNull: bool,
    unique: bool,
    autoIncrement: bool,
    default: Value)

  /** One record of `<table>_data.json`. */
  type Row = map<string, Value>

  datatype Table = Table(columns: seq<Column>, rows: seq<Row>)

  /** `row.get(name)`: `None` when the key is absent. */
  function Get(row: Row, name: string): Value {
    if name in row then row[name] else Null
  }

  function Names(cols: seq<Column>): set<string> {
    set i | 0 <= i < |cols| :: cols[i].name
  }

  predicate DistinctNames(cols: seq<Column>) {
    forall i, j | 0 <= i < j < |cols| :: cols[i].name != cols[j].name
  }

  predicate HasAutoIncrement(cols: seq<Column>) {
    exists i | 0 <= i < |cols| :: cols[i].autoIncrement
  }

  /** The schema invariants the alterations keep: column names are distinct,
      at most one column is auto-increment, and that column is an `int`. */
  predicate WellFormed(cols: seq<Column>) {
    && DistinctNames(cols)
    && (forall i, j | 0 <= i < j < |cols| :: !(cols[i].autoIncrement && cols[j].autoIncrement))
    && (forall i | 0 <= i < |cols| :: cols[i].autoIncrement ==> cols[i].typ == "int")
  }

  /** The `schema_map` built by `search_table` and `alter_on_tables`: name to
      type tag, filled in schema order so a later duplicate name wins. */
  function TypeMap(cols: seq<Column>): (m: map<string, string>)
    ensures m.Keys == Names(cols)
    ensures DistinctNames(cols) ==> forall i | 0 <= i < |cols| :: m[cols[i].name] == cols[i].typ
    decreases |cols|
  {
    if |cols| == 0 then map[]
    else
      var init := cols[..|cols| - 1];
      var last := cols[|cols| - 1];
      var m := TypeMap(init)[last.name := last.typ];
      NamesOfInit(cols);
      m
  }

  lemma NamesOfInit(cols: seq<Column>)
    requires |cols| > 0
    ensures Names(cols) == Names(cols[..|cols| - 1]) + {cols[|cols| - 1].name}
  {
    var init := cols[..|cols| - 1];
    forall n | n in Names(cols) ensures n in Names(init) + {cols[|cols| - 1].name} {
      var i :| 0 <= i < |cols| && cols[i].name == n;
      if i < |cols| - 1 { assert init[i].name == n; }
    }
    forall n | n in Names(init) ensures n in Names(cols) {
      var i :| 0 <= i < |init| && init[i].name == n;
      assert cols[i].name == n;
    }
  }

  /** No two rows hold equal (Python `==`) non-null values in column `name`:
      what a `unique` column promises. */
  predicate UniqueOn(rows: seq<Row>, name: string) {
    forall i, j | 0 <= i < |rows| && 0 <= j < |rows| && i != j ::
      Get(rows[i], name) != Null ==> !PyEq(Get(rows[i], name), Get(rows[j], name))
  }
}

=== FILE: schema_text.dfy ===
/** `parse_schema_input` (main.py:21-37): the `name:type, name:type` text a
    table is declared with, read into column declarations. */
module SchemaText {
  import opened Wrappers
  import opened Text

  /** One `{"name": ..., "type": ...}` entry of the result. */
  datatype ColumnDecl = ColumnDecl(name: string, typ: string)

  /** The normal form the parser produces: both halves stripped, the type
      lower-case, no colon in the name, no comma anywhere. */
  predicate Clean(d: ColumnDecl) {
    && Strip(d.name) == d.name && Strip(d.typ) == d.typ && NoUpper(d.typ)
    && ':' !in d.name && ',' !in d.name && ',' !in d.typ
  }

  /** Lower-casing never produces a comma. */
  lemma NoCommaLower(s: string)
    requires ',' !in s
    ensures ',' !in Lower(s)
  {
    forall k | 0 <= k < |s| ensures Lower(s)[k] != ',' {
      assert s[k] != ',';
    }
  }

  /** One comma-separated entry, stripped: nothing when it is blank;
      `name:type` split at the first colon, both halves stripped and the
      type lower-cased; a bare name gets the type `str`. */
  function ParseEntry(p: string): (r: Option<ColumnDecl>)
    ensures r.None? <==> AllSpace(p)
  {
    var q := Strip(p);
    if q == "" then None
    else if ':' in q then
      var i := IndexOf(q, ':');
      Some(ColumnDecl(Strip(q[..i]), Lower(Strip(q[i + 1..]))))
    else Some(ColumnDecl(q, "str"))
  }

  /** An entry without a colon is a bare name of type `str`. */
  lemma BareEntry(p: string)
    requires !AllSpace(p) && ':' !in p
    ensures ParseEntry(p) == Some(ColumnDecl(Strip(p), "str"))
  {
    StripLacks(p, ':');
  }

  /** What an entry without commas yields is in the normal form. */
  lemma ParseEntryClean(p: string)
    requires ParseEntry(p).Some? && ',' !in p
    ensures Clean(ParseEntry(p).value)
  {
    var q := Strip(p);
    StripLacks(p, ',');
    if ':' in q {
      var i := IndexOf(q, ':');
      var t := Strip(q[i + 1..]);
      var d := ColumnDecl(Strip(q[..i]), Lower(t));
      assert ParseEntry(p).value == d;
      ColonHalvesClean(q, i);
    } else {
      StripIdempotent(p);
      assert Strip("str") == "str";
      assert ParseEntry(p).value == ColumnDecl(q, "str");
    }
  }

  lemma ColonHalvesClean(q: string, i: nat)
    requires i < |q| && ':' !in q[..i] && ',' !in q
    ensures Clean(ColumnDecl(Strip(q[..i]), Lower(Strip(q[i + 1..]))))
  {
    var t := Strip(q[i + 1..]);
    assert ',' !in q[..i] by {
      assert forall c | c in q[..i] :: c in q;
    }
    assert ',' !in q[i + 1..] by {
      assert forall c | c in q[i + 1..] :: c in q;
    }
    StripIdempotent(q[..i]);
    StripIdempotent(q[i + 1..]);
    StripLower(t);
    LowerHasNoUpper(t);
    StripLacks(q[..i], ':');
    StripLacks(q[..i], ',');
    StripLacks(q[i + 1..], ',');
    NoCommaLower(t);
  }

  /** Every entry parsed on its own, blank ones giving `None`. */
  function ParseEach(parts: seq<string>): (rs: seq<Option<ColumnDecl>>)
    ensures |rs| == |parts|
    ensures forall k | 0 <= k < |parts| :: rs[k] == ParseEntry(parts[k])
    decreases |parts|
  {
    if |parts| == 0 then []
    else
      var rs := [ParseEntry(parts[0])] + ParseEach(parts[1..]);
      assert forall k | 1 <= k < |parts| :: parts[k] == parts[1..][k - 1];
      rs
  }

  /** The declarations present, in order. */
  function Present(rs: seq<Option<ColumnDecl>>): (cols: seq<ColumnDecl>)
    ensures |cols| <= |rs|
    decreases |rs|
  {
    if |rs| == 0 then []
    else if rs[0].None? then Present(rs[1..])
    else [rs[0].value] + Present(rs[1..])
  }

  lemma {:induction false} PresentClean(rs: seq<Option<ColumnDecl>>)
    requires forall k | 0 <= k < |rs| && rs[k].Some? :: Clean(rs[k].value)
    ensures forall k | 0 <= k < |Present(rs)| :: Clean(Present(rs)[k])
    decreases |rs|
  {
    if |rs| > 0 {
      assert forall k | 1 <= k < |rs| :: rs[1..][k - 1] == rs[k];
      PresentClean(rs[1..]);
    }
  }

  lemma {:induction false} PresentNone(rs: seq<Option<ColumnDecl>>)
    requires forall k | 0 <= k < |rs| :: rs[k].None?
    ensures Present(rs) == []
    decreases |rs|
  {
    if |rs| > 0 {
      assert forall k | 1 <= k < |rs| :: rs[1..][k - 1] == rs[k];
      PresentNone(rs[1..]);
    }
  }

  lemma {:induction false} PresentAll(rs: seq<Option<ColumnDecl>>, cols: seq<ColumnDecl>)
    requires |rs| == |cols|
    requires forall k | 0 <= k < |rs| :: rs[k] == Some(cols[k])
    ensures Present(rs) == cols
    decreases |rs|
  {
    if |rs| > 0 {
      assert forall k | 0 <= k < |rs| - 1 :: rs[1..][k] == Some(cols[1..][k]);
      PresentAll(rs[1..], cols[1..]);
      assert cols == [cols[0]] + cols[1..];
    }
  }

  /** The entries in order, blank ones skipped. */
  function Entries(parts: seq<string>): (cols: seq<ColumnDecl>)
    ensures |cols| <= |parts|
  {
    Present(ParseEach(parts))
  }

  /** Entries without commas give declarations in the normal form. */
  lemma EntriesClean(parts: seq<string>)
    requires forall k | 0 <= k < |parts| :: ',' !in parts[k]
    ensures forall k | 0 <= k < |Entries(parts)| :: Clean(Entries(parts)[k])
  {
    var rs := ParseEach(parts);
    forall k | 0 <= k < |rs| && rs[k].Some? ensures Clean(rs[k].value) {
      ParseEntryClean(parts[k]);
    }
    PresentClean(rs);
  }

  /** `parse_schema_input(text)`: every declaration it returns is in the
      normal form. */
  function ParseSchemaInput(text: string): (cols: seq<ColumnDecl>)
    ensures AllSpace(text) ==> cols == []
    ensures forall k | 0 <= k < |cols| :: Clean(cols[k])
  {
    if Strip(text) == "" then []
    else
      EntriesClean(Split(text, ','));
      Entries(Split(text, ','))
  }

  /** Every character of every piece is a character of the joined text. */
  lemma {:induction false} JoinHas(parts: seq<string>, sep: char, k: nat, c: char)
    requires k < |parts| && c in parts[k]
    ensures c in Join(parts, sep)
    decreases |parts|
  {
    if |parts| > 1 {
      if k == 0 {
        assert Join(parts, sep) == parts[0] + [sep] + Join(parts[1..], sep);
      } else {
        JoinHas(parts[1..], sep, k - 1, c);
      }
    }
  }

  /** Only blank entries come out of a blank text, so the early return for
      a blank text gives what the loop would give. */
  lemma BlankGuardAgrees(text: string)
    requires AllSpace(text)
    ensures Entries(Split(text, ',')) == []
  {
    var parts := Split(text, ',');
    forall k | 0 <= k < |parts| ensures AllSpace(parts[k]) {
      forall i | 0 <= i < |parts[k]| ensures IsSpace(parts[k][i]) {
        JoinHas(parts, ',', k, parts[k][i]);
      }
    }
    BlankEntries(parts);
  }

  lemma BlankEntries(parts: seq<string>)
    requires forall k | 0 <= k < |parts| :: AllSpace(parts[k])
    ensures Entries(parts) == []
  {
    PresentNone(ParseEach(parts));
  }

  /** The text a declaration is written as. */
  function EntryText(d: ColumnDecl): string {
    d.name + ":" + d.typ
  }

  function Texts(decls: seq<ColumnDecl>): (parts: seq<string>)
    ensures |parts| == |decls|
    ensures forall k | 0 <= k < |decls| :: parts[k] == EntryText(decls[k])
  {
    if |decls| == 0 then []
    else
      var parts := [EntryText(decls[0])] + Texts(decls[1..]);
      assert forall k | 1 <= k < |decls| :: decls[k] == decls[1..][k - 1];
      parts
  }

  /** `",".join` of the entries: the inverse of the parser on declarations
      in normal form. */
  function Render(decls: seq<ColumnDecl>): string {
    Join(Texts(decls), ',')
  }

  /** The written entry has no whitespace at either end. */
  lemma EntryTextStripped(d: ColumnDecl)
    requires Clean(d)
    ensures Strip(EntryText(d)) == EntryText(d)
  {
    var p := EntryText(d);
    assert |p| == |d.name| + 1 + |d.typ|;
    assert p[0] == if |d.name| > 0 then d.name[0] else ':';
    assert p[|p| - 1] == if |d.typ| > 0 then d.typ[|d.typ| - 1] else ':';
  }

  /** The written entry splits at the colon after the name. */
  lemma EntryTextShape(d: ColumnDecl)
    requires Clean(d)
    ensures ':' in EntryText(d) && IndexOf(EntryText(d), ':') == |d.name|
    ensures EntryText(d)[..|d.name|] == d.name && EntryText(d)[|d.name| + 1..] == d.typ
  {
    var p := EntryText(d);
    assert p[|d.name|] == ':';
    assert p[..|d.name|] == d.name && p[|d.name| + 1..] == d.typ;
    IndexOfFirst(p, ':', |d.name|);
  }

  lemma ParseEntryText(d: ColumnDecl)
    requires Clean(d)
    ensures ParseEntry(EntryText(d)) == Some(d)
  {
    var p := EntryText(d);
    EntryTextStripped(d);
    EntryTextShape(d);
    LowerOfNoUpper(d.typ);
    assert ParseEntry(p) == Some(ColumnDecl(Strip(p[..|d.name|]), Lower(Strip(p[|d.name| + 1..]))));
  }

  lemma EntriesOfTexts(decls: seq<ColumnDecl>)
    requires forall k | 0 <= k < |decls| :: Clean(decls[k])
    ensures Entries(Texts(decls)) == decls
  {
    var rs := ParseEach(Texts(decls));
    forall k | 0 <= k < |rs| ensures rs[k] == Some(decls[k]) {
      ParseEntryText(decls[k]);
    }
    PresentAll(rs, decls);
  }

  /** Declarations in normal form survive rendering and parsing. */
  lemma RenderRoundTrip(decls: seq<ColumnDecl>)
    requires |decls| >= 1
    requires forall k | 0 <= k < |decls| :: Clean(decls[k])
    ensures ParseSchemaInput(Render(decls)) == decls
  {
    var parts := Texts(decls);
    var text := Render(decls);
    forall k | 0 <= k < |parts| ensures ',' !in parts[k] {
      assert parts[k] == decls[k].name + ":" + decls[k].typ;
    }
    SplitJoin(parts, ',');
    assert ':' in parts[0];
    JoinHas(parts, ',', 0, ':');
    assert !AllSpace(text);
    EntriesOfTexts(decls);
  }

  /** Parsing is a normal form: re-parsing the rendering of a parse result
      gives the same result. */
  lemma ParseIsNormalForm(text: string)
    requires |ParseSchemaInput(text)| >= 1
    ensures ParseSchemaInput(Render(ParseSchemaInput(text))) == ParseSchemaInput(text)
  {
    RenderRoundTrip(ParseSchemaInput(text));
  }
}

=== FILE: text.dfy ===
/** Character and string helpers that mirror the Python built-ins the core
    leans on: `str.isspace`/`str.strip`, ASCII `str.lower`, `str.split(sep)`,
    `int(text)`, `str(int)`, and the code-point order used by `<` and
    `sorted` on strings. */
module Text {
  import opened Wrappers

  /** Outcome of a three-way comparison. */
  datatype Ord = LT | EQ | GT

  function Flip(o: Ord): Ord {
    match o
    case LT => GT
    case EQ => EQ
    case GT => LT
  }

  // ---------------------------------------------------------------------
  // Whitespace and strip
  // ---------------------------------------------------------------------

  /** Python's `str.isspace()` on one character; the `\s` class of `re` on
      `str` patterns is the same set. */
  predicate IsSpace(c: char) {
    || c == ' '
    || ('\t' <= c <= '\r')
    || ('\U{1C}' <= c <= '\U{1F}')
    || c == '\U{85}' || c == '\U{A0}' || c == '\U{1680}'
    || ('\U{2000}' <= c <= '\U{200A}')
    || c == '\U{2028}' || c == '\U{2029}' || c == '\U{202F}'
    || c == '\U{205F}' || c == '\U{3000}'
  }

  predicate AllSpace(s: string) {
    forall i | 0 <= i < |s| :: IsSpace(s[i])
  }

  /** End of the maximal whitespace run that starts at `i`. */
  function SpaceEnd(s: string, i: nat): (j: nat)
    requires i <= |s|
    ensures i <= j <= |s|
    ensures forall k | i <= k < j :: IsSpace(s[k])
    ensures j < |s| ==> !IsSpace(s[j])
    decreases |s| - i
  {
    if i == |s| || !IsSpace(s[i]) then i else SpaceEnd(s, i + 1)
  }

  /** Start of the maximal whitespace run that ends at `j`, not going
      below `lo`. */
  function SpaceStart(s: string, lo: nat, j: nat): (i: nat)
    requires lo <= j <= |s|
    ensures lo <= i <= j
    ensures forall k | i <= k < j :: IsSpace(s[k])
    ensures i > lo ==> !IsSpace(s[i - 1])
    decreases j
  {
    if j == lo || !IsSpace(s[j - 1]) then j else SpaceStart(s, lo, j - 1)
  }

  /** Python's `s.strip()`: leading and trailing whitespace removed. */
  function Strip(s: string): (r: string)
    ensures |r| > 0 ==> !IsSpace(r[0]) && !IsSpace(r[|r| - 1])
    ensures r == [] <==> AllSpace(s)
    ensures |s| == 0 || (!IsSpace(s[0]) && !IsSpace(s[|s| - 1])) ==> r == s
  {
    var a := SpaceEnd(s, 0);
    var b := SpaceStart(s, a, |s|);
    var r := s[a..b];
    assert r == [] ==> AllSpace(s) by {
      if r == [] {
        assert a == |s| && s[..a] == s;
      }
    }
    r
  }

  /** What `strip` leaves is a slice of the text with only whitespace
      around it. */
  lemma StripIsInfix(s: string)
    ensures exists a | 0 <= a <= |s| - |Strip(s)| ::
              s[a..a + |Strip(s)|] == Strip(s) && AllSpace(s[..a]) && AllSpace(s[a + |Strip(s)|..])
  {
    var a := SpaceEnd(s, 0);
    var b := SpaceStart(s, a, |s|);
    assert Strip(s) == s[a..b];
    assert s[a..a + |Strip(s)|] == Strip(s);
    assert AllSpace(s[..a]) && AllSpace(s[b..]);
  }

  /** Every character of a stripped text comes from the text. */
  lemma StripWithin(s: string, c: char)
    requires c in Strip(s)
    ensures c in s
  {
    var a := SpaceEnd(s, 0);
    var b := SpaceStart(s, a, |s|);
    assert Strip(s) == s[a..b];
    var i :| 0 <= i < b - a && s[a..b][i] == c;
    assert s[a + i] == c;
  }

  /** Stripping a stripped text changes nothing. */
  lemma StripIdempotent(s: string)
    ensures Strip(Strip(s)) == Strip(s)
  {
  }

  /** Lower-casing keeps the whitespace at both ends where it was. */
  lemma StripLower(s: string)
    requires Strip(s) == s
    ensures Strip(Lower(s)) == Lower(s)
  {
    if |s| > 0 {
      assert !IsSpace(s[0]) && !IsSpace(s[|s| - 1]);
      assert Lower(s)[0] == LowerChar(s[0]) && Lower(s)[|s| - 1] == LowerChar(s[|s| - 1]);
    }
  }

  /** A character missing from a text is missing from it stripped. */
  lemma StripLacks(s: string, c: char)
    requires c !in s
    ensures c !in Strip(s)
  {
    if c in Strip(s) { StripWithin(s, c); }
  }

  // ---------------------------------------------------------------------
  // ASCII lower case
  // ---------------------------------------------------------------------

  function LowerChar(c: char): char {
    if 'A' <= c <= 'Z' then (c as int + 32) as char else c
  }

  /** `str.lower()` restricted to ASCII letters. */
  function Lower(s: string): (r: string)
    ensures |r| == |s|
    ensures forall i | 0 <= i < |s| :: r[i] == LowerChar(s[i])
  {
    seq(|s|, i requires 0 <= i < |s| => LowerChar(s[i]))
  }

  predicate NoUpper(s: string) {
    forall i | 0 <= i < |s| :: !('A' <= s[i] <= 'Z')
  }

  lemma LowerHasNoUpper(s: string)
    ensures NoUpper(Lower(s))
    ensures Lower(Lower(s)) == Lower(s)
  {
  }

  lemma LowerOfNoUpper(s: string)
    requires NoUpper(s)
    ensures Lower(s) == s
  {
  }

  // ---------------------------------------------------------------------
  // Decimal digits, int() and str(int)
  // ---------------------------------------------------------------------

  predicate IsDigit(c: char) {
    '0' <= c <= '9'
  }

  predicate AllDigits(s: string) {
    forall i | 0 <= i < |s| :: IsDigit(s[i])
  }

  function DigitOf(c: char): nat
    requires IsDigit(c)
  {
    c as int - '0' as int
  }

  function DigitChar(d: nat): (c: char)
    requires d < 10
    ensures IsDigit(c) && DigitOf(c) == d
  {
    ('0' as int + d) as char
  }

  predicate DigitsOrUnderscores(s: string) {
    forall i | 0 <= i < |s| :: IsDigit(s[i]) || s[i] == '_'
  }

  /** Value of a run of decimal digits; underscores are skipped. */
  function DigitsValue(s: string): nat
    requires DigitsOrUnderscores(s)
    decreases |s|
  {
    if |s| == 0 then 0
    else if s[|s| - 1] == '_' then DigitsValue(s[..|s| - 1])
    else DigitsValue(s[..|s| - 1]) * 10 + DigitOf(s[|s| - 1])
  }

  function Pow10(w: nat): nat {
    if w == 0 then 1 else 10 * Pow10(w - 1)
  }

  /** `n` written with exactly `w` digits (zero-padded, `%0wd`). */
  function FixedDigits(n: nat, w: nat): (r: string)
    ensures |r| == w && AllDigits(r)
  {
    if w == 0 then [] else FixedDigits(n / 10, w - 1) + [DigitChar(n % 10)]
  }

  lemma {:induction false} FixedDigitsValue(n: nat, w: nat)
    requires n < Pow10(w)
    ensures DigitsValue(FixedDigits(n, w)) == n
  {
    if w > 0 {
      var r := FixedDigits(n, w);
      assert r[..|r| - 1] == FixedDigits(n / 10, w - 1);
      FixedDigitsValue(n / 10, w - 1);
    }
  }

  lemma {:induction false} DigitsValueBound(s: string)
    requires AllDigits(s)
    ensures DigitsValue(s) < Pow10(|s|)
  {
    if |s| > 0 {
      DigitsValueBound(s[..|s| - 1]);
    }
  }

  /** Reading `w` digits and writing them back gives the same text. */
  lemma {:induction false} FixedDigitsOfValue(s: string)
    requires AllDigits(s)
    ensures FixedDigits(DigitsValue(s), |s|) == s
  {
    if |s| > 0 {
      var p := s[..|s| - 1];
      FixedDigitsOfValue(p);
      var v := DigitsValue(s);
      assert v / 10 == DigitsValue(p) && v % 10 == DigitOf(s[|s| - 1]);
      assert s == p + [s[|s| - 1]];
    }
  }

  /** Python's `str(n)` for a natural number. */
  function NatToString(n: nat): (r: string)
    ensures |r| > 0 && AllDigits(r)
    ensures DigitsValue(r) == n
    decreases n
  {
    if n < 10 then [DigitChar(n)]
    else
      var p := NatToString(n / 10);
      var r := p + [DigitChar(n % 10)];
      assert r[..|r| - 1] == p;
      r
  }

  /** Python's `str(i)` for an int. */
  function IntToString(i: int): string {
    if i < 0 then ['-'] + NatToString(-i) else NatToString(i)
  }

  /** Python's integer-literal body: digits, with single underscores allowed
      between two digits (`1_000`). */
  predicate DigitGroups(s: string) {
    && |s| > 0
    && IsDigit(s[0])
    && forall i | 0 <= i < |s| ::
         IsDigit(s[i]) || (s[i] == '_' && i + 1 < |s| && IsDigit(s[i + 1]))
  }

  function ParseUnsigned(s: string): (r: Option<int>)
    ensures r.Some? <==> DigitGroups(s)
    ensures r.Some? ==> r.value == DigitsValue(s)
  {
    if DigitGroups(s) then Some(DigitsValue(s)) else None
  }

  /** Python's `int(text)`: surrounding whitespace ignored, optional sign,
      decimal digits with single underscores between digits. */
  function ParseInt(s: string): (r: Option<int>)
    ensures r.Some? <==>
      var t := Strip(s);
      DigitGroups(t) || (|t| > 0 && (t[0] == '-' || t[0] == '+') && DigitGroups(t[1..]))
    ensures r.Some? ==>
      var t := Strip(s);
      if t[0] == '-' then r.value == -(DigitsValue(t[1..]) as int)
      else if t[0] == '+' then r.value == DigitsValue(t[1..])
      else r.value == DigitsValue(t)
  {
    var t := Strip(s);
    if |t| > 0 && t[0] == '-' then
      match ParseUnsigned(t[1..])
      case Some(v) => Some(-v)
      case None => None
    else if |t| > 0 && t[0] == '+' then ParseUnsigned(t[1..])
    else ParseUnsigned(t)
  }

  /** An underscore between digit groups does not change the value:
      `int("1_000") == int("1000")`. */
  lemma {:induction false} UnderscoreIgnored(a: string, b: string)
    requires DigitsOrUnderscores(a) && DigitsOrUnderscores(b)
    ensures DigitsOrUnderscores(a + "_" + b) && DigitsOrUnderscores(a + b)
    ensures DigitsValue(a + "_" + b) == DigitsValue(a + b)
    decreases |b|
  {
    if |b| == 0 {
      assert a + b == a && a + "_" + b == a + "_";
      assert (a + "_")[..|a|] == a;
    } else {
      var b' := b[..|b| - 1];
      UnderscoreIgnored(a, b');
      assert (a + "_" + b)[..|a + "_" + b| - 1] == a + "_" + b';
      assert (a + b)[..|a + b| - 1] == a + b';
    }
  }

  /** A leading zero does not change the value: `int("007") == 7`. */
  lemma {:induction false} LeadingZeroIgnored(s: string)
    requires DigitsOrUnderscores(s)
    ensures DigitsOrUnderscores("0" + s)
    ensures DigitsValue("0" + s) == DigitsValue(s)
    decreases |s|
  {
    if |s| == 0 {
      assert ("0" + s)[..0] == [];
    } else {
      var p := s[..|s| - 1];
      LeadingZeroIgnored(p);
      assert ("0" + s)[..|s|] == "0" + p;
    }
  }

  /** `int("-1_000")` is -1000 and `int("+007")` is 7. */
  lemma ParseIntExamples()
    ensures ParseInt("-1_000") == Some(-1000)
    ensures ParseInt("+007") == Some(7)
  {
    assert "-1_000"[1..] == "1_000" && "+007"[1..] == "007";
    ThousandValue();
    SevenValue();
    assert Strip("-1_000") == "-1_000" by { assert !IsSpace('-') && !IsSpace('0'); }
    assert Strip("+007") == "+007" by { assert !IsSpace('+') && !IsSpace('7'); }
  }

  lemma ThousandValue()
    ensures DigitGroups("1_000") && DigitsValue("1_000") == 1000
  {
    assert "1_000" == "1" + "_" + "000";
    UnderscoreIgnored("1", "000");
    assert "1" + "000" == "1000";
    assert "1000"[..3] == "100" && "100"[..2] == "10" && "10"[..1] == "1" && "1"[..0] == "";
  }

  lemma SevenValue()
    ensures DigitGroups("007") && DigitsValue("007") == 7
  {
    LeadingZeroIgnored("07");
    LeadingZeroIgnored("7");
    assert "0" + "07" == "007" && "0" + "7" == "07";
    assert "7"[..0] == "";
  }

  /** `int(str(i)) == i` for every int. */
  lemma IntRoundTrip(i: int)
    ensures ParseInt(IntToString(i)) == Some(i)
  {
    var s := IntToString(i);
    assert Strip(s) == s;
    var n: nat := if i < 0 then -i else i;
    var digits := NatToString(n);
    assert DigitGroups(digits);
    assert ParseUnsigned(digits) == Some(n);
    if i < 0 {
      assert s == ['-'] + digits && s[1..] == digits;
    } else {
      assert s == digits && s[0] != '-' && s[0] != '+';
    }
  }

  // ---------------------------------------------------------------------
  // str.split(sep) and sep.join(parts)
  // ---------------------------------------------------------------------

  function IndexOf(s: string, c: char): (i: nat)
    requires c in s
    ensures i < |s| && s[i] == c && c !in s[..i]
  {
    if s[0] == c then 0
    else
      var i := 1 + IndexOf(s[1..], c);
      assert s[..i] == [s[0]] + s[1..][..i - 1];
      i
  }
  /** The first occurrence is the only position before which `c` is absent. */
  lemma IndexOfFirst(s: string, c: char, i: nat)
    requires i < |s| && s[i] == c && c !in s[..i]
    ensures IndexOf(s, c) == i
  {
    var j := IndexOf(s, c);
    assert forall k | 0 <= k < i :: s[k] != c by {
      forall k | 0 <= k < i ensures s[k] != c { assert s[..i][k] == s[k]; }
    }
    assert forall k | 0 <= k < j :: s[k] != c by {
      forall k | 0 <= k < j ensures s[k] != c { assert s[..j][k] == s[k]; }
    }
  }


  /** `sep.join(parts)`. */
  function Join(parts: seq<string>, sep: char): string {
    if |parts| == 0 then []
    else if |parts| == 1 then parts[0]
    else parts[0] + [sep] + Join(parts[1..], sep)
  }

  /** Python's `s.split(sep)` for a one-character separator. */
  function Split(s: string, sep: char): (parts: seq<string>)
    ensures |parts| >= 1
    ensures forall i | 0 <= i < |parts| :: sep !in parts[i]
    ensures Join(parts, sep) == s
    decreases |s|
  {
    if sep !in s then [s]
    else
      var i := IndexOf(s, sep);
      var rest := Split(s[i + 1..], sep);
      var parts := [s[..i]] + rest;
      assert parts[1..] == rest;
      assert s == s[..i] + [sep] + s[i + 1..];
      parts
  }

  /** Splitting a join gives the parts back when no part holds the separator. */
  lemma {:induction false} SplitJoin(xs: seq<string>, sep: char)
    requires |xs| >= 1
    requires forall i | 0 <= i < |xs| :: sep !in xs[i]
    ensures Split(Join(xs, sep), sep) == xs
  {
    var s := Join(xs, sep);
    if |xs| == 1 {
      assert s == xs[0];
    } else {
      var tail := Join(xs[1..], sep);
      assert s == xs[0] + [sep] + tail;
      assert s[|xs[0]|] == sep;
      assert s[..|xs[0]|] == xs[0];
      assert sep in s;
      var i := IndexOf(s, sep);
      assert i == |xs[0]|;
      assert s[i + 1..] == tail;
      SplitJoin(xs[1..], sep);
    }
  }

  // ---------------------------------------------------------------------
  // Code-point order on strings
  // ---------------------------------------------------------------------

  /** Python's lexicographic comparison of two strings by code point. */
  function CompareStr(a: string, b: string): Ord
    decreases |a|
  {
    if |a| == 0 && |b| == 0 then EQ
    else if |a| == 0 then LT
    else if |b| == 0 then GT
    else if a[0] < b[0] then LT
    else if a[0] > b[0] then GT
    else CompareStr(a[1..], b[1..])
  }

  predicate StrLess(a: string, b: string) {
    CompareStr(a, b) == LT
  }

  lemma {:induction false} CompareStrEq(a: string, b: string)
    ensures CompareStr(a, b) == EQ <==> a == b
    decreases |a|
  {
    if |a| > 0 && |b| > 0 && a[0] == b[0] {
      CompareStrEq(a[1..], b[1..]);
      assert a == [a[0]] + a[1..] && b == [b[0]] + b[1..];
    }
  }

  lemma {:induction false} CompareStrFlip(a: string, b: string)
    ensures CompareStr(b, a) == Flip(CompareStr(a, b))
    decreases |a|
  {
    if |a| > 0 && |b| > 0 && a[0] == b[0] {
      CompareStrFlip(a[1..], b[1..]);
    }
  }

  lemma {:induction false} StrLessTransitive(a: string, b: string, c: string)
    requires StrLess(a, b) && StrLess(b, c)
    ensures StrLess(a, c)
    decreases |a|
  {
    if |a| > 0 && |b| > 0 && |c| > 0 && a[0] == b[0] && b[0] == c[0] {
      StrLessTransitive(a[1..], b[1..], c[1..]);
    }
  }

  /** Two distinct strings are ordered one way or the other. */
  lemma StrLessTotal(a: string, b: string)
    requires a != b
    ensures StrLess(a, b) || StrLess(b, a)
  {
    CompareStrEq(a, b);
    CompareStrFlip(a, b);
  }
}

=== FILE: values.dfy ===
/** The typed values of the store: what `convert_input_to_type` produces and
    what rows persist. One datatype covers both; the persisted (JSON) form is
    the same datatype without `Date`/`DateTime` at the top. Python's `str()`,
    `==` and ordering on these values are modelled here. */
module Values {
  import opened Wrappers
  import opened Text

  // ---------------------------------------------------------------------
  // Calendar
  // ---------------------------------------------------------------------

  datatype CalendarDate = CalendarDate(year: int, month: int, day: int)

  /** A naive `datetime`: a date and a time of day to the microsecond. */
  datatype Timestamp = Timestamp(date: CalendarDate, hour: int, minute: int, second: int, micro: int)

  predicate IsLeapYear(y: int) {
    y % 4 == 0 && (y % 100 != 0 || y % 400 == 0)
  }

  function DaysInMonth(y: int, m: int): int
    requires 1 <= m <= 12
  {
    if m == 2 then (if IsLeapYear(y) then 29 else 28)
    else if m == 4 || m == 6 || m == 9 || m == 11 then 30
    else 31
  }

  /** The dates Python's `date` can hold: years 1 to 9999, real days. */
  predicate ValidDate(d: CalendarDate) {
    && 1 <= d.year <= 9999
    && 1 <= d.month <= 12
    && 1 <= d.day <= DaysInMonth(d.year, d.month)
  }

  function NatOf(x: int): nat {
    if x < 0 then 0 else x
  }

  /** `date.isoformat()`: `YYYY-MM-DD`. */
  function IsoDate(d: CalendarDate): string {
    FixedDigits(NatOf(d.year), 4) + "-" + FixedDigits(NatOf(d.month), 2) + "-" + FixedDigits(NatOf(d.day), 2)
  }

  /** `datetime.isoformat(sep)`: the date, `sep`, `HH:MM:SS`, and
      `.ffffff` only when the microseconds are not zero. */
  function IsoTimestamp(t: Timestamp, sep: char): string {
    IsoDate(t.date) + [sep]
    + FixedDigits(NatOf(t.hour), 2) + ":" + FixedDigits(NatOf(t.minute), 2) + ":" + FixedDigits(NatOf(t.second), 2)
    + (if t.micro != 0 then "." + FixedDigits(NatOf(t.micro), 6) else "")
  }

  /** `date.fromisoformat` on the strict `YYYY-MM-DD` form. */
  function ParseIsoDate(s: string): (r: Option<CalendarDate>)
    ensures r.Some? ==> ValidDate(r.value)
  {
    if |s| == 10 && s[4] == '-' && s[7] == '-'
       && AllDigits(s[..4]) && AllDigits(s[5..7]) && AllDigits(s[8..])
    then
      var d := CalendarDate(DigitsValue(s[..4]), DigitsValue(s[5..7]), DigitsValue(s[8..]));
      if ValidDate(d) then Some(d) else None
    else None
  }

  /** Every valid date is read back from its ISO text. */
  lemma IsoDateRoundTrip(d: CalendarDate)
    requires ValidDate(d)
    ensures ParseIsoDate(IsoDate(d)) == Some(d)
  {
    var s := IsoDate(d);
    assert s[..4] == FixedDigits(d.year, 4);
    assert s[5..7] == FixedDigits(d.month, 2);
    assert s[8..] == FixedDigits(d.day, 2);
    FixedDigitsValue(d.year, 4);
    FixedDigitsValue(d.month, 2);
    FixedDigitsValue(d.day, 2);
  }

  /** The only text read as a given date is that date's ISO text. */
  lemma IsoDateCanonical(s: string)
    requires ParseIsoDate(s).Some?
    ensures IsoDate(ParseIsoDate(s).value) == s
  {
    FixedDigitsOfValue(s[..4]);
    FixedDigitsOfValue(s[5..7]);
    FixedDigitsOfValue(s[8..]);
    assert s == s[..4] + "-" + s[5..7] + "-" + s[8..];
  }

  // ---------------------------------------------------------------------
  // Values
  // ---------------------------------------------------------------------

  datatype Value =
    | Null
    | Bool(b: bool)
    | Int(i: int)
    | Float(x: real)
    | Str(s: string)
    | Date(d: CalendarDate)
    | DateTime(t: Timestamp)
    | List(items: seq<Value>)
    | Dict(entries: map<string, Value>)

  /** The library calls the core makes but does not implement. The model
      promises nothing about them. */
  datatype Host = Host(
    jsonLoads: string -> Option<Value>,   // json.loads; None on JSONDecodeError
    parseFloat: string -> Option<real>,   // float(text); None on ValueError
    parseDateTime: string -> Option<Timestamp>, // datetime.fromisoformat
    floatText: real -> string,            // str(x) for a float
    containerText: Value -> string)       // str(x) for a list or dict

  /** Python's `str(v)`. */
  function PyStr(host: Host, v: Value): string {
    match v
    case Null => "None"
    case Bool(b) => if b then "True" else "False"
    case Int(i) => IntToString(i)
    case Float(x) => host.floatText(x)
    case Str(s) => s
    case Date(d) => IsoDate(d)
    case DateTime(t) => IsoTimestamp(t, ' ')
    case List(_) => host.containerText(v)
    case Dict(_) => host.containerText(v)
  }

  /** A value as rows store it: no `date`/`datetime` object at the top. */
  predicate Persistable(v: Value) {
    !v.Date? && !v.DateTime?
  }

  /** `serializable_value`: dates and datetimes become ISO strings, every
      other value is kept as it is. */
  function Serialize(v: Value): (r: Value)
    ensures Persistable(r)
    ensures r == v <==> Persistable(v)
    ensures !Persistable(v) ==> r.Str? && |r.s| > 0
  {
    match v
    case Date(d) => Str(IsoDate(d))
    case DateTime(t) => Str(IsoTimestamp(t, 'T'))
    case _ => v
  }

  // ---------------------------------------------------------------------
  // Python equality and ordering
  // ---------------------------------------------------------------------

  /** `bool` is a subclass of `int`, and both compare numerically with `float`. */
  predicate IsNumber(v: Value) {
    v.Bool? || v.Int? || v.Float?
  }

  function NumberOf(v: Value): real
    requires IsNumber(v)
  {
    match v
    case Bool(b) => if b then 1.0 else 0.0
    case Int(i) => i as real
    case Float(x) => x
  }

  /** Python's `a == b` on these values; it never raises. */
  function PyEq(a: Value, b: Value): bool
    decreases a
  {
    if IsNumber(a) && IsNumber(b) then NumberOf(a) == NumberOf(b)
    else match (a, b)
      case (Null, Null) => true
      case (Str(x), Str(y)) => x == y
      case (Date(x), Date(y)) => x == y
      case (DateTime(x), DateTime(y)) => x == y
      case (List(xs), List(ys)) =>
        |xs| == |ys| && forall i | 0 <= i < |xs| :: PyEq(xs[i], ys[i])
      case (Dict(m), Dict(n)) =>
        m.Keys == n.Keys && forall k | k in m :: PyEq(m[k], n[k])
      case _ => false
  }

  lemma {:induction false} PyEqReflexive(a: Value)
    ensures PyEq(a, a)
    decreases a
  {
    match a
    case List(xs) =>
      forall i | 0 <= i < |xs| ensures PyEq(xs[i], xs[i]) { PyEqReflexive(xs[i]); }
    case Dict(m) =>
      forall k | k in m ensures PyEq(m[k], m[k]) { PyEqReflexive(m[k]); }
    case _ =>
  }

  lemma {:induction false} PyEqSymmetric(a: Value, b: Value)
    requires PyEq(a, b)
    ensures PyEq(b, a)
    decreases a
  {
    match (a, b)
    case (List(xs), List(ys)) =>
      forall i | 0 <= i < |ys| ensures PyEq(ys[i], xs[i]) { PyEqSymmetric(xs[i], ys[i]); }
    case (Dict(m), Dict(n)) =>
      forall k | k in n ensures PyEq(n[k], m[k]) { PyEqSymmetric(m[k], n[k]); }
    case _ =>
  }

  /** Values that Python can hash: everything except lists and dicts. */
  predicate Hashable(v: Value) {
    !v.List? && !v.Dict?
  }

  lemma PyEqTransitiveOnScalars(a: Value, b: Value, c: Value)
    requires Hashable(a) && Hashable(b) && Hashable(c)
    requires PyEq(a, b) && PyEq(b, c)
    ensures PyEq(a, c)
  {
  }

  function CompareInt(x: int, y: int): Ord {
    if x < y then LT else if x > y then GT else EQ
  }

  function CompareReal(x: real, y: real): Ord {
    if x < y then LT else if x > y then GT else EQ
  }

  function Then(first: Ord, next: Ord): Ord {
    if first == EQ then next else first
  }

  function CompareDate(x: CalendarDate, y: CalendarDate): Ord {
    Then(CompareInt(x.year, y.year), Then(CompareInt(x.month, y.month), CompareInt(x.day, y.day)))
  }

  function CompareTimestamp(x: Timestamp, y: Timestamp): Ord {
    Then(CompareDate(x.date, y.date),
      Then(CompareInt(x.hour, y.hour),
        Then(CompareInt(x.minute, y.minute),
          Then(CompareInt(x.second, y.second), CompareInt(x.micro, y.micro)))))
  }

  /** The order Python's `<`, `<=`, `>`, `>=` use; `None` where Python raises
      `TypeError` (None, dicts, a date against a datetime, mixed kinds). */
  function Compare(a: Value, b: Value): Option<Ord>
    decreases a, 1, 0
  {
    if IsNumber(a) && IsNumber(b) then Some(CompareReal(NumberOf(a), NumberOf(b)))
    else match (a, b)
      case (Str(x), Str(y)) => Some(CompareStr(x, y))
      case (Date(x), Date(y)) => Some(CompareDate(x, y))
      case (DateTime(x), DateTime(y)) => Some(CompareTimestamp(x, y))
      case (List(xs), List(ys)) => CompareItems(a, b, 0)
      case _ => None
  }

  /** List order: the first position whose items differ decides, else the
      shorter list is smaller. */
  function CompareItems(a: Value, b: Value, i: nat): Option<Ord>
    requires a.List? && b.List? && i <= |a.items| && i <= |b.items|
    decreases a, 0, |a.items| - i
  {
    if i == |a.items| || i == |b.items| then Some(CompareInt(|a.items|, |b.items|))
    else if PyEq(a.items[i], b.items[i]) then CompareItems(a, b, i + 1)
    else Compare(a.items[i], b.items[i])
  }

  /** Comparing two values of different kinds (numbers aside) raises. */
  lemma CompareMixedKinds(a: Value, b: Value)
    requires !(IsNumber(a) && IsNumber(b))
    requires a.Null? || a.Dict? || b.Null? || b.Dict? || (a.Date? && b.DateTime?) || (a.Str? && !b.Str?)
    ensures Compare(a, b) == None
  {
  }
}

=== FILE: wrappers.dfy ===
/** Failure-compatible wrappers: `Option` for "maybe a value" and `Result`
    for the success-or-error outcome of an operation that Python signals by
    raising or by an early `return`. */
module Wrappers {

  datatype Option<+T> = None | Some(value: T) {

    predicate IsFailure() {
      None?
    }

    function PropagateFailure<U>(): Option<U>
      requires None?
    {
      None
    }

    function Extract(): T
      requires Some?
    {
      value
    }
  }

  datatype Result<+R, +E> = Ok(value: R) | Err(error: E) {

    predicate IsFailure() {
      Err?
    }

    function PropagateFailure<U>(): Result<U, E>
      requires Err?
    {
      Err(error)
    }

    function Extract(): R
      requires Ok?
    {
      value
    }
  }
}
